=== FILE: README.md ===
# MDS kernel IPC, object registry and stand-alone timer engine in Dafny

This project models three parts of the MDS embedded kernel:

- The inter-process-communication primitives of `src/sys/ipc.c`:
  - counting semaphores;
  - recursive mutexes with priority inheritance;
  - condition variables, built on a semaphore;
  - event flag groups;
  - reader/writer locks, built from a mutex and two conditions;
  - fixed-slot message queues;
  - fixed-block memory pools.
- The object registry of `src/object.c`. It keeps one intrusive list per object type. Each object carries a 16-byte name and a flags byte that holds the type and a "created" bit.
- The stand-alone build of `src/nosys.c`:
  - a skip-list timer engine ordered by wraparound-safe tick comparison;
  - the tick clock and wall-clock base;
  - the critical-section nesting counter;
  - busy-wait fallbacks of the semaphore, mutex and event.

## How the model is organised

| module | file | models |
|---|---|---|
| `Kernel` | kernel.dfy | Error codes, 32-bit tick arithmetic, event options, thread control blocks. `Sched` stands for the scheduler calls that `ipc.c` makes. |
| `Objects` | objects.dfy | Object headers (`Obj`) and the per-type registry lists (`Registry`). |
| `WaitLists` | waitlist.dfy | The wait-list helpers `IPC_ListSuspendThread`, `IPC_ListSuspendWait`, `IPC_ListResumeThread` and `IPC_ListResumeAllThread`. |
| `Semaphores`, `Mutexes`, `Conditions`, `Events`, `RwLocks` | semaphore.dfy, mutex.dfy, condition.dfy, event.dfy, rwlock.dfy | The blocking primitives of `ipc.c`. |
| `Links` | links.dfy | The NULL-terminated slot lists threaded through a buffer. |
| `MsgQueues`, `MemPools` | msgqueue.dfy, mempool.dfy | The message queue and the memory pool. |
| `Timers` | timers.dfy | Timer engine, clock and critical nesting of `nosys.c`. |
| `Fallback` | fallback.dfy | The busy-wait semaphore, mutex and event of `nosys.c`. |

Objects whose fields the C code updates in place are classes:
- Every primitive, the registry and the scheduler (`Sched`).
- The timer engine's globals (`Timers.Sys`).

The lists they hold are `seq` fields.

**Wait lists.** A wait list is the sequence of parked threads, head first. Priority parking inserts a thread behind every waiter of equal or more urgent priority (`WaitLists.Enqueue`).

**Slot lists.** The message queue and the memory pool keep their slot lists twice:
- as the concrete `next` links (a `seq<Option<nat>>` indexed by slot) together with the list heads;
- as ghost sequences of slot numbers.

The predicate `Links.Chain` ties the two together.

**Blocking calls.** A call that can block returns a `Step`:
- `Done(err)` when it returns at once;
- `Blocked` when the caller was parked.

What a parked caller does once it runs again is a separate method (`SendWoken`, `RecvWoken`, `AllocWoken`, `Conditions.WaitWoken`). That method receives the ticks spent waiting as a parameter.

A woken continuation parks again with the timeout the caller passed in. `IPC_ListSuspendWait` (`src/sys/ipc.c:49-70`) subtracts the elapsed ticks from its own copy of the timeout only, so the caller's loop never sees that change.

**Addresses.**
- A message-queue receiver gets the payload address as an offset from the start of the buffer (`Payload`). `RecvRelease` maps it back with `SlotOf`.
- A memory-pool block is named by its index.

**Caller contracts.** The C code trusts some arguments it does not check. The model states these as `requires`:
- `MsgQueue.RecvRelease` takes an address that was handed out, or one that is not on a slot boundary.
- `MemPool.Free` takes a block that was allocated and not yet freed.
- `Event.Wait` takes options that do not name both AND and OR, which `src/sys/ipc.c:697-698` asserts.
- `Semaphore.Acquire` and `Event.Wait` are called from a thread whenever they take a path that writes through the current thread. These writes are `thread->err` (`src/sys/ipc.c:164`, `src/sys/ipc.c:727`) and `thread->eventMask` (`src/sys/ipc.c:718-721`). The same holds for `Conditions.DeInit` and `Conditions.BroadCast`, which acquire at count 0, and for `RwLock.Wake`, which broadcasts.

## Model

| member | source | states |
|---|---|---|
| Kernel.TickSub | src/nosys.c:23 | Adding `b` back to the result, modulo 2^32, gives `a`. |
| Kernel.TickAdd | src/nosys.c:148 | Subtracting `a` from the result under wraparound gives back `b`. |
| Kernel.Satisfied | src/sys/ipc.c:700-702 | A wait can only be satisfied with a rule named, and a non-empty mask is satisfied only when some of its bits are set. When both rules are named, satisfaction is exactly "some mask bit is set". |
| Kernel.Consumed | src/sys/ipc.c:722-724 | A satisfied wait clears exactly its mask bits unless `OPT_NOCLR` is given. No bit outside the mask changes. |
| Kernel.Remove | src/object.c:61 | Afterwards `x` is gone, every other node is kept, and no node is added. An absent `x` leaves the list unchanged. On a list without repeats, the length drops by exactly one when `x` was present. |
| Kernel.RemoveAppended | src/object.c:50-61 | Unlinking a node that was just appended restores the list. |
| Kernel.Sched.Suspend | src/sys/ipc.c:24-27 | Suspending a runnable thread succeeds. The thread leaves the runnable set with its error slot reset. Any other thread is refused with no change. |
| Kernel.Sched.Resume | src/sys/ipc.c:76 | The thread becomes runnable and its timeout timer is disarmed. Nothing else changes. |
| Kernel.Sched.ChangePriority | src/sys/ipc.c:417 | Only that thread's current priority changes. |
| Kernel.Sched.StartTimer | src/sys/ipc.c:45 | The thread's timer is armed with the given ticks. Nothing else changes. |
| Kernel.Sched.SetEvent | src/sys/ipc.c:734-735 | Only the thread's event mask and options change. |
| Kernel.Sched.SetErr | src/sys/ipc.c:87 | Only the thread's error slot changes. |
| Objects.GetType | src/object.c:133-138 | The type is below 128, and the flags are that type with or without the created bit. |
| Objects.IsCreated | src/object.c:140-145 | True exactly when bit 7 of the flags is set. |
| Objects.CreatedBitIsSeparate | src/object.c:16-17 | Setting the created bit never changes the type read back, and a bare type tag is not created. |
| Objects.CopyName | src/object.c:47 | At most 15 characters are kept, and they are a prefix of the name. A name that fits is kept whole, and a longer one keeps exactly 15. |
| Objects.StrnEq | src/object.c:103 | When the first name is shorter than the bound, `strncmp` over the bound reports equal exactly when the names are equal. |
| Objects.StoredNameMatches | src/object.c:47 | Through the `strncmp` of line 103, the stored name matches the name it came from exactly when that name fits the buffer. |
| Objects.JoinThenLeave | src/object.c:50-61 | Joining a type list and then leaving it leaves every type list as it was. |
| Objects.Obj.constructor | src/object.c:70 | A fresh header is zeroed. |
| Objects.Registry.constructor | src/object.c:21-33 | One empty list per object type. |
| Objects.Registry.Init | src/object.c:36-54 | A header in use is refused with `EAGAIN` and nothing changes. Otherwise the header takes the type and the truncated name and joins the tail of its type's list. No other list changes. |
| Objects.Registry.DeInit | src/object.c:56-66 | The header is unlinked from every list and its flags become `NONE`. |
| Objects.Registry.Create | src/object.c:68-78 | No memory gives no object and no change. Otherwise the zeroed header is registered with its type and the created bit. |
| Objects.Registry.Destory | src/object.c:80-93 | A header that was not created is refused with `EFAULT` and nothing changes. Otherwise it is de-initialised. |
| Objects.Registry.Find | src/object.c:95-110 | An empty name finds nothing. Otherwise the result is the first object in insertion order whose stored name matches. With no match the result is `None`. |
| Objects.Registry.CountIsRegistered | src/object.c:119-124 | `MDS_ObjectGetCount` is the number of distinct headers on the type list, and every one of them is of that type. |
| WaitLists.PrioPosIs | src/sys/ipc.c:31-38 | The parking position is the first waiter of numerically greater priority, or the end of the list. |
| WaitLists.PrioPos | src/sys/ipc.c:28-42 | Every waiter before the position is at least as urgent as `p`. The waiter at the position, if any, is strictly less urgent. |
| WaitLists.Enqueue | src/sys/ipc.c:29-42 | The thread is inserted once: priority parking at `PrioPos`, FIFO parking at the tail. |
| WaitLists.EnqueueIsPermutation | src/sys/ipc.c:29-42 | The new list is the old one plus exactly the parked thread, as a multiset. |
| WaitLists.EnqueueKeepsSorted | src/sys/ipc.c:31-38 | Priority parking keeps the list sorted by priority. The thread lands behind every waiter at least as urgent (FIFO among equals) and ahead of every less urgent one, and the other waiters keep their order. |
| WaitLists.SuspendThread | src/sys/ipc.c:19-47 | A runnable thread is suspended and parked on the list. For a timeout below `TIMER_MAX` its timer is armed. A thread that cannot be suspended leaves the list unchanged. |
| WaitLists.ResumeThread | src/sys/ipc.c:72-77 | The head waiter leaves the list and becomes runnable. The rest of the list is unchanged. |
| WaitLists.ResumeFront | src/sys/ipc.c:1005-1014 | The head waiter, if any, is woken. The list loses exactly that thread. |
| WaitLists.ResumeAll | src/sys/ipc.c:79-93 | Every waiter becomes runnable with `EAGAIN` in its error slot and its timer disarmed, and the list ends empty. Threads not on the list are untouched, and so are their timers. |
| WaitLists.Force | src/sys/ipc.c:86-88 | One waiter gets `EAGAIN` in its error slot, becomes runnable and has its timer stopped. No other thread changes. |
| WaitLists.ForcedOnGrows | src/sys/ipc.c:83-92 | Each round of the wake-all loop adds exactly the thread it wakes to the set of threads forced, leaving every other thread as it was. |
| WaitLists.Forced | src/sys/ipc.c:86-89 | A waiter woken by a teardown has `EAGAIN` in its error slot and keeps its priority and event mask. |
| WaitLists.WithErr | src/sys/ipc.c:164 | The thread's error slot becomes `e`. Its priority and event mask are kept, and every other thread is unchanged. |
| WaitLists.WaitResult | src/sys/ipc.c:56-69 | An error wake-up is returned as it is. A plain wake-up gives `EOK` within the timeout and `ETIMEOUT` after it. |
| Semaphores.Semaphore.constructor | src/sys/ipc.c:124 | Zeroed memory. |
| Semaphores.Semaphore.Init | src/sys/ipc.c:96-109 | A header in use gives `EAGAIN` and no change. Otherwise the count is `init`, the ceiling `max`, and nobody waits. The header joins the tail of its type list (`Joined`), and no other list changes. |
| Semaphores.Semaphore.DeInit | src/sys/ipc.c:111-119 | Every waiter is woken with `EAGAIN`. Exactly their timers are stopped, and no other thread or timer changes. The header is unlinked from every type list (`Left`). |
| Semaphores.Semaphore.Destroy | src/sys/ipc.c:134-142 | Every waiter is woken with `EAGAIN`. Exactly their timers are stopped, and no other thread or timer changes. A header that was not created gives `EFAULT` with the registry and its flags unchanged. Otherwise the header leaves every type list (`Left`) and its flags become 0. |
| Semaphores.Semaphore.Acquire | src/sys/ipc.c:144-181 | A positive count is decremented. At 0, a no-wait call writes `ETIMEOUT` into the caller's error slot and returns it. Outside thread context a waiting call returns `EOK` without taking anything, as the source does. On these paths no thread is parked or woken. Otherwise the caller parks in priority order (`Sched.Parked`): it leaves the runnable set, its error slot is reset, and its timer is armed below `TIMER_MAX`. No other thread changes. The invariant (a positive count means nobody waits) is kept. |
| Semaphores.Semaphore.Release | src/sys/ipc.c:183-211 | With waiters, the head is woken and the count is unchanged. Otherwise the count grows by one below the ceiling, and at the ceiling the result is `ERANGE`. The count never exceeds the ceiling. |
| Semaphores.Semaphore.GetValue | src/sys/ipc.c:213-222 | The count and the ceiling. Under the invariant a positive count means nobody waits, and a waiter means the count is 0. |
| Semaphores.Create | src/sys/ipc.c:121-132 | No memory gives no semaphore and no change. Otherwise the semaphore is created, starts like `Init`, and joins the tail of the semaphore list (`Joined`). |
| Mutexes.Mutex.constructor | src/sys/ipc.c:349 | Zeroed memory. |
| Mutexes.Mutex.Init | src/sys/ipc.c:320-334 | A header in use gives `EAGAIN`. Otherwise the mutex is free (`value == 1`, no owner, nest 0) and nobody waits. The header joins the tail of its type list (`Joined`), and no other list changes. |
| Mutexes.Mutex.DeInit | src/sys/ipc.c:336-344 | Every waiter is woken with `EAGAIN`. Exactly their timers are stopped, and no other thread or timer changes. The header is unlinked from every type list (`Left`). |
| Mutexes.Mutex.Destroy | src/sys/ipc.c:361-369 | Every waiter is woken with `EAGAIN`. Exactly their timers are stopped, and no other thread or timer changes. A header that was not created gives `EFAULT` with the registry and its flags unchanged. Otherwise the header leaves every type list (`Left`) and its flags become 0. |
| Mutexes.Mutex.Acquire | src/sys/ipc.c:371-429 | The owner nests one level deeper, and a free mutex is taken with the caller's priority recorded. On both paths the scheduler is unchanged. Every other call (`Missed`) keeps owner, nest, value and recorded priority. Outside thread context it gives `EACCES`, and a full nesting counter gives `ERANGE`, both with the scheduler unchanged. A held mutex gives `ETIMEOUT` to a no-wait caller, with only its error slot written. Otherwise the owner inherits the more urgent priority (`Lent`), and the caller parks in priority order with its error slot reset and its timer armed. No other thread and no timer changes. |
| Mutexes.Mutex.Park | src/sys/ipc.c:413-420 | The owner takes the caller's priority when that is more urgent (`Lent`). The caller leaves the runnable set, its error slot is reset, its timer is armed below `TIMER_MAX`, and it joins the list in priority order. |
| Mutexes.Mutex.Release | src/sys/ipc.c:431-490 | Without a current thread: `EACCES` and no change. A thread that does not own the mutex gets `EACCES` in its error slot. The owner lets go one level (`LetGo`). At the last level it gets back its recorded priority, and the mutex passes to the head waiter, or becomes free when nobody waits (`Unwound`). The head waiter becomes runnable with its timer stopped, and no other thread or timer changes. |
| Mutexes.Mutex.GetOwner | src/sys/ipc.c:492-498 | Under the invariant: `None` exactly when the mutex is free (`value == 1`, `nest == 0`). An owner is a known thread that holds at least one level. |
| Mutexes.Min | src/sys/ipc.c:416-417 | The more urgent (numerically smaller) of two priorities. |
| Mutexes.Lent | src/sys/ipc.c:416-418 | The owner ends at least as urgent as before and as the caller, and every other thread is unchanged. |
| Mutexes.Create | src/sys/ipc.c:346-359 | No memory gives no mutex and no change. Otherwise the mutex is created, free, and joins the tail of the mutex list (`Joined`). |
| Conditions.Init | src/sys/ipc.c:225-230 | A header in use gives `EAGAIN` and no change to the registry. Otherwise a semaphore with count 0 and ceiling `SIZE_MAX` that joins the tail of the semaphore list. |
| Conditions.DeInit | src/sys/ipc.c:232-248 | With waiters the result is `EBUSY` and nothing changes: the count, the ceiling, the header's flags, the registry and the scheduler are as they were. Otherwise one no-wait acquire is made: it takes a positive count, and at 0 it writes `ETIMEOUT` into the caller's error slot, with no runnable thread or timer changed. The header then leaves every type list (`Left`). |
| Conditions.BroadCastValue | src/sys/ipc.c:250-264 | The count a broadcast leaves: 1 after waking from count 0, otherwise the count unchanged. |
| Conditions.BroadCast | src/sys/ipc.c:250-264 | Every waiter is woken in queue order and the list ends empty. Exactly their timers are stopped. The count ends at `BroadCastValue`. |
| Conditions.BroadCastStep | src/sys/ipc.c:256-261 | One loop round: a no-wait acquire, then a release when the acquire timed out or succeeded. |
| Conditions.Signal | src/sys/ipc.c:266-281 | Without waiters nothing changes. Otherwise the head waiter is woken and the count is unchanged. |
| Conditions.Wait | src/sys/ipc.c:283-317 | A non-owner of the mutex gets `EACCES`. A pending signal is consumed at once. A no-wait call gives `ETIMEOUT`. On these paths the mutex, the runnable set and the timers are unchanged. Otherwise the caller joins the tail of the list and the mutex is let go one level (`LetGo`). In the scheduler (`ParkedUnwound`) the caller leaves the runnable set with its error slot reset and its timer armed. At the mutex's last level the head waiter of the mutex is woken and the caller gets back its recorded priority. |
| Conditions.WaitWoken | src/sys/ipc.c:311-316 | The result is the wake reason. The mutex is taken back with `Mutex.Acquire`'s whole effect: a caller that still owns it nests one level deeper, a free mutex is taken with the caller's priority recorded, both with the scheduler unchanged. Otherwise the call is the mutex's `Missed` for a wait for ever: `EACCES` or `ERANGE` with nothing changed, or the owner inherits the caller's priority (`Lent`) and the caller parks on the mutex with its error slot reset. |
| Events.Wakes | src/sys/ipc.c:770-778 | A waiter woken by the scan has its wake rule satisfied and does not stop the scan. For a waiter that chose one rule, the test is exactly the wake rule it asked for. |
| Events.Stops | src/sys/ipc.c:770-778 | A waiter that stops the scan has a wait no flag value can satisfy. |
| Events.OneRule | src/sys/ipc.c:697-698 | Options that do not name both rules and name AND do not name OR. |
| Events.FirstMatch | src/sys/ipc.c:768-781 | Every waiter before the result neither wakes nor stops the scan. The waiter at the result does one or the other. |
| Events.Narrowed | src/sys/ipc.c:776 | An OR waiter keeps only the bits that are set. An AND waiter keeps its mask. |
| Events.NarrowedIsReceived | src/sys/ipc.c:770-778 | A woken waiter receives only set bits it asked for: all of them under AND, a non-empty subset under OR. |
| Events.ReceivedIsSet | src/sys/ipc.c:776 | Every received bit is set. |
| Events.ReceivedIsAsked | src/sys/ipc.c:776 | Every received bit was asked for. |
| Events.ReceivedUnderOr | src/sys/ipc.c:775-777 | An OR waiter receives at least one bit. |
| Events.ImmediateRecvAsWritten | src/sys/ipc.c:717-720 | The immediate path reports the previous `eventMask`. |
| Events.StaleRecv | src/sys/ipc.c:715-720 | A concrete caller gets a `recv` that differs from the bits it received. |
| Events.Event.constructor | src/sys/ipc.c:673 | Zeroed memory. |
| Events.Event.Init | src/sys/ipc.c:647-658 | A header in use gives `EAGAIN`. Otherwise no flag is set and nobody waits. The header joins the tail of its type list (`Joined`), and no other list changes. |
| Events.Event.DeInit | src/sys/ipc.c:660-668 | Every waiter is woken with `EAGAIN`. Exactly their timers are stopped, and no other thread or timer changes. The header is unlinked from every type list (`Left`). |
| Events.Event.Destroy | src/sys/ipc.c:682-690 | Every waiter is woken with `EAGAIN`. Exactly their timers are stopped, and no other thread or timer changes. A header that was not created gives `EFAULT` with the registry and its flags unchanged. Otherwise the header leaves every type list (`Left`) and its flags become 0. |
| Events.Event.Wait | src/sys/ipc.c:692-750 | An empty mask or no rule gives `EINVAL` and changes nothing. A satisfied wait succeeds at once: the caller receives `value & mask`, its thread records those bits and the options, and the flags are `Consumed`. Otherwise a no-wait call writes `ETIMEOUT` into the caller's error slot and returns it. Outside thread context a waiting call returns `EOK` with nothing received, as the source does. Anything else parks the caller in priority order with its mask and options recorded, its error slot reset and its timer armed. No other thread changes. |
| Events.Event.Park | src/sys/ipc.c:734-736 | The caller records its mask and options and parks in priority order. It leaves the runnable set with its error slot reset and its timer armed below `TIMER_MAX`, and no other thread changes. |
| Events.Event.Scan | src/sys/ipc.c:768-781 | The loop's stopping index is `FirstMatch`. |
| Events.Event.Match | src/sys/ipc.c:767-785 | The bits are raised. The result is `EOK` exactly when nobody waits or the scan stops at a waiter whose rule holds. That waiter's mask is narrowed and consumed. Otherwise the result is `EINVAL`. |
| Events.Event.SetAsWritten | src/sys/ipc.c:752-796 | The scan and its result are those of `Set`: the matched waiter's mask is narrowed (`Narrowed`) and its bits are `Consumed`, and no match gives `EINVAL` with nothing woken. But on a match the head of the list is the thread resumed and taken off the list, with its timer stopped; no other thread changes. |
| Events.Event.Set | src/sys/ipc.c:752-796 | Nobody waiting: the bits are raised, the result is `EOK`, and no timer changes. Otherwise the waiter the scan matched is resumed with the bits it receives. With no match the result is `EINVAL`, nobody is woken and no timer changes. |
| Events.Event.Clr | src/sys/ipc.c:798-816 | The mask bits are cleared, and every other bit is kept. |
| Events.MatchBehindHead | src/sys/ipc.c:768-786 | A concrete list where the scan matches the second waiter while the head's rule fails. |
| Events.Create | src/sys/ipc.c:670-680 | No memory gives no event and no change. Otherwise the event is created with no flag set, and joins the tail of the event list (`Joined`). |
| RwLocks.Remaining | src/sys/ipc.c:567-569 | The timeout left after `elapsed` ticks. Forever stays forever. A wait is `NO_WAIT` exactly when the deadline has passed. Otherwise `r + elapsed == timeout`. |
| RwLocks.WaitTimeoutAsWritten | src/sys/ipc.c:567-569 | The timeout of the `n`-th wait as written is never longer than the caller's. |
| RwLocks.WaitTimeoutAsWrittenIs | src/sys/ipc.c:567-569 | As written, the `n`-th wait is shortened by `n` times the elapsed ticks. |
| RwLocks.ElapsedCountedTwice | src/sys/ipc.c:567-569 | A second wait 3 ticks into a 10-tick acquire gets 4 ticks as written, against 7 left. |
| RwLocks.RemainingKeepsDeadline | src/sys/ipc.c:567-569 | A wait made with `Remaining` ends at the caller's deadline, whichever round it is. The `n`-th wait as written ends `(n - 1) * elapsed` ticks early. |
| RwLocks.Unlocked | src/sys/ipc.c:627-631 | A release drops one reader, or the writer (-1 becomes 0). |
| RwLocks.ReleasesFreeTheLock | src/sys/ipc.c:627-631 | Once each of `k` readers has released, or the writer has, the count is 0 again, and further releases keep it at 0. |
| RwLocks.RwLock.constructor | src/sys/ipc.c:501-513 | Three distinct zeroed embedded objects, and no holder. |
| RwLocks.RwLock.Init | src/sys/ipc.c:501-513 | The mutex header decides `EAGAIN` or `EOK`. `EAGAIN` leaves the registry unchanged. On success both conditions are initialised, the lock is idle, and the invariant holds. The mutex joins the mutex list, and each condition whose header was free joins the semaphore list. |
| RwLocks.RwLock.ReadHeld | src/sys/ipc.c:562-583 | With the mutex held, a reader enters when no writer holds the lock and none waits. Otherwise it waits on the readers' condition, each wait getting the time left to the caller's deadline (`Remaining`). Errors pass through unchanged. On return the mutex is let go one level (`LetGo`, with `Unwound` in the scheduler), and the readers' condition is unchanged. A parked caller joins the condition and, in the scheduler, `ParkedUnwound` holds. |
| RwLocks.RwLock.ReadWait | src/sys/ipc.c:564-575 | While a writer holds or waits, the caller waits on the readers' condition. It either parks there (`ParkedUnwound`, mutex let go one level) or ends with the mutex and the scheduler unchanged: the entry error as it was, or `ETIMEOUT` from a no-wait wait with the condition's count 0. |
| RwLocks.RwLock.WriteHeld | src/sys/ipc.c:594-615 | A writer enters only an idle lock (`readers` becomes -1). Otherwise it waits on the writers' condition, each wait getting the time left to the caller's deadline (`Remaining`). On return the mutex is let go one level (`LetGo`, with `Unwound` in the scheduler), and the writers' condition is unchanged. A parked caller joins the condition and, in the scheduler, `ParkedUnwound` holds. |
| RwLocks.RwLock.WriteWait | src/sys/ipc.c:596-607 | While anybody holds the lock, the caller waits on the writers' condition. It either parks there (`ParkedUnwound`, mutex let go one level) or ends with the mutex and the scheduler unchanged: the entry error as it was, or `ETIMEOUT` from a no-wait wait. |
| RwLocks.RwLock.AcquireRead | src/sys/ipc.c:554-584 | Success means no writer held or waited, and `readers` grew by one. A failure changes nothing. When the mutex cannot be taken, the call is the mutex's `Missed`, and the lock and both conditions are unchanged. Otherwise the mutex ends as found. A finished call leaves the conditions and the scheduler unchanged (`Sched.Woke({})`). A parked caller is on the tail of the readers' condition, and `Sched.Parked` holds with the time left. |
| RwLocks.RwLock.AcquireWrite | src/sys/ipc.c:586-616 | Success means the lock was idle, and it is now held by the writer. A failure changes nothing. When the mutex cannot be taken, the call is the mutex's `Missed`, and the lock and both conditions are unchanged. Otherwise the mutex ends as found. A finished call leaves the conditions and the scheduler unchanged (`Sched.Woke({})`). A parked caller is on the tail of the writers' condition, and `Sched.Parked` holds with the time left. |
| RwLocks.RwLock.ReleaseHeld | src/sys/ipc.c:625-643 | `readers` becomes `Unlocked(readers)`. Waiters are woken as `Wake` says, and the mutex is let go one level (`LetGo`). In the scheduler, exactly the woken condition waiters and the mutex's head waiter become runnable with their timers stopped. The owner gets back its recorded priority at the last level. |
| RwLocks.RwLock.Wake | src/sys/ipc.c:632-640 | With writers waiting, the head writer is signalled once the lock is idle. With none waiting, every reader is broadcast. `Waking` gives the new condition lists and states that exactly the woken threads become runnable with their timers stopped. |
| RwLocks.RwLock.Release | src/sys/ipc.c:618-644 | When the mutex cannot be taken, the call is the mutex's `Missed` (`EACCES` outside thread context), and the lock and both conditions are unchanged. Otherwise the result is `EOK`, `readers == Unlocked(old readers)`, the mutex ends as found, and waiters are woken as `Waking` says. |
| RwLocks.RwLock.DeInitAsWritten | src/sys/ipc.c:515-552 | As written it never returns `EOK`. With the mutex free it gives `EBUSY`. |
| RwLocks.RwLock.DeInit | src/sys/ipc.c:515-552 | When the mutex can be taken, an idle lock is torn down (`EOK`): all three headers leave every type list, the mutex's waiters are woken with `EAGAIN` and their timers stopped, the caller gets `ETIMEOUT` in its error slot from the probe of the writers' condition, and the mutex ends with nobody waiting. A busy lock is refused with `EBUSY`, keeps its invariant, and leaves the registry, the mutex's wait list and the scheduler unchanged. When the mutex cannot be taken, the call is the mutex's `Missed` for a no-wait acquire: `EACCES`, `ERANGE`, or `ETIMEOUT` in the caller's error slot when another thread holds it, with the lock's conditions unchanged. The mutex keeps its owner, nest and value on every path. |
| RwLocks.RwLock.TearDown | src/sys/ipc.c:540-547 | Both conditions and the mutex leave every type list. The mutex is let go one level: still held one level less when nested, free when held once with nobody waiting. The waiters of the mutex are woken with `EAGAIN` and their timers stopped, and the caller's error slot holds `ETIMEOUT`; no other thread changes. |
| RwLocks.RwLock.DropMutex | src/sys/ipc.c:545-549 | The mutex is let go one level and then leaves every type list. Its waiters are woken with `EAGAIN` and their timers stopped, and no other thread changes. |
| Links.AlignUp | src/sys/ipc.c:863 | The smallest multiple of 4 at or above the size. |
| Links.ChainPop | src/sys/ipc.c:961-965 | Taking the first slot off a chain leaves the chain its `next` starts. |
| Links.ChainPush | src/sys/ipc.c:1005-1006 | Linking an outside slot in front of a chain gives a chain that starts at that slot. |
| Links.ChainFrame | src/sys/ipc.c:1106-1112 | Rewriting the header of a slot outside a chain leaves the chain intact. |
| Links.ChainAppend | src/sys/ipc.c:1106-1112 | Linking a NULL-terminated outside slot after the last slot extends the chain by that slot. |
| Links.ChainDistinct | src/sys/ipc.c:1212-1242 | A NULL-terminated chain visits no slot twice. |
| Links.Desc | src/sys/ipc.c:844-850 | The slots `n - 1` down to 0. |
| Links.CountChain | src/sys/ipc.c:1218-1223 | The walk counts exactly the slots of the chain. |
| MsgQueues.Read | src/sys/ipc.c:1172 | A copy of `len` bytes reads them exactly when the buffer is there and holds that many. It reads the first `len` bytes. |
| MsgQueues.UrgentEntryAsWritten | src/sys/ipc.c:1197 | As written, a real buffer always fails the assertion, and no call ever copies a message. |
| MsgQueues.UrgentEntry | src/sys/ipc.c:1135-1172 | With the assertion corrected, only a missing buffer fails it. A refusal is the one the call as written gives. An accepted copy of a buffer of at least `len` bytes copies its first `len` bytes. |
| MsgQueues.UrgentEntryCopiesBuffer | src/sys/ipc.c:1141-1172 | With the assertion corrected, an accepted length, a free slot and a buffer of at least `len` bytes copy exactly its first `len` bytes. A bad length gives `EINVAL` and a full queue `ERANGE`, as in the call as written. |
| MsgQueues.PostKeepsSlots | src/sys/ipc.c:1085-1112 | Taking the first free slot and appending it keeps the slot lists well formed. The slot moves from the free list to the back of the queue, and the slot count is conserved. |
| MsgQueues.UrgentKeepsSlots | src/sys/ipc.c:1178-1182 | Taking the first free slot and prepending it keeps the lists well formed. The slot moves to the front of the queue. |
| MsgQueues.TakeKeepsSlots | src/sys/ipc.c:960-966 | Unlinking the first queued slot keeps the lists well formed. `ltail` is cleared when the queue empties, and the slot goes to the receivers. |
| MsgQueues.ReleaseKeepsSlots | src/sys/ipc.c:1005-1006 | Pushing a released slot keeps the lists well formed. The slot moves from the receivers to the front of the free list. |
| MsgQueues.MsgQueue.constructor | src/sys/ipc.c:888 | Zeroed memory: no slots, empty lists. |
| MsgQueues.MsgQueue.Stride | src/sys/ipc.c:863 | A slot is at least the 8-byte header. |
| MsgQueues.MsgQueue.PayloadRoundTrip | src/sys/ipc.c:997-1001 | The address handed to a receiver is on a slot boundary and leads back to the same slot. |
| MsgQueues.MsgQueue.HeadTailAgree | src/sys/ipc.c:1108-1111 | No head exactly when no tail, exactly when no message is queued. |
| MsgQueues.MsgQueue.ListInit | src/sys/ipc.c:838-851 | The free list holds every slot, last first (`Desc(n)`). No message is queued and nothing is taken. |
| MsgQueues.MsgQueue.Init | src/sys/ipc.c:853-872 | As at the assertion of line 858, the buffer must be longer than a header plus the unaligned size asked for; after alignment it may still hold no slot (size 1 and 10 bytes give a 12-byte stride and no slot). A header in use gives `EAGAIN` and no change. Otherwise the payload size is the size asked for, aligned, and the buffer holds `bufSize / Stride()` slots, all free. The header joins the tail of the message-queue list (`Joined`). |
| MsgQueues.MsgQueue.Format | src/sys/ipc.c:863-868 | Empties both wait lists and builds `n` free slots. |
| MsgQueues.MsgQueue.DeInit | src/sys/ipc.c:874-883 | Every receiver and sender is woken with `EAGAIN`. Exactly their timers are stopped, and no other thread or timer changes. The header is unlinked from every type list (`Left`). |
| MsgQueues.MsgQueue.Destroy | src/sys/ipc.c:909-920 | Every receiver and sender is woken with `EAGAIN`. Exactly their timers are stopped, and no other thread or timer changes. A header that was not created gives `EFAULT` with the registry and its flags unchanged. Otherwise the header leaves every type list (`Left`) and its flags become 0. |
| MsgQueues.MsgQueue.WakeAll | src/sys/ipc.c:878-879 | Both wait lists are emptied, and their threads are woken with `EAGAIN`. Exactly their timers are stopped, and no other thread or timer changes. |
| MsgQueues.MsgQueue.Post | src/sys/ipc.c:1085-1119 | The first free slot joins the back of the queue with length `len`. The head receiver, if any, is woken. |
| MsgQueues.MsgQueue.Append | src/sys/ipc.c:1085-1112 | The first free slot, holding `len`, moves to the back of the queue. |
| MsgQueues.MsgQueue.Take | src/sys/ipc.c:960-966 | The oldest message's slot moves to the receivers. The caller gets its payload address and length. |
| MsgQueues.MsgQueue.ParkSender | src/sys/ipc.c:1069-1073 | The caller parks on the senders' list in priority order (`Sched.Parked`): it leaves the runnable set, its error slot is reset, its timer is armed below `TIMER_MAX`, and nothing else in the scheduler changes. |
| MsgQueues.MsgQueue.ParkReceiver | src/sys/ipc.c:942-946 | The caller parks on the receivers' list in priority order (`Sched.Parked`): it leaves the runnable set, its error slot is reset, its timer is armed below `TIMER_MAX`, and nothing else in the scheduler changes. |
| MsgQueues.MsgQueue.Send | src/sys/ipc.c:1040-1133 | A length of 0 or above the payload size gives `EINVAL`. With a free slot the message is appended and exactly the head receiver is woken (`Sched.Woke`). Full with no wait gives `ERANGE`, and full outside thread context `EACCES`; on the refusals the scheduler is unchanged. Otherwise the caller parks (`Sched.Parked`). |
| MsgQueues.MsgQueue.SendWoken | src/sys/ipc.c:1074-1100 | A timeout wake-up becomes `ERANGE`, and another error is returned as it is; both leave the queue, the lists and the scheduler unchanged. A plain wake-up with a free slot posts the message and wakes exactly the head receiver. Without one the caller parks again (`Sched.Parked`). |
| MsgQueues.MsgQueue.Urgent | src/sys/ipc.c:1135-1202 | Like a send that never waits (`ERANGE` when full), but the message goes to the front of the queue. Exactly the head receiver is woken; a refusal leaves the scheduler unchanged. |
| MsgQueues.MsgQueue.Prepend | src/sys/ipc.c:1178-1182 | The first free slot, holding `len`, moves to the front of the queue. |
| MsgQueues.MsgQueue.RecvAcquire | src/sys/ipc.c:922-986 | The oldest message is handed out. Empty with no wait gives `ETIMEOUT`; empty outside thread context gives `EACCES`. On these paths the scheduler is unchanged. Otherwise the caller parks (`Sched.Parked`). |
| MsgQueues.MsgQueue.RecvWoken | src/sys/ipc.c:947-958 | An error wake-up is returned with the queue, the lists and the scheduler unchanged. Otherwise a queued message is handed out with the scheduler unchanged, or the caller parks again (`Sched.Parked`). The senders' list never changes. |
| MsgQueues.MsgQueue.RecvRelease | src/sys/ipc.c:988-1017 | NULL, or an address off a slot boundary, gives `EINVAL` with no change. Otherwise the slot goes to the front of the free list and exactly the head sender is woken. |
| MsgQueues.MsgQueue.RecvCopy | src/sys/ipc.c:1019-1038 | With a message queued, its slot goes straight to the front of the free list and the caller gets its length. The slots receivers hold and the receivers' list are unchanged, and exactly the head sender is woken. With the queue empty the result is that of `RecvAcquire`: a refusal leaves the scheduler unchanged, and a parked caller joins the receivers' list (`Sched.Parked`). |
| MsgQueues.MsgQueue.GetMsgSize | src/sys/ipc.c:1204-1210 | The size asked for at `Init`, rounded up to the alignment: a multiple of 4, at least the size asked for and less than 4 above it. A slot is that size plus its header. |
| MsgQueues.MsgQueue.GetMsgCount | src/sys/ipc.c:1212-1226 | The number of queued messages. |
| MsgQueues.MsgQueue.GetMsgFree | src/sys/ipc.c:1228-1242 | The number of free slots. |
| MsgQueues.Create | src/sys/ipc.c:885-907 | A queue results exactly when both the object and the buffer were obtained. It then joins the tail of the message-queue list, with the size asked for recorded. A failed buffer undoes the registration, leaving every type list as it was. |
| MsgQueues.DivMulBound | src/sys/ipc.c:863-868 | Whole slots cut from a buffer fit in it. |
| MemPools.AllocKeepsBlocks | src/sys/ipc.c:1340-1346 | Taking the first free block and stamping the pool on it keeps the block lists well formed. |
| MemPools.FreeKeepsBlocks | src/sys/ipc.c:1391-1395 | Pushing an allocated block on the free list keeps the block lists well formed. |
| MemPools.FreeUndoesAlloc | src/sys/ipc.c:1340-1346 | Allocating the first free block and freeing it again restores every part of the pool: the block's header link, its stamp, the free-list head, the free list and the blocks handed out. |
| MemPools.WalkOnAsWritten | src/sys/ipc.c:1436 | As written, the loop guard holds at every block and at NULL. |
| MemPools.WalkAsWritten | src/sys/ipc.c:1434-1437 | As written, the walk never ends with a count. When it reads through NULL it has counted at least one more block. |
| MemPools.WalkReadsNull | src/sys/ipc.c:1434-1437 | As written, the walk over any NULL-terminated free list counts every block and NULL too, and then reads the `next` field of NULL. |
| MemPools.CreateBytesAsWritten | src/sys/ipc.c:1301 | The as-written size exceeds what the blocks need by 4 bytes per block. |
| MemPools.CreateBytes | src/sys/ipc.c:1301 | The corrected size cut into strides gives exactly `blkNums` blocks with nothing left over. |
| MemPools.SpanOfBlocks | src/sys/ipc.c:1301 | The corrected size is exactly `blkNums` strides. |
| MemPools.MemPool.constructor | src/sys/ipc.c:1295 | Zeroed memory. |
| MemPools.MemPool.Stride | src/sys/ipc.c:1275-1276 | A block is at least its 4-byte header. |
| MemPools.MemPool.ListInitAsWritten | src/sys/ipc.c:1250-1261 | As written, the free list starts at the last block, and block 0 links to itself. |
| MemPools.MemPool.ListInit | src/sys/ipc.c:1250-1261 | The corrected free list holds every block, last first, NULL-terminated, with nothing allocated. |
| MemPools.MemPool.Init | src/sys/ipc.c:1263-1280 | A header in use gives `EAGAIN` and no change. Otherwise the block size is the size asked for, aligned, and the buffer holds `bufSize / Stride()` blocks, all free. The header joins the tail of the memory-pool list (`Joined`). |
| MemPools.MemPool.Layout | src/sys/ipc.c:1271-1276 | Nobody waits, the block size is the size asked for, aligned, and the buffer holds `bufSize / Stride()` blocks that fit in it, all free. |
| MemPools.MemPool.DeInit | src/sys/ipc.c:1282-1290 | Every waiter is woken with `EAGAIN`. Exactly their timers are stopped, and no other thread or timer changes. The header is unlinked from every type list (`Left`). |
| MemPools.MemPool.Destroy | src/sys/ipc.c:1313-1323 | Every waiter is woken with `EAGAIN`. Exactly their timers are stopped, and no other thread or timer changes. A header that was not created gives `EFAULT` with the registry and its flags unchanged. Otherwise the header leaves every type list (`Left`) and its flags become 0. |
| MemPools.MemPool.Take | src/sys/ipc.c:1340-1346 | The first free block is handed out and owned by the pool. |
| MemPools.MemPool.Park | src/sys/ipc.c:1352-1356 | The caller parks on the pool's list in priority order (`Sched.Parked`): it leaves the runnable set, its error slot is reset, its timer is armed below `TIMER_MAX`, and nothing else in the scheduler changes. |
| MemPools.MemPool.Alloc | src/sys/ipc.c:1325-1375 | A block is returned exactly when the result is `EOK`: the first free one. Empty with no wait gives `ETIMEOUT`; empty outside thread context gives `EACCES`. On these paths the scheduler is unchanged. Otherwise the caller parks (`Sched.Parked`). |
| MemPools.MemPool.AllocWoken | src/sys/ipc.c:1357-1368 | An error wake-up is returned with the pool, the list and the scheduler unchanged. Otherwise a block is handed out with the list and the scheduler unchanged, or the caller parks again (`Sched.Parked`). |
| MemPools.MemPool.Free | src/sys/ipc.c:1377-1418 | NULL is ignored, and so is a block whose header does not hold the pool pointer (the last free block, whose header is NULL); the scheduler is then unchanged. A block that was handed out goes to the front of the free list, and exactly the head waiter is woken. |
| MemPools.MemPool.GetBlkSize | src/sys/ipc.c:1420-1426 | The size asked for at `Init`, rounded up to the alignment: a multiple of 4, at least the size asked for and less than 4 above it. A block is that size plus its header. |
| MemPools.MemPool.GetBlkFree | src/sys/ipc.c:1428-1442 | With the walk stopping at NULL, the number of free blocks. |
| MemPools.SelfLinkedNeverEnds | src/sys/ipc.c:1252-1258 | The as-written free list is no NULL-terminated chain of any length. |
| MemPools.SelfLinkedWalkCycles | src/sys/ipc.c:1434-1437 | As written, the walk over the as-written free list never ends and never reaches NULL, for any number of steps. |
| MemPools.Create | src/sys/ipc.c:1292-1311 | A pool results exactly when both the object and the buffer were obtained. It then joins the tail of the memory-pool list, with the size asked for recorded. With the corrected size, the buffer spans exactly `blkNums` strides. |
| Timers.Compare | src/nosys.c:19-26 | 1 exactly when the limit lies strictly after the key, less than `TIMER_MAX` ticks ahead. Otherwise -1. |
| Timers.CompareInWindow | src/nosys.c:19-26 | Within a window shorter than `TIMER_MAX`, "after" under wraparound is the plain order of distances from the window start. |
| Timers.Timer.constructor | src/nosys.c:109 | Zeroed memory. |
| Timers.Fields.Stopped | src/nosys.c:144 | The active flag is cleared, and the times are kept. |
| Timers.Fields.Started | src/nosys.c:146-157 | Active, started at `now`, with period and distance equal to `ticks`. |
| Timers.Fields.StartedAfterStopped | src/nosys.c:143-157 | Starting forgets whether the timer was active. |
| Timers.Fields.Typed | src/nosys.c:93 | The requested type, never active. |
| Timers.QueuedIsCompareSorted | src/nosys.c:19-26 | A queued list is ordered under `TIMER_SkipListCompare`. |
| Timers.HeadIsEarliest | src/nosys.c:69-81 | The first timer expires no later than any other. |
| Timers.RemoveKeepsQueued | src/nosys.c:143 | Unlinking a timer keeps the list queued. |
| Timers.UpdateKeepsQueued | src/nosys.c:144-148 | Changing the fields of an unlisted timer keeps the list queued. |
| Timers.FirstAfterIs | src/nosys.c:151-152 | The insertion point is the first timer strictly after the key, or the end. |
| Timers.Insert | src/nosys.c:155-156 | The timer is inserted once, at `FirstAfter`. |
| Timers.InsertKeepsQueued | src/nosys.c:143-157 | Linking a pending timer keeps the list queued: after every timer expiring no later, and before every timer expiring strictly later. |
| Timers.ShiftKeepsQueued | src/nosys.c:614 | Advancing the clock no further than the first expiry keeps the list queued. |
| Timers.RaiseLo | src/nosys.c:37-43 | A queued list whose first timer is at least `hi` ticks away is queued at distance `hi`. |
| Timers.SleepTick | src/nosys.c:573 | The sleep is `next - curr` when `next` is numerically above `curr`, and 0 otherwise. |
| Timers.SleepTickAcrossWrap | src/nosys.c:573 | An expiry just past the wrap gives no sleep. |
| Timers.TickToMs | src/nosys.c:624 | At the 1 kHz tick one tick is one millisecond. |
| Timers.AsSize | src/nosys.c:560-563 | A negative nest count reads back as its 2^32 complement. |
| Timers.Sys.constructor | src/nosys.c:196-201 | Clock 0, nesting 0, and no timer. |
| Timers.Sys.Start | src/nosys.c:128-164 | A delay of `TIMER_MAX` or more gives `EINVAL` with no change. A zero delay unlinks and stops the timer. Otherwise the timer is re-timed from now and inserted at its place. The list stays queued. |
| Timers.Sys.Unlink | src/nosys.c:143-144 | The timer is unlinked and marked inactive. |
| Timers.Sys.Link | src/nosys.c:146-157 | The timer is re-timed and inserted at `Insert`. |
| Timers.Sys.Stop | src/nosys.c:166-181 | An active timer is unlinked and stopped. An inactive one is left alone. |
| Timers.Sys.IsActived | src/nosys.c:183-193 | Exactly the active flag. Every listed timer is active. |
| Timers.Sys.Init | src/nosys.c:83-97 | The header decides `EAGAIN` or `EOK`. On success the timer is typed and inactive. |
| Timers.Sys.Create | src/nosys.c:106-119 | No memory gives no timer. Otherwise the timer is registered as created, typed and inactive. |
| Timers.Sys.DeInit | src/nosys.c:99-104 | The timer is stopped, and its header leaves the registry. |
| Timers.Sys.Destroy | src/nosys.c:121-126 | The timer is stopped. It is then destroyed, or refused with `EFAULT` if not created. |
| Timers.Sys.NextTick | src/nosys.c:210-223 | `TICK_FOREVER` with no timer. Otherwise the first timer's limit, the earliest of all. |
| Timers.Sys.GetSleepTick | src/nosys.c:565-578 | The sleep never reaches past the first expiry. |
| Timers.Sys.IncTickCount | src/nosys.c:610-619 | The tick advances by one modulo 2^32, and every timer meets its `Outcome`. |
| Timers.Sys.SetTickCount | src/nosys.c:601-608 | The tick is overwritten and the timers are untouched. A jump forward that stays short of the first expiry keeps the list queued. |
| Timers.Sys.CompensateTick | src/nosys.c:580-589 | The tick advances by `ticks`, and every timer meets its `Outcome`. |
| Timers.Sys.EnterCritical | src/nosys.c:542-549 | The nesting grows by one. |
| Timers.Sys.ExitCritical | src/nosys.c:551-558 | The nesting drops by one. |
| Timers.Sys.GetCritical | src/nosys.c:560-563 | The nesting as `size_t`. |
| Timers.Sys.GetTimestamp | src/nosys.c:621-631 | The base plus the milliseconds of the tick, and the time zone. |
| Timers.Sys.SetTimestamp | src/nosys.c:633-639 | Reading the clock right after gives back `ts` and `tz`. |
| Timers.Sys.Check | src/nosys.c:28-67 | Afterwards nothing is due. A one-shot due timer is stopped and unlinked; a periodic one is restarted from now. Timers not due are untouched. |
| Timers.Sys.FireHead | src/nosys.c:45-63 | The head timer is unlinked and fired (`Fire`). It is listed again exactly when periodic. |
| Timers.DueIsZero | src/nosys.c:41 | A listed timer is due exactly when its distance is 0. |
| Timers.HeadNotDue | src/nosys.c:41-43 | When the head is not due, no listed timer is. |
| Timers.CheckStep | src/nosys.c:37-64 | One round keeps the check's bookkeeping. |
| Timers.Fire | src/nosys.c:46-63 | A one-shot timer stops. A periodic one restarts from now with its period. |
| Fallback.PollAgain | src/nosys.c:280-283 | The loop continues exactly when the attempt failed and the timeout has not elapsed. |
| Fallback.Attempts | src/nosys.c:278-288 | The loop stops after the first attempt that does not go round again: at most one attempt per clock reading. |
| Fallback.AttemptsBounded | src/nosys.c:278-288 | With the clock rising at least one tick per attempt, at most `timeout + 1` attempts are made, and a no-wait call makes one. |
| Fallback.Semaphore.constructor | src/nosys.c:251 | Zeroed memory. |
| Fallback.Semaphore.Init | src/nosys.c:226-238 | A header in use gives `EAGAIN` and no change. Otherwise the count is `init` and the ceiling `max`. The header joins the tail of its type list (`Joined`), and no other list changes. |
| Fallback.Semaphore.DeInit | src/nosys.c:240-246 | The header is unlinked from every type list (`Left`). |
| Fallback.Semaphore.Destroy | src/nosys.c:262-268 | A header that was not created gives `EFAULT` with the registry and its flags unchanged. Otherwise the header leaves every type list (`Left`) and its flags become 0. |
| Fallback.Semaphore.Acquire | src/nosys.c:270-292 | One poll. A positive count is decremented and the result is `EOK`. Otherwise the result is `ETIMEOUT` with no change. |
| Fallback.Semaphore.Release | src/nosys.c:294-310 | Below the ceiling the count grows by one. At the ceiling the result is `ERANGE`. |
| Fallback.CreateSemaphore | src/nosys.c:248-260 | No memory gives no semaphore and no change. Otherwise it is created, starts like `Init`, and joins the tail of the semaphore list. |
| Fallback.Mutex.constructor | src/nosys.c:351 | Zeroed memory. |
| Fallback.Mutex.Init | src/nosys.c:324-338 | A header in use gives `EAGAIN`. Otherwise the mutex is free with no owner recorded. The header joins the tail of its type list (`Joined`), and no other list changes. |
| Fallback.Mutex.DeInit | src/nosys.c:340-346 | The header is unlinked from every type list (`Left`). |
| Fallback.Mutex.Destroy | src/nosys.c:363-369 | A header that was not created gives `EFAULT` with the registry and its flags unchanged. Otherwise the header leaves every type list (`Left`) and its flags become 0. |
| Fallback.Mutex.Acquire | src/nosys.c:371-393 | As written, the result is `EOK` even after a timed-out poll. |
| Fallback.Mutex.AcquireChecked | src/nosys.c:371-393 | `EOK` exactly when the mutex was taken, `ETIMEOUT` otherwise. |
| Fallback.Mutex.Release | src/nosys.c:395-405 | The mutex is free. |
| Fallback.Mutex.GetOwner | src/nosys.c:407-413 | No owner is ever recorded in the stand-alone build, so the owner is always `None`. |
| Fallback.CreateMutex | src/nosys.c:348-361 | No memory gives no mutex and no change. Otherwise it is created, free with no owner, and joins the tail of the mutex list. |
| Fallback.Event.constructor | src/nosys.c:440 | Zeroed memory. |
| Fallback.Event.Init | src/nosys.c:416-427 | A header in use gives `EAGAIN`. Otherwise no flag is set. The header joins the tail of its type list (`Joined`), and no other list changes. |
| Fallback.Event.DeInit | src/nosys.c:429-435 | The header is unlinked from every type list (`Left`). |
| Fallback.Event.Destroy | src/nosys.c:449-455 | A header that was not created gives `EFAULT` with the registry and its flags unchanged. Otherwise the header leaves every type list (`Left`) and its flags become 0. |
| Fallback.Event.Wait | src/nosys.c:457-492 | `EINVAL` exactly for an empty mask or no rule. A satisfied poll gives the old flags and `Consumed` them. An unsatisfied one, with a valid mask and rule, gives `ETIMEOUT` and no change: the result is always `EINVAL`, `EOK` or `ETIMEOUT`. |
| Fallback.Event.Set | src/nosys.c:494-504 | The bits are raised. |
| Fallback.Event.Clr | src/nosys.c:506-516 | The bits are cleared. |
| Fallback.CreateEvent | src/nosys.c:437-447 | No memory gives no event and no change. Otherwise it is created with no flag set, and joins the tail of the event list. |

## Left out

- Heap, log and hooks: the heap (`src/mem/memory.c` is not part of this model), logging and trace hooks. Memory comes in as an `Option` argument and the heap's free is not modelled.
- Interrupt locking: `MDS_CoreInterruptLock`/`Restore` sections are atomic steps of the methods. Concurrency and preemption between steps are not modelled.
- The scheduler: `MDS_KernelSchedulerCheck` and the scheduler internals are abstracted by `Kernel.Sched`. A parked caller's return is a separate "Woken" method, or `thread.err`.
- Thread timeout expiry: the thread's own timer firing is not modelled, beyond the `delta` ticks a Woken method receives.
- Payload copies (`MDS_MemCopy`) of messages: only the lengths are kept.
- Send/Urgent atomicity: the pop of a free slot and the append happen as one atomic step in the model. The source releases the lock between them (`src/sys/ipc.c:1085-1112`).
- Timer callbacks: the entry function and its argument are not modelled. The run-list re-check after a callback (`src/nosys.c:55-57`) therefore always sees the timer.
- Skip-list structure: only the bottom level is modelled. The randomised level choice (`skipRand`) affects speed only.
- `MDS_EventGetValue` (`src/sys/ipc.c:818-824`) and the stand-alone `MDS_SemaphoreGetValue` and `MDS_EventGetValue` (`src/nosys.c:312-321`, `src/nosys.c:518-524`) are plain field reads (`value`, `max`) with no member.
- `MDS_ObjectGetList` and `MDS_ObjectGetName` are plain field reads (`Registry.lists[t]`, `Obj.name`) with no separate member.
- `MDS_ThreadDelayTick` (a raw busy delay), `MDS_KernelCurrentThread` (always NULL in `nosys.c`) and `MDS_ClockGetTickCount` (a field read) have no member.
- Fallback busy-wait loops: each acquire or wait method is one poll, `PollAgain` says whether the loop runs again, and the elapsed ticks are a parameter. A whole loop is described only by `Attempts`.
- MsgQueues.Create: `(msgSize + 8) * msgNums` may wrap at 2^32 in the source; the model computes it unbounded. So does the rounding `VALUE_ALIGN(msgSize + 3, 4)` (`src/sys/ipc.c:894`): for a size of 2^32 - 3 or more the source stores a payload size of 0 and then refuses every send with `EINVAL`, while the model stores `AlignUp(msgSize)`, which is 2^32.
- MsgQueues.MsgQueue.Init: the rounding of `src/sys/ipc.c:864` and the sum in the assertion of `src/sys/ipc.c:858` are computed unbounded. The requires therefore excludes sizes within 8 of 2^32, which the wrapping assertion of the source lets through, and the wrapped payload size of 0 is not modelled (with the default `size_t` length type, whose bound in the assertion of line 859 admits every size).
- MemPools.Create: the rounding `VALUE_ALIGN(blkSize + 3, 4)` (`src/sys/ipc.c:1299`) and the product of the buffer size are computed unbounded. For a block size of 2^32 - 3 or more the source stores a block size of 0, where the model stores 2^32.
- MemPools.MemPool.Init: the rounding of `src/sys/ipc.c:1274` and the sum in the assertion of `src/sys/ipc.c:1266` are computed unbounded. The requires therefore excludes sizes within 4 of 2^32, which the wrapping assertion of the source lets through, and the wrapped block size of 0 is not modelled.
- MsgQueues.MsgQueue.Valid does not include `Fits` (slots within the 32-bit address space). `RecvCopy` and `PayloadRoundTrip` require it.
- MsgQueues.MsgQueue.RecvRelease requires that an address on a slot boundary belongs to a slot a receiver holds. The source trusts its caller for this.
- MemPools.MemPool.Free requires that the block was handed out and not yet freed, or is the last block of the free list (whose NULL header the source ignores). The source trusts its caller for this.
- Timers.Sys.CompensateTick requires the compensation to stay within the first pending expiry, which `MDS_KernelGetSleepTick` guarantees. A longer compensation is not modelled.
- Writes through a NULL current thread: `MDS_SemaphoreAcquire` and `MDS_EventWait` write the caller's error slot or event mask without checking that there is a caller thread. The model requires a thread on those paths (see Caller contracts) and does not model the write through NULL.
- Timers.Sys.SetTickCount: the queue invariant is promised only for a jump forward that stays short of the first expiry. After a longer jump, or one backwards, listed timers may be overdue or appear far off, which the source does not repair.
- Conditions.BroadCast requires a ceiling of at least 1. Every condition has ceiling `SIZE_MAX`, and with ceiling 0 and no waiter the source loop never ends.
- Woken continuations (`SendWoken`, `RecvWoken`, `AllocWoken`) re-park with the caller's original timeout. This is what the source does, because `IPC_ListSuspendWait` only shortens its local copy.
- Integer widths: the kernel mutex's `nest` counter stops at 255 (`Mutexes.COUNTER_MAX`), as the 8-bit counter of the source does. The stand-alone mutex only ever stores 0 or 1 in `value` and 0 in `nest`, so it keeps them as `nat`. Sizes passed in are `Size` (below 2^32) and ticks are `Tick` (below 2^32). The aligned payload and block sizes (`msgSize`, `blkSize`) are `nat` and reach 2^32 for the largest sizes, because their rounding is not wrapped (see the lines above). Header constants defined outside the modelled files are taken as: `TIMER_MAX = 0x7FFFFFFF`, `TICK_FOREVER = 0xFFFFFFFF`, `NO_WAIT = 0`, name buffer 16 bytes, alignment 4 bytes, tick frequency 1 kHz.

## Findings

| source | as written | input that shows it | evidently intended | confidence | as-written member | corrected member |
|---|---|---|---|---|---|---|
| src/sys/ipc.c:786 | `MDS_EventSet` consumes the bits of the waiter it matched but resumes the head of the list | waiters [A: AND bit 0, B: OR bit 1], no flag set, `Set(bit 1)`: B matches and A is resumed | resume the waiter that matched | not executed | Events.Event.SetAsWritten, Events.MatchBehindHead | Events.Event.Set |
| src/sys/ipc.c:717-720 | the immediate path of `MDS_EventWait` stores the previous `eventMask` through `recv` before it writes the bits received | a caller whose last wait received 0 waits for bit 0 (AND) while bit 0 is set: `recv` is 0 | `recv` reports `value & mask` | not executed | Events.ImmediateRecvAsWritten, Events.StaleRecv | Events.Event.Wait |
| src/nosys.c:392 | fallback `MDS_MutexAcquire` returns `EOK` after the loop whether or not the mutex was taken | a held mutex, timeout 1, one tick elapsed: `EOK` returned, mutex not taken | return `ETIMEOUT` when not taken | not executed | Fallback.Mutex.Acquire | Fallback.Mutex.AcquireChecked |
| src/sys/ipc.c:567-569,599-601 | each wait round subtracts the ticks elapsed since the call began from the already shortened timeout | timeout 10, second wait 3 ticks in: waits 4 ticks instead of 7 | each wait lasts until the caller's deadline | not executed | RwLocks.WaitTimeoutAsWritten, RwLocks.ElapsedCountedTwice | RwLocks.Remaining, RwLocks.RemainingKeepsDeadline, RwLocks.RwLock.ReadHeld, RwLocks.RwLock.WriteHeld |
| src/sys/ipc.c:515-552 | `MDS_RwLockDeInit` probes the writers' condition with a no-wait acquire, whose count is always 0, so it always answers `EBUSY` | any idle lock with its mutex free | an idle lock is torn down | not executed | RwLocks.RwLock.DeInitAsWritten | RwLocks.RwLock.DeInit |
| src/sys/ipc.c:1197 | `MDS_MsgQueueUrgent` asserts `buff == NULL` and then copies `len >= 1` bytes from it | a real buffer fails the assertion; NULL with `len` 4, payload size 8 and a free slot copies 4 bytes from NULL | assert `buff != NULL`, as `MDS_MsgQueueSend` does | not executed | MsgQueues.UrgentEntryAsWritten | MsgQueues.UrgentEntry, MsgQueues.UrgentEntryCopiesBuffer |
| src/sys/ipc.c:1252-1258 | `MDS_MemPoolListInit` seeds the free list with the first block instead of NULL, so block 0 links to itself | any pool with 1 block: after one allocation the free list still starts at block 0 | a NULL-terminated free list | not executed | MemPools.MemPool.ListInitAsWritten, MemPools.SelfLinkedNeverEnds | MemPools.MemPool.ListInit |
| src/sys/ipc.c:1436 | the guard of the `MDS_MemPoolGetBlkFree` walk is `blk != NULL \|\| blk != memBuff`, which is always true | with the free list `MDS_MemPoolListInit` builds as written (row src/sys/ipc.c:1252-1258), block 0 links to itself, so the walk never ends: it cycles at block 0 with interrupts locked, and once block 0 has been allocated the free list still starts there, so the walk follows the pool pointer stamped in its header. Over a NULL-terminated free list, as the corrected `ListInit` builds, it counts every block and then reads the `next` field of NULL | stop at NULL | not executed | MemPools.WalkOnAsWritten, MemPools.WalkAsWritten, MemPools.SelfLinkedWalkCycles, MemPools.WalkReadsNull | MemPools.MemPool.GetBlkFree |
| src/sys/ipc.c:1301 | `MDS_MemPoolCreate` sizes each block with the message-queue header (8 bytes) instead of its own (4 bytes) | `blkSize 4, blkNums 10`: 120 bytes for 80 used | `(AlignUp(blkSize) + 4) * blkNums` | not executed | MemPools.CreateBytesAsWritten | MemPools.CreateBytes, MemPools.SpanOfBlocks, MemPools.Create |

=== FILE: condition.dfy ===
/**
 * The condition variable of ipc.c (`MDS_Condition*`): a semaphore with
 * count 0 and the largest ceiling, whose waiters queue in arrival order and
 * give up a mutex while they wait.
 */
module Conditions {
  import opened Kernel
  import opened WaitLists
  import Objects
  import Semaphores
  import Mutexes

  type Condition = Semaphores.Semaphore

  /** `MDS_ConditionInit`: a semaphore with count 0 and ceiling `(size_t)-1`. */
  method Init(s: Sched, c: Condition, reg: Objects.Registry, name: string) returns (err: Err)
    requires s.Valid() && reg.Valid()
    modifies c, reg, c.obj
    ensures reg.Valid()
    ensures err == (if old(c.obj.flags) != 0 then EAGAIN else EOK)
    ensures err == EOK ==> c.Valid(s) && c.value == 0 && c.max == SIZE_MAX && c.list == [] &&
                           reg.lists == Objects.Joined(old(reg.lists), Objects.TYPE_SEMAPHORE, c.obj)
    ensures err == EAGAIN ==> reg.lists == old(reg.lists)
  {
    err := c.Init(s, reg, name, 0, SIZE_MAX);
  }

  /**
   * `MDS_ConditionDeInit`: refused with `EBUSY` while threads wait.
   * Otherwise one no-wait acquire is made, whose result is never `EBUSY`,
   * so the broadcast in the loop body never runs; the semaphore is then
   * de-initialised. At count 0 that acquire writes the caller's error
   * slot, so the caller must be a thread then.
   */
  method DeInit(s: Sched, c: Condition, reg: Objects.Registry) returns (err: Err)
    requires c.Valid(s) && s.Running() && reg.Valid()
    requires c.list == [] && c.value == 0 ==> s.current.Some?
    modifies c, s, reg, c.obj
    ensures c.Valid(s) && reg.Valid() && s.current == old(s.current)
    ensures old(c.list) != [] ==>
              err == EBUSY && c.list == old(c.list) && c.value == old(c.value) && c.max == old(c.max) &&
              c.obj.flags == old(c.obj.flags) && reg.lists == old(reg.lists) &&
              s.threads == old(s.threads) && s.ready == old(s.ready) && s.armed == old(s.armed)
    ensures old(c.list) == [] ==>
              err == EOK && c.obj.flags == 0 && c.list == [] && s.ready == old(s.ready) && s.armed == old(s.armed) &&
              reg.lists == Objects.Left(old(reg.lists), c.obj) &&
              c.value == (if old(c.value) > 0 then old(c.value) - 1 else 0) &&
              s.threads == (if old(c.value) > 0 then old(s.threads) else WithErr(old(s.threads), s.current.value, ETIMEOUT))
  {
    if c.list != [] {
      return EBUSY;
    }
    var r := c.Acquire(s, NO_WAIT);
    assert r != Done(EBUSY);
    var _ := c.DeInit(s, reg);
    err := EOK;
  }

  /** The count a broadcast leaves: 1 after waking waiters, else the count taken once and given back. */
  function BroadCastValue(value: Size, max: Size): (v: Size)
    requires max >= 1
    ensures value == 0 ==> v == 1
    ensures 0 < value <= max ==> v == value
  {
    if value == 0 then 1 else if value - 1 < max then value else value - 1
  }

  /**
   * `MDS_ConditionBroadCast`: no-wait acquire and release until an acquire
   * succeeds. Each failed acquire lets the release wake the head waiter, so
   * every waiter is woken in queue order; the first release with nobody
   * left raises the count, and the last acquire takes it back. A ceiling of
   * 0 with nobody waiting would loop for ever; a condition's ceiling is
   * `(size_t)-1`. At count 0 every acquire writes the caller's error slot,
   * so the caller must be a thread then.
   */
  method BroadCast(s: Sched, c: Condition) returns (err: Err)
    requires c.Valid(s) && s.Running() && c.max >= 1
    requires c.value == 0 ==> s.current.Some?
    modifies c`value, c`list, s
    ensures c.Valid(s) && s.Running() && s.current == old(s.current)
    ensures err == EOK && c.list == [] && c.value == BroadCastValue(old(c.value), c.max)
    ensures s.ready == old(s.ready) + Members(old(c.list))
    ensures s.armed == old(s.armed) - Members(old(c.list))
    ensures s.threads == (if old(c.value) > 0 then old(s.threads) else WithErr(old(s.threads), s.current.value, ETIMEOUT))
  {
    var go := true;
    ghost var first := true;
    ghost var done: seq<ThreadId> := [];
    err := EOK;
    while go
      invariant c.Valid(s) && s.Running() && s.current == old(s.current) && c.max == old(c.max)
      invariant c.value == 0 ==> s.current.Some?
      invariant done + c.list == old(c.list)
      invariant s.ready == old(s.ready) + Members(done)
      invariant s.armed == old(s.armed) - Members(done)
      invariant s.threads == (if first || old(c.value) > 0 then old(s.threads)
                              else WithErr(old(s.threads), s.current.value, ETIMEOUT))
      invariant first ==> go && c.value == old(c.value) && done == []
      invariant old(c.value) > 0 ==> done == [] && (go ==> first) && (!go ==> err == EOK && c.value == BroadCastValue(old(c.value), c.max))
      invariant old(c.value) == 0 && go ==> c.value == 0 || (c.value == 1 && c.list == [])
      invariant old(c.value) == 0 && !go ==> err == EOK && c.value == 1 && c.list == []
      decreases if go then 2 * |c.list| + (if c.value == 0 then 2 else 1) else 0
    {
      ghost var woke := c.value == 0 && c.list != [];
      ghost var head := if c.list != [] then c.list[0] else 0;
      var r := BroadCastStep(s, c);
      err := r;
      go := r == ETIMEOUT;
      if woke {
        assert Members(done + [head]) == Members(done) + {head};
        assert s.armed == old(s.armed) - Members(done + [head]);
        done := done + [head];
      }
      first := false;
    }
  }

  /**
   * One round of the broadcast loop: a no-wait acquire, and a release when
   * it succeeded or timed out (the only results it can have).
   */
  method BroadCastStep(s: Sched, c: Condition) returns (err: Err)
    requires c.Valid(s) && s.Running() && c.max >= 1
    requires c.value == 0 ==> s.current.Some?
    modifies c`value, c`list, s
    ensures c.Valid(s) && s.Running() && s.current == old(s.current)
    ensures old(c.value) > 0 ==>
              err == EOK && c.list == old(c.list) && c.value == BroadCastValue(old(c.value), c.max) &&
              s.threads == old(s.threads) && s.ready == old(s.ready) && s.armed == old(s.armed)
    ensures old(c.value) == 0 ==>
              err == ETIMEOUT && s.threads == WithErr(old(s.threads), s.current.value, ETIMEOUT)
    ensures old(c.value) == 0 && old(c.list) != [] ==>
              c.value == 0 && c.list == old(c.list)[1..] &&
              s.ready == old(s.ready) + {old(c.list)[0]} && s.armed == old(s.armed) - {old(c.list)[0]}
    ensures old(c.value) == 0 && old(c.list) == [] ==>
              c.value == 1 && c.list == [] && s.ready == old(s.ready) && s.armed == old(s.armed)
  {
    var r := c.Acquire(s, NO_WAIT);
    err := r.err;
    if r == Done(ETIMEOUT) || r == Done(EOK) {
      var _ := c.Release(s);
    }
  }

  /** `MDS_ConditionSignal`: nothing to do without waiters; otherwise a release wakes the head waiter. */
  method Signal(s: Sched, c: Condition) returns (err: Err)
    requires c.Valid(s)
    modifies c`value, c`list, s
    ensures c.Valid(s) && err == EOK && c.value == old(c.value) && s.threads == old(s.threads)
    ensures s.current == old(s.current)
    ensures old(c.list) == [] ==> c.list == [] && s.ready == old(s.ready) && s.armed == old(s.armed)
    ensures old(c.list) != [] ==>
              c.list == old(c.list)[1..] &&
              s.ready == old(s.ready) + {old(c.list)[0]} && s.armed == old(s.armed) - {old(c.list)[0]}
  {
    err := EOK;
    if c.list != [] {
      err := c.Release(s);
    }
  }

  /**
   * The scheduler once the owner `t` of `m` has parked with `timeout` and
   * then let one level of `m` go, against the state before the call: `t`
   * is parked as `Sched.Parked` says, and at the last level it gets back the
   * priority it took the mutex with and the head waiter of `m`, if any, is
   * resumed.
   */
  twostate predicate ParkedUnwound(s: Sched, m: Mutexes.Mutex, t: ThreadId, timeout: Tick)
    reads s, m
  {
    var w := if old(m.nest) == 1 then Front(old(m.list)) else {};
    t in old(s.threads) &&
    var th := old(s.threads)[t := old(s.threads)[t].(err := EOK)];
    s.ready == (old(s.ready) - {t}) + w &&
    s.armed == (if timeout < TIMER_MAX then old(s.armed)[t := timeout] else old(s.armed)) - w &&
    s.threads == if old(m.nest) == 1 then th[t := th[t].(currPrio := old(m.priority))] else th
  }

  /**
   * `MDS_ConditionWait`: only the mutex owner may wait (`EACCES`). A
   * pending signal is consumed at once; a no-wait call fails with
   * `ETIMEOUT`. Otherwise the caller joins the tail of the wait list and
   * releases one level of the mutex.
   */
  method Wait(s: Sched, c: Condition, m: Mutexes.Mutex, timeout: Tick) returns (r: Step)
    requires c.Valid(s) && m.Valid(s) && s.Running()
    modifies c`value, c`list, m`owner, m`priority, m`value, m`nest, m`list, s
    ensures c.Valid(s) && m.Valid(s) && s.current == old(s.current) && s.threads.Keys == old(s.threads.Keys)
    ensures s.current.None? || old(m.owner) != s.current ==>
              r == Done(EACCES) && c.value == old(c.value) && c.list == old(c.list) &&
              s.threads == old(s.threads) && s.ready == old(s.ready)
    ensures s.current.Some? && old(m.owner) == s.current && old(c.value) > 0 ==>
              r == Done(EOK) && c.value == old(c.value) - 1 && c.list == old(c.list) &&
              s.threads == old(s.threads) && s.ready == old(s.ready)
    ensures s.current.Some? && old(m.owner) == s.current && old(c.value) == 0 && timeout == NO_WAIT ==>
              r == Done(ETIMEOUT) && c.value == 0 && c.list == old(c.list) &&
              s.threads == old(s.threads) && s.ready == old(s.ready)
    ensures r.Done? ==>
              m.owner == old(m.owner) && m.nest == old(m.nest) && m.value == old(m.value) &&
              m.priority == old(m.priority) && m.list == old(m.list) && s.armed == old(s.armed)
    ensures s.current.Some? && old(m.owner) == s.current && old(c.value) == 0 && timeout != NO_WAIT ==>
              var t := s.current.value;
              r == Blocked && c.value == 0 && c.list == old(c.list) + [t] &&
              m.LetGo(old(m.owner), old(m.nest), old(m.list)) && ParkedUnwound(s, m, t, timeout)
  {
    if s.current.None? || m.owner != s.current {
      return Done(EACCES);
    }
    var t := s.current.value;
    if c.value > 0 {
      c.value := c.value - 1;
      r := Done(EOK);
    } else if timeout == NO_WAIT {
      r := Done(ETIMEOUT);
    } else {
      var ok;
      c.list, ok := SuspendThread(s, c.list, t, false, timeout);
      var _ := m.Release(s);
      r := Blocked;
    }
  }

  /**
   * The rest of `MDS_ConditionWait` once the parked caller runs again: the
   * result is the reason it was woken, and it takes the mutex back, waiting
   * as long as needed.
   */
  method WaitWoken(s: Sched, m: Mutexes.Mutex) returns (err: Err, relock: Step)
    requires m.Valid(s) && s.Running() && s.current.Some?
    modifies m`owner, m`priority, m`value, m`nest, m`list, s
    ensures m.Valid(s) && s.current == old(s.current) && s.threads.Keys == old(s.threads.Keys)
    ensures err == old(s.threads)[s.current.value].err
    ensures old(m.Takes(s)) && old(m.owner) == s.current ==>
              relock == Done(EOK) && m.owner == old(m.owner) && m.nest == old(m.nest) + 1 && m.value == 0 &&
              m.list == old(m.list) && m.priority == old(m.priority) &&
              s.threads == old(s.threads) && s.ready == old(s.ready) && s.armed == old(s.armed)
    ensures old(m.owner).None? ==>
              relock == Done(EOK) && m.owner == s.current && m.value == 0 && m.nest == 1 &&
              m.priority == s.threads[s.current.value].currPrio && m.list == old(m.list) &&
              s.threads == old(s.threads) && s.ready == old(s.ready) && s.armed == old(s.armed)
    ensures old(m.owner).Some? && old(m.owner) != s.current ==> relock == Blocked
    ensures !old(m.Takes(s)) ==> m.Missed(s, TICK_FOREVER, relock)
  {
    err := s.threads[s.current.value].err;
    relock := m.Acquire(s, TICK_FOREVER);
  }
}

=== FILE: event.dfy ===
/**
 * The event flags of ipc.c (`MDS_Event*`): a 32-bit flag word and a
 * priority-ordered list of threads waiting for some of its bits, each with
 * the mask and the AND/OR/NOCLR options it waits with.
 */
module Events {
  import opened Kernel
  import opened WaitLists
  import Objects

  /**
   * Whether a waiter's rule holds, decided as `MDS_EventSet` does: the AND
   * rule first, the OR rule otherwise. A waiter it wakes has its wake rule
   * met and did not stop the scan; for a waiter that chose one rule it is
   * exactly the wake rule it asked for.
   */
  function Wakes(th: Thread, value: bv32): (w: bool)
    ensures w ==> Satisfied(value, th.eventMask, th.eventOpt) && !Stops(th)
    ensures th.eventOpt & (OPT_AND | OPT_OR) != OPT_AND | OPT_OR ==>
              (w <==> Satisfied(value, th.eventMask, th.eventOpt))
  {
    OneRule(th.eventOpt);
    if th.eventOpt & OPT_AND != 0 then AllSet(value, th.eventMask)
    else th.eventOpt & OPT_OR != 0 && AnySet(value, th.eventMask)
  }

  /** A waiter with neither rule: the scan of `MDS_EventSet` stops at it, and no flag word can wake it. */
  function Stops(th: Thread): (st: bool)
    ensures st ==> forall v: bv32 :: !Satisfied(v, th.eventMask, th.eventOpt)
  {
    th.eventOpt & (OPT_AND | OPT_OR) == 0
  }

  /** Options that do not ask for both rules ask for at most one. */
  lemma OneRule(opt: bv32)
    ensures opt & (OPT_AND | OPT_OR) != OPT_AND | OPT_OR && opt & OPT_AND != 0 ==> opt & OPT_OR == 0
  {
  }

  /** Where the scan of `MDS_EventSet` ends: the first waiter that wakes or stops it, else the list length. */
  function FirstMatch(l: seq<ThreadId>, th: Threads, value: bv32): (k: nat)
    requires Known(l, th)
    ensures k <= |l|
    ensures forall j | 0 <= j < k :: !Wakes(th[l[j]], value) && !Stops(th[l[j]])
    ensures k < |l| ==> Wakes(th[l[k]], value) || Stops(th[l[k]])
  {
    if l == [] then 0
    else if Wakes(th[l[0]], value) || Stops(th[l[0]]) then 0
    else 1 + FirstMatch(l[1..], th, value)
  }

  /** The mask a woken waiter is left with: an OR waiter keeps only the bits that are set. */
  function Narrowed(th: Thread, value: bv32): (m: bv32)
    ensures th.eventOpt & OPT_AND == 0 ==> m == th.eventMask & value
    ensures th.eventOpt & OPT_AND != 0 ==> m == th.eventMask
  {
    if th.eventOpt & OPT_AND != 0 then th.eventMask else th.eventMask & value
  }

  /**
   * What a woken waiter receives is exactly what it waited for: all of its
   * bits under AND, a non-empty subset of them under OR, and every bit
   * received is set.
   */
  lemma NarrowedIsReceived(th: Thread, value: bv32)
    requires Wakes(th, value)
    ensures Narrowed(th, value) & value == Narrowed(th, value)
    ensures Narrowed(th, value) & th.eventMask == Narrowed(th, value)
    ensures th.eventOpt & OPT_AND != 0 ==> Narrowed(th, value) == th.eventMask
    ensures th.eventOpt & OPT_AND == 0 ==> Narrowed(th, value) != 0
  {
    ReceivedIsSet(th, value);
    ReceivedIsAsked(th, value);
    ReceivedUnderOr(th, value);
  }

  lemma ReceivedIsSet(th: Thread, value: bv32)
    requires Wakes(th, value)
    ensures Narrowed(th, value) & value == Narrowed(th, value)
  {
  }

  lemma ReceivedIsAsked(th: Thread, value: bv32)
    requires Wakes(th, value)
    ensures Narrowed(th, value) & th.eventMask == Narrowed(th, value)
  {
  }

  lemma ReceivedUnderOr(th: Thread, value: bv32)
    requires Wakes(th, value)
    ensures th.eventOpt & OPT_AND == 0 ==> Narrowed(th, value) != 0
  {
  }

  /**
   * What the immediate-success path of `MDS_EventWait` stores through
   * `recv` as written: the caller's `eventMask` from its previous wait,
   * read before it is overwritten with the bits just received.
   */
  function ImmediateRecvAsWritten(caller: Thread, value: bv32, mask: bv32): (recv: bv32)
    ensures recv == caller.eventMask
  {
    caller.eventMask
  }

  /**
   * A thread whose last wait received nothing waits for bit 0 with AND
   * while bit 0 is set: the wait succeeds at once, yet `recv` reports 0
   * instead of the bit received.
   */
  lemma StaleRecv()
    ensures var caller := Thread(1, EOK, 0, 0);
            Satisfied(1, 1, OPT_AND) &&
            ImmediateRecvAsWritten(caller, 1, 1) == 0 && 1 as bv32 & 1 == 1
  {
  }

  class Event {
    const obj: Objects.Obj
    var value: bv32
    /** The threads parked in `Wait`, head first. */
    var list: seq<ThreadId>

    /** Zeroed memory for an event. */
    constructor ()
      ensures fresh(obj) && obj.flags == 0 && obj.name == []
      ensures value == 0 && list == []
    {
      obj := new Objects.Obj();
      value := 0;
      list := [];
    }

    ghost predicate Valid(s: Sched)
      reads this, s
    {
      s.Valid() && Known(list, s.threads)
    }

    /** `MDS_EventInit`: on a header not in use, no flag set and nobody waiting. */
    method Init(s: Sched, reg: Objects.Registry, name: string) returns (err: Err)
      requires s.Valid() && reg.Valid()
      modifies this, reg, obj
      ensures reg.Valid()
      ensures err == (if old(obj.flags) != 0 then EAGAIN else EOK)
      ensures err == EOK ==> Valid(s) && value == 0 && list == [] &&
                             Objects.GetType(obj.flags) == Objects.TYPE_EVENT &&
                             reg.lists == Objects.Joined(old(reg.lists), Objects.TYPE_EVENT, obj)
      ensures err == EAGAIN ==> value == old(value) && list == old(list) && reg.lists == old(reg.lists)
    {
      err := reg.Init(obj, Objects.TYPE_EVENT, name);
      if err == EOK {
        Objects.CreatedBitIsSeparate(0, Objects.TYPE_EVENT);
        value := 0;
        list := [];
      }
    }

    /** `MDS_EventDeInit`: every waiter is woken with `EAGAIN`, then the header leaves the registry. */
    method DeInit(s: Sched, reg: Objects.Registry) returns (err: Err)
      requires Valid(s) && reg.Valid()
      modifies this`list, s, reg, obj
      ensures Valid(s) && reg.Valid() && err == EOK && obj.flags == 0 && list == []
      ensures reg.lists == Objects.Left(old(reg.lists), obj)
      ensures s.ready == old(s.ready) + Members(old(list))
      ensures s.armed == old(s.armed) - Members(old(list))
      ensures s.current == old(s.current) && s.threads.Keys == old(s.threads.Keys)
      ensures forall x | x in s.threads ::
                s.threads[x] == if x in old(list) then Forced(old(s.threads)[x]) else old(s.threads)[x]
    {
      list := ResumeAll(s, list);
      err := reg.DeInit(obj);
    }

    /** `MDS_EventDestroy`: every waiter is woken with `EAGAIN`, then a created event is destroyed. */
    method Destroy(s: Sched, reg: Objects.Registry) returns (err: Err)
      requires Valid(s) && reg.Valid()
      modifies this`list, s, reg, obj
      ensures Valid(s) && reg.Valid() && list == []
      ensures err == (if Objects.IsCreated(old(obj.flags)) then EOK else EFAULT)
      ensures err == EFAULT ==> reg.lists == old(reg.lists) && obj.flags == old(obj.flags)
      ensures err == EOK ==> reg.lists == Objects.Left(old(reg.lists), obj) && obj.flags == 0
      ensures s.ready == old(s.ready) + Members(old(list))
      ensures s.armed == old(s.armed) - Members(old(list))
      ensures s.current == old(s.current) && s.threads.Keys == old(s.threads.Keys)
      ensures forall x | x in s.threads ::
                s.threads[x] == if x in old(list) then Forced(old(s.threads)[x]) else old(s.threads)[x]
    {
      list := ResumeAll(s, list);
      err := reg.Destory(obj);
    }

    /**
     * `MDS_EventWait`. An empty mask or no rule is `EINVAL`. A wait the
     * flags already satisfy succeeds at once: the caller receives
     * `value & mask`, which is also recorded as its event mask, and those
     * bits are cleared unless `OPT_NOCLR`. Otherwise a no-wait call fails
     * with `ETIMEOUT`, and a thread records its mask and options and parks
     * in priority order (woken, it returns its error slot and receives its
     * event mask). Outside thread context a waiting call returns `EOK`
     * without waiting; a call that succeeds at once or a no-wait call there
     * would write the control block of a missing thread, so the caller must
     * be a thread then.
     */
    method Wait(s: Sched, mask: bv32, opt: bv32, timeout: Tick) returns (r: Step, recv: Option<bv32>)
      requires Valid(s) && s.Running()
      requires opt & (OPT_AND | OPT_OR) != OPT_AND | OPT_OR
      requires mask != 0 && opt & (OPT_AND | OPT_OR) != 0 && (Satisfied(value, mask, opt) || timeout == NO_WAIT) ==>
                 s.current.Some?
      modifies this`value, this`list, s
      ensures Valid(s) && s.current == old(s.current) && s.threads.Keys == old(s.threads.Keys)
      ensures mask == 0 || opt & (OPT_AND | OPT_OR) == 0 ==>
                r == Done(EINVAL) && recv.None? && value == old(value) && list == old(list) &&
                s.threads == old(s.threads) && s.ready == old(s.ready) && s.armed == old(s.armed)
      ensures mask != 0 && opt & (OPT_AND | OPT_OR) != 0 && Satisfied(old(value), mask, opt) ==>
                r == Done(EOK) && recv == Some(old(value) & mask) &&
                value == Consumed(old(value), mask, opt) && list == old(list) &&
                s.ready == old(s.ready) && s.armed == old(s.armed) &&
                s.threads == old(s.threads)[s.current.value :=
                               old(s.threads)[s.current.value].(eventMask := old(value) & mask, eventOpt := opt)]
      ensures mask != 0 && opt & (OPT_AND | OPT_OR) != 0 && !Satisfied(old(value), mask, opt) ==>
                value == old(value) && recv.None?
      ensures mask != 0 && opt & (OPT_AND | OPT_OR) != 0 && !Satisfied(old(value), mask, opt) && timeout == NO_WAIT ==>
                r == Done(ETIMEOUT) && list == old(list) && s.ready == old(s.ready) && s.armed == old(s.armed) &&
                s.threads == WithErr(old(s.threads), s.current.value, ETIMEOUT)
      ensures mask != 0 && opt & (OPT_AND | OPT_OR) != 0 && !Satisfied(old(value), mask, opt) && timeout != NO_WAIT ==>
                if s.current.None? then
                  r == Done(EOK) && list == old(list) && s.threads == old(s.threads) &&
                  s.ready == old(s.ready) && s.armed == old(s.armed)
                else
                  var t := s.current.value;
                  r == Blocked && s.ready == old(s.ready) - {t} &&
                  s.threads == old(s.threads)[t := old(s.threads)[t].(err := EOK, eventMask := mask, eventOpt := opt)] &&
                  s.armed == (if timeout < TIMER_MAX then old(s.armed)[t := timeout] else old(s.armed)) &&
                  list == Enqueue(old(list), old(s.threads), t, true)
    {
      recv := None;
      if mask == 0 || opt & (OPT_AND | OPT_OR) == 0 {
        return Done(EINVAL), None;
      }
      if Satisfied(value, mask, opt) {
        recv := Some(value & mask);
        s.SetEvent(s.current.value, value & mask, opt);
        value := Consumed(value, mask, opt);
        r := Done(EOK);
      } else if timeout == NO_WAIT {
        s.SetErr(s.current.value, ETIMEOUT);
        r := Done(ETIMEOUT);
      } else if s.current.Some? {
        Park(s, s.current.value, mask, opt, timeout);
        r := Blocked;
      } else {
        r := Done(EOK);
      }
    }

    /**
     * The parking step of `MDS_EventWait`: the running thread `t` records
     * its mask and options, then parks in priority order with its timeout.
     */
    method Park(s: Sched, t: ThreadId, mask: bv32, opt: bv32, timeout: Tick)
      requires Valid(s) && t in s.ready
      modifies this`list, s
      ensures Valid(s) && s.current == old(s.current)
      ensures s.ready == old(s.ready) - {t}
      ensures s.threads == old(s.threads)[t := old(s.threads)[t].(err := EOK, eventMask := mask, eventOpt := opt)]
      ensures s.armed == (if timeout < TIMER_MAX then old(s.armed)[t := timeout] else old(s.armed))
      ensures list == Enqueue(old(list), old(s.threads), t, true)
    {
      s.SetEvent(t, mask, opt);
      ghost var th := s.threads;
      var ok;
      list, ok := SuspendThread(s, list, t, true, timeout);
      PrioPosSamePrio(old(list), th, old(s.threads), th[t].currPrio);
      PrioPosSamePrio(old(list), s.threads, th, th[t].currPrio);
    }

    /** The loop of `MDS_EventSet`: the first waiter the flags wake, or that has no rule. */
    method Scan(s: Sched, v: bv32) returns (k: nat)
      requires Valid(s)
      ensures k == FirstMatch(list, s.threads, v)
    {
      k := 0;
      while k < |list| && !Wakes(s.threads[list[k]], v) && !Stops(s.threads[list[k]])
        invariant k <= |list|
        invariant forall j | 0 <= j < k :: !Wakes(s.threads[list[j]], v) && !Stops(s.threads[list[j]])
      {
        k := k + 1;
      }
    }

    /**
     * The part of `MDS_EventSet` before a waiter is resumed: the bits are
     * raised and the waiters scanned in order. The first one whose rule
     * holds has its mask narrowed (OR) and its bits cleared unless
     * `OPT_NOCLR`; `k` is its index, or where the scan ended.
     */
    method Match(s: Sched, mask: bv32) returns (err: Err, k: nat)
      requires Valid(s)
      modifies this`value, s
      ensures Valid(s) && list == old(list) && s.current == old(s.current) && s.threads.Keys == old(s.threads.Keys)
      ensures s.ready == old(s.ready) && s.armed == old(s.armed)
      ensures k == FirstMatch(list, old(s.threads), old(value) | mask)
      ensures err == EOK <==> list == [] || (k < |list| && Wakes(old(s.threads)[list[k]], old(value) | mask))
      ensures err != EOK ==> err == EINVAL && value == old(value) | mask && s.threads == old(s.threads)
      ensures err == EOK && list != [] ==>
                var w := list[k];
                var th := old(s.threads)[w];
                var m := Narrowed(th, old(value) | mask);
                s.threads == old(s.threads)[w := th.(eventMask := m)] &&
                value == Consumed(old(value) | mask, m, th.eventOpt)
      ensures err == EOK && list == [] ==> value == old(value) | mask && s.threads == old(s.threads)
    {
      value := value | mask;
      k := Scan(s, value);
      if k == |list| {
        err := if list == [] then EOK else EINVAL;
        return;
      }
      var w := list[k];
      var th := s.threads[w];
      if !Wakes(th, value) {
        return EINVAL, k;
      }
      if th.eventOpt & OPT_AND == 0 {
        s.SetEvent(w, th.eventMask & value, th.eventOpt);
      } else {
        s.SetEvent(w, th.eventMask, th.eventOpt);
      }
      value := Consumed(value, s.threads[w].eventMask, th.eventOpt);
      err := EOK;
    }

    /**
     * `MDS_EventSet` as written: the matched waiter's bits are consumed,
     * but the thread resumed is the head of the list, whoever matched.
     */
    method SetAsWritten(s: Sched, mask: bv32) returns (err: Err)
      requires Valid(s)
      modifies this`value, this`list, s
      ensures Valid(s) && s.current == old(s.current)
      ensures old(list) == [] ==> err == EOK && value == old(value) | mask && list == [] &&
                                  s.threads == old(s.threads) && s.ready == old(s.ready) && s.armed == old(s.armed)
      ensures var v := old(value) | mask;
              var k := FirstMatch(old(list), old(s.threads), v);
              old(list) != [] ==>
                (err == EOK <==> k < |old(list)| && Wakes(old(s.threads)[old(list)[k]], v)) &&
                (err != EOK ==> err == EINVAL && value == v && list == old(list) &&
                                s.threads == old(s.threads) && s.ready == old(s.ready) && s.armed == old(s.armed)) &&
                (err == EOK ==>
                   var w := old(list)[k];
                   var th := old(s.threads)[w];
                   var h := old(list)[0];
                   list == old(list)[1..] &&
                   s.ready == old(s.ready) + {h} && s.armed == old(s.armed) - {h} &&
                   s.threads == old(s.threads)[w := th.(eventMask := Narrowed(th, v))] &&
                   value == Consumed(v, Narrowed(th, v), th.eventOpt))
    {
      var k;
      err, k := Match(s, mask);
      if err == EOK && list != [] {
        list := ResumeThread(s, list);
      }
    }

    /**
     * `MDS_EventSet` resuming the waiter that matched. With nobody waiting
     * it raises the bits and succeeds. Otherwise the first waiter, in list
     * order, whose rule the raised flags satisfy is woken with the bits it
     * receives as its mask, and leaves the list; every waiter ahead of it
     * stays. `EINVAL` when no waiter matches or the scan meets a waiter with
     * no rule first.
     */
    method Set(s: Sched, mask: bv32) returns (err: Err)
      requires Valid(s)
      modifies this`value, this`list, s
      ensures Valid(s) && s.current == old(s.current)
      ensures old(list) == [] ==> err == EOK && value == old(value) | mask && list == [] &&
                                  s.threads == old(s.threads) && s.ready == old(s.ready) && s.armed == old(s.armed)
      ensures var v := old(value) | mask;
              var k := FirstMatch(old(list), old(s.threads), v);
              old(list) != [] ==>
                (err == EOK <==> k < |old(list)| && Wakes(old(s.threads)[old(list)[k]], v)) &&
                (err != EOK ==> err == EINVAL && value == v && list == old(list) &&
                                s.threads == old(s.threads) && s.ready == old(s.ready) && s.armed == old(s.armed)) &&
                (err == EOK ==>
                   var w := old(list)[k];
                   var th := old(s.threads)[w];
                   list == old(list)[..k] + old(list)[k + 1..] &&
                   s.ready == old(s.ready) + {w} && s.armed == old(s.armed) - {w} &&
                   s.threads == old(s.threads)[w := th.(eventMask := Narrowed(th, v))] &&
                   value == Consumed(v, Narrowed(th, v), th.eventOpt))
    {
      var k;
      err, k := Match(s, mask);
      if err == EOK && list != [] {
        var w := list[k];
        s.Resume(w);
        list := list[..k] + list[k + 1..];
      }
    }

    /** `MDS_EventClr`: the mask bits are cleared and every other bit kept. */
    method Clr(mask: bv32) returns (err: Err)
      modifies this`value
      ensures err == EOK && value & mask == 0 && value & !mask == old(value) & !mask
    {
      value := value & !mask;
      err := EOK;
    }
  }

  /**
   * The scan of `MDS_EventSet` can match a waiter behind the head: with an
   * AND waiter for bit 0 ahead of an OR waiter for bit 1, raising bit 1
   * matches the second waiter, while the head's rule does not hold.
   */
  lemma MatchBehindHead()
    ensures var th: Threads := map[1 := Thread(1, EOK, 1, OPT_AND), 2 := Thread(1, EOK, 2, OPT_OR)];
            FirstMatch([1, 2], th, 2) == 1 && !Wakes(th[1], 2) && Wakes(th[2], 2)
  {
    var th: Threads := map[1 := Thread(1, EOK, 1, OPT_AND), 2 := Thread(1, EOK, 2, OPT_OR)];
    assert [1, 2][1..] == [2];
    assert !Wakes(th[1], 2) && !Stops(th[1]);
    assert Wakes(th[2], 2);
  }

  /** `MDS_EventCreate`: zeroed memory (`None` when the heap is exhausted) registered as created. */
  method Create(s: Sched, mem: Option<Event>, reg: Objects.Registry, name: string) returns (r: Option<Event>)
    requires s.Valid() && reg.Valid()
    requires mem.Some? ==> mem.value.obj.flags == 0
    modifies reg, if mem.Some? then {mem.value, mem.value.obj} else {}
    ensures reg.Valid() && r == mem
    ensures r.Some? ==> r.value.Valid(s) && r.value.value == 0 && r.value.list == [] &&
                        Objects.GetType(r.value.obj.flags) == Objects.TYPE_EVENT &&
                        Objects.IsCreated(r.value.obj.flags) &&
                        reg.lists == Objects.Joined(old(reg.lists), Objects.TYPE_EVENT, r.value.obj)
    ensures r.None? ==> reg.lists == old(reg.lists)
  {
    var o := reg.Create(if mem.Some? then Some(mem.value.obj) else None, Objects.TYPE_EVENT, name);
    if mem.Some? {
      mem.value.value := 0;
      mem.value.list := [];
    }
    r := mem;
  }
}

=== FILE: fallback.dfy ===
/**
 * The semaphore, mutex and event flags of the stand-alone build (nosys.c),
 * where there are no threads to block: an acquire polls under the interrupt
 * lock until it succeeds or the timeout has elapsed.
 *
 * Each `MDS_LOOP` iteration is modelled as one step: `elapsed` is the tick
 * distance from the start of the call to the clock read after the attempt,
 * and `again` says whether the loop polls once more.
 */
module Fallback {
  import opened Kernel
  import Objects

  /** The busy-wait goes round again when the attempt failed and the timeout has not elapsed. */
  function PollAgain(ok: bool, timeout: Tick, elapsed: Tick): (again: bool)
    ensures again <==> !ok && elapsed < timeout
  {
    !ok && elapsed < timeout
  }

  /**
   * The attempts the busy-wait makes when they succeed as `oks` says and
   * the clock reads `elapsed` ticks after each: it stops after the first
   * that does not go round again, or when the readings run out.
   */
  function Attempts(oks: seq<bool>, timeout: Tick, elapsed: seq<Tick>): (n: nat)
    requires |oks| == |elapsed|
    ensures n <= |oks|
    ensures 0 < n < |oks| ==> !PollAgain(oks[n - 1], timeout, elapsed[n - 1])
  {
    if oks == [] then 0
    else if !PollAgain(oks[0], timeout, elapsed[0]) then 1
    else 1 + Attempts(oks[1..], timeout, elapsed[1..])
  }

  /**
   * While the clock moves, the busy-wait ends: with readings that rise by
   * at least one tick per attempt from `start`, no more than
   * `timeout - start + 1` attempts are made, and a no-wait call makes one.
   */
  lemma {:induction false} AttemptsBounded(oks: seq<bool>, timeout: Tick, elapsed: seq<Tick>, start: nat)
    requires |oks| == |elapsed|
    requires forall i | 0 <= i < |elapsed| :: elapsed[i] >= start + i
    ensures Attempts(oks, timeout, elapsed) <= (if timeout >= start then timeout - start else 0) + 1
  {
    if oks != [] && PollAgain(oks[0], timeout, elapsed[0]) {
      forall i | 0 <= i < |elapsed[1..]| ensures elapsed[1..][i] >= start + 1 + i {
        assert elapsed[1..][i] == elapsed[i + 1];
      }
      AttemptsBounded(oks[1..], timeout, elapsed[1..], start + 1);
    }
  }

  /** `MDS_Semaphore_t` without a wait list. */
  class Semaphore {
    const obj: Objects.Obj
    var value: Size
    var max: Size

    /** Zeroed memory for a semaphore. */
    constructor ()
      ensures fresh(obj) && obj.flags == 0 && obj.name == [] && value == 0 && max == 0
    {
      obj := new Objects.Obj();
      value := 0;
      max := 0;
    }

    /** `MDS_SemaphoreInit`: on a header not in use, the count starts at `init` with ceiling `max`. */
    method Init(reg: Objects.Registry, name: string, init: Size, max: Size) returns (err: Err)
      requires reg.Valid()
      modifies this, reg, obj
      ensures reg.Valid()
      ensures err == (if old(obj.flags) != 0 then EAGAIN else EOK)
      ensures err == EOK ==> value == init && this.max == max &&
                             Objects.GetType(obj.flags) == Objects.TYPE_SEMAPHORE &&
                             reg.lists == Objects.Joined(old(reg.lists), Objects.TYPE_SEMAPHORE, obj)
      ensures err == EAGAIN ==> value == old(value) && this.max == old(this.max) && reg.lists == old(reg.lists)
    {
      err := reg.Init(obj, Objects.TYPE_SEMAPHORE, name);
      if err == EOK {
        Objects.CreatedBitIsSeparate(0, Objects.TYPE_SEMAPHORE);
        value := init;
        this.max := max;
      }
    }

    /** `MDS_SemaphoreDeInit`: the header leaves the registry. */
    method DeInit(reg: Objects.Registry) returns (err: Err)
      requires reg.Valid()
      modifies reg, obj
      ensures reg.Valid() && err == EOK && obj.flags == 0
      ensures reg.lists == Objects.Left(old(reg.lists), obj)
    {
      err := reg.DeInit(obj);
    }

    /** `MDS_SemaphoreDestroy`: a created semaphore leaves the registry, any other is refused. */
    method Destroy(reg: Objects.Registry) returns (err: Err)
      requires reg.Valid()
      modifies reg, obj
      ensures reg.Valid()
      ensures err == (if Objects.IsCreated(old(obj.flags)) then EOK else EFAULT)
      ensures err == EFAULT ==> reg.lists == old(reg.lists) && obj.flags == old(obj.flags)
      ensures err == EOK ==> reg.lists == Objects.Left(old(reg.lists), obj) && obj.flags == 0
    {
      err := reg.Destory(obj);
    }

    /**
     * One poll of `MDS_SemaphoreAcquire`: a positive count is decremented
     * and the call succeeds; otherwise the count is unchanged and the call
     * reports `ETIMEOUT` unless it polls again.
     */
    method Acquire(timeout: Tick, elapsed: Tick) returns (err: Err, again: bool)
      modifies this`value
      ensures old(value) > 0 ==> err == EOK && value == old(value) - 1
      ensures old(value) == 0 ==> err == ETIMEOUT && value == 0
      ensures again == PollAgain(err == EOK, timeout, elapsed)
    {
      err := ETIMEOUT;
      if value > 0 {
        value := value - 1;
        err := EOK;
      }
      again := PollAgain(err == EOK, timeout, elapsed);
    }

    /** `MDS_SemaphoreRelease`: the count grows by one below the ceiling; at the ceiling `ERANGE`. */
    method Release() returns (err: Err)
      modifies this`value
      ensures err == (if old(value) < max then EOK else ERANGE)
      ensures err == EOK ==> value == old(value) + 1
      ensures err == ERANGE ==> value == old(value)
      ensures old(value) <= max ==> value <= max
    {
      if value < max {
        value := value + 1;
        err := EOK;
      } else {
        err := ERANGE;
      }
    }
  }

  /** `MDS_SemaphoreCreate`: `mem` is the zeroed memory obtained for it, `None` when the heap is exhausted. */
  method CreateSemaphore(mem: Option<Semaphore>, reg: Objects.Registry, name: string, init: Size, max: Size)
    returns (r: Option<Semaphore>)
    requires reg.Valid()
    requires mem.Some? ==> mem.value.obj.flags == 0
    modifies reg, if mem.Some? then {mem.value, mem.value.obj} else {}
    ensures reg.Valid() && r == mem
    ensures r.Some? ==> r.value.value == init && r.value.max == max &&
                        Objects.GetType(r.value.obj.flags) == Objects.TYPE_SEMAPHORE &&
                        Objects.IsCreated(r.value.obj.flags) &&
                        reg.lists == Objects.Joined(old(reg.lists), Objects.TYPE_SEMAPHORE, r.value.obj)
    ensures r.None? ==> reg.lists == old(reg.lists)
  {
    var o := reg.Create(if mem.Some? then Some(mem.value.obj) else None, Objects.TYPE_SEMAPHORE, name);
    if mem.Some? {
      mem.value.value := init;
      mem.value.max := max;
    }
    r := mem;
  }

  /**
   * `MDS_Mutex_t` without a wait list: `value` is 1 when free. The owner is
   * never recorded in this build.
   */
  class Mutex {
    const obj: Objects.Obj
    var owner: Option<ThreadId>
    var priority: nat
    var value: nat
    var nest: nat

    /** Zeroed memory for a mutex. */
    constructor ()
      ensures fresh(obj) && obj.flags == 0 && obj.name == []
      ensures owner == None && priority == 0 && value == 0 && nest == 0
    {
      obj := new Objects.Obj();
      owner := None;
      priority := 0;
      value := 0;
      nest := 0;
    }

    /**
     * No owner and no nesting are ever recorded in this build: only `value`
     * changes once the mutex is initialised.
     */
    ghost predicate Valid()
      reads this`owner, this`nest
    {
      owner == None && nest == 0
    }

    /** The fields of a free mutex. */
    ghost predicate Free()
      reads this
    {
      owner == None && priority == PRIORITY_MAX && value == 1 && nest == 0
    }

    /** `MDS_MutexInit`: on a header not in use, the mutex starts free. */
    method Init(reg: Objects.Registry, name: string) returns (err: Err)
      requires reg.Valid()
      modifies this, reg, obj
      ensures reg.Valid()
      ensures err == (if old(obj.flags) != 0 then EAGAIN else EOK)
      ensures err == EOK ==> Free() && Valid() && Objects.GetType(obj.flags) == Objects.TYPE_MUTEX &&
                             reg.lists == Objects.Joined(old(reg.lists), Objects.TYPE_MUTEX, obj)
      ensures err == EAGAIN ==> value == old(value) && owner == old(owner) && reg.lists == old(reg.lists)
    {
      err := reg.Init(obj, Objects.TYPE_MUTEX, name);
      if err == EOK {
        Objects.CreatedBitIsSeparate(0, Objects.TYPE_MUTEX);
        owner := None;
        priority := PRIORITY_MAX;
        value := 1;
        nest := 0;
      }
    }

    /** `MDS_MutexDeInit`: the header leaves the registry. */
    method DeInit(reg: Objects.Registry) returns (err: Err)
      requires reg.Valid()
      modifies reg, obj
      ensures reg.Valid() && err == EOK && obj.flags == 0
      ensures reg.lists == Objects.Left(old(reg.lists), obj)
    {
      err := reg.DeInit(obj);
    }

    /** `MDS_MutexDestroy`: a created mutex leaves the registry, any other is refused. */
    method Destroy(reg: Objects.Registry) returns (err: Err)
      requires reg.Valid()
      modifies reg, obj
      ensures reg.Valid()
      ensures err == (if Objects.IsCreated(old(obj.flags)) then EOK else EFAULT)
      ensures err == EFAULT ==> reg.lists == old(reg.lists) && obj.flags == old(obj.flags)
      ensures err == EOK ==> reg.lists == Objects.Left(old(reg.lists), obj) && obj.flags == 0
    {
      err := reg.Destory(obj);
    }

    /**
     * One poll of `MDS_MutexAcquire` as written: a free mutex is taken; but
     * the call returns `EOK` whether or not it was taken, so a timed-out
     * acquire of a held mutex reports success.
     */
    method Acquire(timeout: Tick, elapsed: Tick) returns (err: Err, again: bool)
      modifies this`value
      ensures value == 0 && err == EOK
      ensures again == PollAgain(old(value) > 0, timeout, elapsed)
      ensures old(value) == 0 && elapsed >= timeout ==> !again && err == EOK
    {
      var got := false;
      if value > 0 {
        value := 0;
        got := true;
      }
      again := PollAgain(got, timeout, elapsed);
      err := EOK;
    }

    /** One poll of `MDS_MutexAcquire` returning the loop's own result: `EOK` exactly when the mutex was taken. */
    method AcquireChecked(timeout: Tick, elapsed: Tick) returns (err: Err, again: bool)
      modifies this`value
      ensures value == 0
      ensures err == (if old(value) > 0 then EOK else ETIMEOUT)
      ensures again == PollAgain(err == EOK, timeout, elapsed)
    {
      err := ETIMEOUT;
      if value > 0 {
        value := 0;
        err := EOK;
      }
      again := PollAgain(err == EOK, timeout, elapsed);
    }

    /** `MDS_MutexRelease`: the mutex is free again, whoever calls. */
    method Release() returns (err: Err)
      modifies this`value
      ensures value == 1 && err == EOK
    {
      value := 1;
      err := EOK;
    }

    /** `MDS_MutexGetOwner`: without threads there is never an owner to report. */
    function GetOwner(): (r: Option<ThreadId>)
      reads this
      requires Valid()
      ensures r == None
    {
      owner
    }
  }

  /** `MDS_MutexCreate`: `mem` is the zeroed memory obtained for it, `None` when the heap is exhausted. */
  method CreateMutex(mem: Option<Mutex>, reg: Objects.Registry, name: string) returns (r: Option<Mutex>)
    requires reg.Valid()
    requires mem.Some? ==> mem.value.obj.flags == 0
    modifies reg, if mem.Some? then {mem.value, mem.value.obj} else {}
    ensures reg.Valid() && r == mem
    ensures r.Some? ==> r.value.Free() && Objects.GetType(r.value.obj.flags) == Objects.TYPE_MUTEX &&
                        Objects.IsCreated(r.value.obj.flags) &&
                        reg.lists == Objects.Joined(old(reg.lists), Objects.TYPE_MUTEX, r.value.obj)
    ensures r.None? ==> reg.lists == old(reg.lists)
  {
    var o := reg.Create(if mem.Some? then Some(mem.value.obj) else None, Objects.TYPE_MUTEX, name);
    if mem.Some? {
      var m := mem.value;
      m.owner := None;
      m.priority := PRIORITY_MAX;
      m.value := 1;
      m.nest := 0;
    }
    r := mem;
  }

  /** `MDS_Event_t` without a wait list. */
  class Event {
    const obj: Objects.Obj
    var value: bv32

    /** Zeroed memory for an event. */
    constructor ()
      ensures fresh(obj) && obj.flags == 0 && obj.name == [] && value == 0
    {
      obj := new Objects.Obj();
      value := 0;
    }

    /** `MDS_EventInit`: on a header not in use, no flag is set. */
    method Init(reg: Objects.Registry, name: string) returns (err: Err)
      requires reg.Valid()
      modifies this, reg, obj
      ensures reg.Valid()
      ensures err == (if old(obj.flags) != 0 then EAGAIN else EOK)
      ensures err == EOK ==> value == 0 && Objects.GetType(obj.flags) == Objects.TYPE_EVENT &&
                             reg.lists == Objects.Joined(old(reg.lists), Objects.TYPE_EVENT, obj)
      ensures err == EAGAIN ==> value == old(value) && reg.lists == old(reg.lists)
    {
      err := reg.Init(obj, Objects.TYPE_EVENT, name);
      if err == EOK {
        Objects.CreatedBitIsSeparate(0, Objects.TYPE_EVENT);
        value := 0;
      }
    }

    /** `MDS_EventDeInit`: the header leaves the registry. */
    method DeInit(reg: Objects.Registry) returns (err: Err)
      requires reg.Valid()
      modifies reg, obj
      ensures reg.Valid() && err == EOK && obj.flags == 0
      ensures reg.lists == Objects.Left(old(reg.lists), obj)
    {
      err := reg.DeInit(obj);
    }

    /** `MDS_EventDestroy`: a created event leaves the registry, any other is refused. */
    method Destroy(reg: Objects.Registry) returns (err: Err)
      requires reg.Valid()
      modifies reg, obj
      ensures reg.Valid()
      ensures err == (if Objects.IsCreated(old(obj.flags)) then EOK else EFAULT)
      ensures err == EFAULT ==> reg.lists == old(reg.lists) && obj.flags == old(obj.flags)
      ensures err == EOK ==> reg.lists == Objects.Left(old(reg.lists), obj) && obj.flags == 0
    {
      err := reg.Destory(obj);
    }

    /**
     * One poll of `MDS_EventWait`: an empty mask or options naming neither
     * AND nor OR are refused with `EINVAL`. When the flags satisfy the wait
     * the caller receives them and the mask bits are cleared unless
     * `OPT_NOCLR`; otherwise nothing changes and the call reports `ETIMEOUT`
     * unless it polls again.
     */
    method Wait(mask: bv32, opt: bv32, timeout: Tick, elapsed: Tick) returns (err: Err, recv: Option<bv32>, again: bool)
      requires opt & (OPT_AND | OPT_OR) != OPT_AND | OPT_OR
      modifies this`value
      ensures err == EINVAL <==> mask == 0 || opt & (OPT_AND | OPT_OR) == 0
      ensures err == EINVAL ==> value == old(value) && !again && recv == None
      ensures err != EINVAL ==>
                (err == EOK <==> Satisfied(old(value), mask, opt)) &&
                again == PollAgain(err == EOK, timeout, elapsed)
      ensures err == EINVAL || err == EOK || err == ETIMEOUT
      ensures err == EOK ==> recv == Some(old(value)) && value == Consumed(old(value), mask, opt)
      ensures err == ETIMEOUT ==> recv == None && value == old(value)
    {
      if mask == 0 || opt & (OPT_AND | OPT_OR) == 0 {
        return EINVAL, None, false;
      }
      err := ETIMEOUT;
      recv := None;
      if (opt & OPT_AND != 0 && value & mask == mask) || (opt & OPT_OR != 0 && value & mask != 0) {
        recv := Some(value);
        if opt & OPT_NOCLR == 0 {
          value := value & !mask;
        }
        err := EOK;
      }
      again := PollAgain(err == EOK, timeout, elapsed);
    }

    /** `MDS_EventSet`: the mask bits are raised. */
    method Set(mask: bv32) returns (err: Err)
      modifies this`value
      ensures value == old(value) | mask && err == EOK
    {
      value := value | mask;
      err := EOK;
    }

    /** `MDS_EventClr`: the mask bits are cleared. */
    method Clr(mask: bv32) returns (err: Err)
      modifies this`value
      ensures value == old(value) & !mask && err == EOK
    {
      value := value & !mask;
      err := EOK;
    }
  }

  /** `MDS_EventCreate`: `mem` is the zeroed memory obtained for it, `None` when the heap is exhausted. */
  method CreateEvent(mem: Option<Event>, reg: Objects.Registry, name: string) returns (r: Option<Event>)
    requires reg.Valid()
    requires mem.Some? ==> mem.value.obj.flags == 0
    modifies reg, if mem.Some? then {mem.value, mem.value.obj} else {}
    ensures reg.Valid() && r == mem
    ensures r.Some? ==> r.value.value == 0 && Objects.GetType(r.value.obj.flags) == Objects.TYPE_EVENT &&
                        Objects.IsCreated(r.value.obj.flags) &&
                        reg.lists == Objects.Joined(old(reg.lists), Objects.TYPE_EVENT, r.value.obj)
    ensures r.None? ==> reg.lists == old(reg.lists)
  {
    var o := reg.Create(if mem.Some? then Some(mem.value.obj) else None, Objects.TYPE_EVENT, name);
    if mem.Some? {
      mem.value.value := 0;
    }
    r := mem;
  }
}

=== FILE: kernel.dfy ===
/**
 * Shared vocabulary of the kernel: error codes, tick arithmetic, thread
 * control blocks and the scheduler effects that the IPC primitives call.
 *
 * The scheduler itself (thread.c, scheduler.c) is not part of this model:
 * `Sched` only records the effects that the IPC code relies on, namely which
 * threads are runnable, each thread's current priority and error slot, and
 * which threads have a timeout timer armed.
 */
module Kernel {

  /** The error taxonomy returned by every kernel call. */
  datatype Err = EOK | ETIMEOUT | ERANGE | EINVAL | EACCES | EAGAIN | EBUSY | EFAULT

  datatype Option<T> = None | Some(value: T)

  /**
   * What a call that may block leaves its caller with: finished with an
   * error code, or parked on a wait list. A parked caller returns later with
   * the error slot of its control block, which the waker sets.
   */
  datatype Step = Done(err: Err) | Blocked

  /** `MDS_Tick_t` is a 32-bit unsigned counter. */
  const TICK_MOD: nat := 0x1_0000_0000
  type Tick = t: int | 0 <= t < TICK_MOD

  /** `MDS_CLOCK_TICK_FOREVER`, the all-ones tick value. */
  const TICK_FOREVER: Tick := 0xFFFF_FFFF
  /** `MDS_CLOCK_TICK_TIMER_MAX`: half of the tick range; longer delays are refused. */
  const TIMER_MAX: Tick := 0x7FFF_FFFF
  /** `MDS_CLOCK_TICK_NO_WAIT`. */
  const NO_WAIT: Tick := 0

  /** `size_t` on the 32-bit targets the kernel is built for. */
  const SIZE_MAX: nat := 0xFFFF_FFFF
  type Size = n: int | 0 <= n <= SIZE_MAX

  /** `CONFIG_MDS_KERNEL_THREAD_PRIORITY_MAX`: the least urgent priority. */
  const PRIORITY_MAX: nat := 32

  /** Unsigned tick subtraction, `a - b` modulo 2^32. */
  function TickSub(a: Tick, b: Tick): (r: Tick)
    ensures (r + b) % TICK_MOD == a
  {
    (a - b) % TICK_MOD
  }

  /** Unsigned tick addition, `a + b` modulo 2^32. */
  function TickAdd(a: Tick, b: Tick): (r: Tick)
    ensures TickSub(r, a) == b
  {
    (a + b) % TICK_MOD
  }

  /** Event option bits (`MDS_EVENT_OPT_*`). */
  const OPT_AND: bv32 := 0x01
  const OPT_OR: bv32 := 0x02
  const OPT_NOCLR: bv32 := 0x04

  /**
   * The wake rule of an event wait: every mask bit raised under `OPT_AND`,
   * at least one of them under `OPT_OR`.
   */
  function Satisfied(value: bv32, mask: bv32, opt: bv32): (ok: bool)
    ensures ok ==> opt & (OPT_AND | OPT_OR) != 0
    ensures ok && mask != 0 ==> value & mask != 0
    ensures opt & OPT_AND != 0 && opt & OPT_OR != 0 && mask != 0 ==> (ok <==> value & mask != 0)
  {
    (opt & OPT_AND != 0 && AllSet(value, mask)) || (opt & OPT_OR != 0 && AnySet(value, mask))
  }

  /** Every bit of `mask` is set in `value`. */
  predicate AllSet(value: bv32, mask: bv32)
  {
    value & mask == mask
  }

  /** Some bit of `mask` is set in `value`. */
  predicate AnySet(value: bv32, mask: bv32)
  {
    value & mask != 0
  }

  /** The flags a satisfied wait leaves: its mask bits cleared unless `OPT_NOCLR`; no other bit changes. */
  function Consumed(value: bv32, mask: bv32, opt: bv32): (r: bv32)
    ensures r & !mask == value & !mask
    ensures opt & OPT_NOCLR == 0 ==> r & mask == 0
    ensures opt & OPT_NOCLR != 0 ==> r == value
  {
    if opt & OPT_NOCLR == 0 then value & !mask else value
  }

  /** No element occurs twice: what an intrusive list guarantees of its nodes. */
  predicate Distinct<T(==)>(s: seq<T>)
  {
    forall i, j :: 0 <= i < j < |s| ==> s[i] != s[j]
  }

  /**
   * `MDS_ListRemoveNode` seen on the whole list: `x` is unlinked and every
   * other node keeps its place.
   */
  function Remove<T(==)>(s: seq<T>, x: T): (r: seq<T>)
    ensures forall i | 0 <= i < |r| :: r[i] in s && r[i] != x
    ensures forall i | 0 <= i < |s| && s[i] != x :: s[i] in r
    ensures x !in s ==> r == s
    ensures Distinct(s) ==> Distinct(r) && |r| == (if x in s then |s| - 1 else |s|)
  {
    if s == [] then []
    else
      assert s == [s[0]] + s[1..];
      if s[0] == x then Remove(s[1..], x) else [s[0]] + Remove(s[1..], x)
  }

  /** Unlinking a node that was just appended gives back the list it joined. */
  lemma {:induction false} RemoveAppended<T>(s: seq<T>, x: T)
    requires x !in s
    ensures Remove(s + [x], x) == s
  {
    if s != [] {
      assert (s + [x])[1..] == s[1..] + [x];
      RemoveAppended(s[1..], x);
    }
  }

  type ThreadId = nat

  /**
   * The fields of a thread control block that the IPC code reads and writes:
   * its current (possibly inherited) priority, where a lower number is more
   * urgent; the error slot that tells a woken thread why it woke; and the
   * event mask and options it waits with.
   */
  datatype Thread = Thread(currPrio: nat, err: Err, eventMask: bv32, eventOpt: bv32)

  /** The scheduler state the IPC code acts on. */
  class Sched {
    var threads: map<ThreadId, Thread>
    var ready: set<ThreadId>
    /** Threads whose own timeout timer is running, with the timeout it was started with. */
    var armed: map<ThreadId, Tick>
    /** `MDS_KernelCurrentThread()`: `None` outside thread context. */
    var current: Option<ThreadId>

    ghost predicate Valid()
      reads this
    {
      (current.Some? ==> current.value in threads) &&
      ready <= threads.Keys
    }

    /** The calling thread, if any, is runnable: it is the one executing the call. */
    ghost predicate Running()
      reads this
    {
      current.Some? ==> current.value in ready
    }

    constructor (threads: map<ThreadId, Thread>, current: Option<ThreadId>)
      requires current.Some? ==> current.value in threads
      ensures Valid()
      ensures this.threads == threads && this.current == current
      ensures ready == threads.Keys && armed == map[]
    {
      this.threads := threads;
      this.ready := threads.Keys;
      this.armed := map[];
      this.current := current;
    }

    /**
     * `MDS_ThreadSuspend`: succeeds for a runnable thread, which leaves the
     * runnable set with its error slot reset to `EOK`; fails otherwise.
     */
    method Suspend(t: ThreadId) returns (err: Err)
      requires Valid() && t in threads
      modifies this
      ensures Valid()
      ensures err == (if t in old(ready) then EOK else EACCES)
      ensures err == EOK ==> ready == old(ready) - {t} &&
                             threads == old(threads)[t := old(threads)[t].(err := EOK)]
      ensures err != EOK ==> ready == old(ready) && threads == old(threads)
      ensures armed == old(armed) && current == old(current)
    {
      if t in ready {
        ready := ready - {t};
        threads := threads[t := threads[t].(err := EOK)];
        err := EOK;
      } else {
        err := EACCES;
      }
    }

    /** `MDS_ThreadResume`: the thread becomes runnable and its timeout timer is stopped. */
    method Resume(t: ThreadId)
      requires Valid() && t in threads
      modifies this
      ensures Valid()
      ensures ready == old(ready) + {t} && armed == old(armed) - {t}
      ensures threads == old(threads) && current == old(current)
    {
      ready := ready + {t};
      armed := armed - {t};
    }

    /** `MDS_ThreadChangePriority`. */
    method ChangePriority(t: ThreadId, prio: nat)
      requires Valid() && t in threads
      modifies this
      ensures Valid()
      ensures threads == old(threads)[t := old(threads)[t].(currPrio := prio)]
      ensures ready == old(ready) && armed == old(armed) && current == old(current)
    {
      threads := threads[t := threads[t].(currPrio := prio)];
    }

    /** `MDS_TimerStart` on the thread's own timer. */
    method StartTimer(t: ThreadId, ticks: Tick)
      requires Valid() && t in threads
      modifies this
      ensures Valid()
      ensures armed == old(armed)[t := ticks]
      ensures threads == old(threads) && ready == old(ready) && current == old(current)
    {
      armed := armed[t := ticks];
    }

    /**
     * The scheduler after `t` has parked with `timeout`, against the state
     * before the call: `t` is no longer runnable, its error slot reads
     * `EOK`, its timeout timer runs unless it waits for ever, and nothing
     * else changes.
     */
    twostate predicate Parked(t: ThreadId, timeout: Tick)
      reads this
    {
      t in old(threads) &&
      ready == old(ready) - {t} &&
      threads == old(threads)[t := old(threads)[t].(err := EOK)] &&
      armed == (if timeout < TIMER_MAX then old(armed)[t := timeout] else old(armed))
    }

    /**
     * The scheduler after the threads `w` have been resumed, against the
     * state before the call: they are runnable, their timers stopped, and
     * nothing else changes.
     */
    twostate predicate Woke(w: set<ThreadId>)
      reads this
    {
      ready == old(ready) + w && armed == old(armed) - w && threads == old(threads)
    }

    /** Records the mask and options a thread waits for events with (`thread->eventMask`, `thread->eventOpt`). */
    method SetEvent(t: ThreadId, mask: bv32, opt: bv32)
      requires Valid() && t in threads
      modifies this
      ensures Valid()
      ensures threads == old(threads)[t := old(threads)[t].(eventMask := mask, eventOpt := opt)]
      ensures ready == old(ready) && armed == old(armed) && current == old(current)
    {
      threads := threads[t := threads[t].(eventMask := mask, eventOpt := opt)];
    }

    /** Writes the error slot of a thread (`thread->err = ...`). */
    method SetErr(t: ThreadId, err: Err)
      requires Valid() && t in threads
      modifies this
      ensures Valid()
      ensures threads == old(threads)[t := old(threads)[t].(err := err)]
      ensures ready == old(ready) && armed == old(armed) && current == old(current)
    {
      threads := threads[t := threads[t].(err := err)];
    }
  }
}

=== FILE: links.dfy ===
/**
 * The singly linked slot lists of the message queue and the memory pool.
 *
 * A buffer is cut into equal slots, numbered from 0; each slot starts with
 * a header whose `next` field links it to another slot or is NULL. A list
 * is named by its first slot (`lfree`, `lhead`), and `Chain` ties such a
 * pointer to the sequence of slots reached by following `next` to NULL.
 */
module Links {
  import opened Kernel

  /** A slot pointer: `None` is NULL. */
  type Link = Option<nat>

  /** `MDS_SYSMEM_ALIGN_SIZE`: the alignment of slot payloads, in bytes. */
  const ALIGN: nat := 4

  /**
   * `VALUE_ALIGN(size + ALIGN - 1, ALIGN)`: a payload size rounded up to
   * the alignment.
   */
  function AlignUp(size: nat): (r: nat)
    ensures r % ALIGN == 0 && size <= r < size + ALIGN
  {
    (size + ALIGN - 1) / ALIGN * ALIGN
  }

  function Head(l: seq<nat>): (r: Link)
    ensures r.None? <==> l == []
    ensures r.Some? ==> r.value == l[0]
  {
    if l == [] then None else Some(l[0])
  }

  function Last(l: seq<nat>): (r: Link)
    ensures r.None? <==> l == []
    ensures r.Some? ==> r.value == l[|l| - 1]
  {
    if l == [] then None else Some(l[|l| - 1])
  }

  /**
   * Following `next` from `start` visits the slots of `l` in order and
   * then reaches NULL.
   */
  ghost predicate Chain(next: seq<Link>, start: Link, l: seq<nat>)
  {
    start == Head(l) && Linked(next, l)
  }

  /** Each slot of `l` links to the one after it, and the last one to NULL. */
  ghost predicate Linked(next: seq<Link>, l: seq<nat>)
  {
    (forall i | 0 <= i < |l| :: l[i] < |next|) &&
    (forall i | 0 <= i < |l| - 1 :: next[l[i]] == Some(l[i + 1])) &&
    (l != [] ==> next[l[|l| - 1]] == None)
  }

  /** Taking the first slot off a list leaves the list that its `next` starts. */
  lemma ChainPop(next: seq<Link>, start: Link, l: seq<nat>)
    requires Chain(next, start, l) && l != []
    ensures Chain(next, next[l[0]], l[1..])
  {
    if |l| > 1 {
      assert next[l[0]] == Some(l[1]);
    }
    forall i | 0 <= i < |l[1..]| - 1
      ensures next[l[1..][i]] == Some(l[1..][i + 1])
    {
      assert next[l[i + 1]] == Some(l[i + 2]);
    }
  }

  /** A slot outside the list, linked to its first slot, becomes the new first slot. */
  lemma ChainPush(next: seq<Link>, start: Link, l: seq<nat>, x: nat)
    requires Chain(next, start, l) && x < |next| && x !in l
    ensures Chain(next[x := start], Some(x), [x] + l)
  {
    var n := next[x := start];
    var l' := [x] + l;
    forall i | 0 <= i < |l'| - 1
      ensures n[l'[i]] == Some(l'[i + 1])
    {
      if i > 0 {
        assert l'[i] == l[i - 1] && l'[i + 1] == l[i];
        assert l[i - 1] != x;
      }
    }
    if l != [] {
      assert l'[|l'| - 1] == l[|l| - 1];
      assert l[|l| - 1] != x;
    }
  }

  /** Rewriting the header of a slot outside the list leaves the list alone. */
  lemma ChainFrame(next: seq<Link>, start: Link, l: seq<nat>, x: nat, v: Link)
    requires Chain(next, start, l) && x < |next| && x !in l
    ensures Chain(next[x := v], start, l)
  {
    var n := next[x := v];
    forall i | 0 <= i < |l| - 1
      ensures n[l[i]] == Some(l[i + 1])
    {
      assert l[i] != x;
    }
    if l != [] {
      assert l[|l| - 1] != x;
    }
  }

  /**
   * A slot outside the list whose `next` is NULL, linked from the last
   * slot, becomes the new last slot.
   */
  lemma ChainAppend(next: seq<Link>, start: Link, l: seq<nat>, x: nat)
    requires Chain(next, start, l) && x < |next| && x !in l && next[x] == None
    ensures var n := if l == [] then next else next[l[|l| - 1] := Some(x)];
            Chain(n, Head(l + [x]), l + [x])
  {
    var n := if l == [] then next else next[l[|l| - 1] := Some(x)];
    var l' := l + [x];
    ChainDistinct(next, start, l);
    forall i | 0 <= i < |l'| - 1
      ensures n[l'[i]] == Some(l'[i + 1])
    {
      assert l'[i] == l[i];
      if i < |l| - 1 {
        assert l[i] != l[|l| - 1];
      }
    }
    assert l == [] || x != l[|l| - 1];
  }

  /** A chain never visits a slot twice: the walk from a repeated slot would go round for ever. */
  lemma ChainDistinct(next: seq<Link>, start: Link, l: seq<nat>)
    requires Chain(next, start, l)
    ensures Distinct(l)
  {
    forall i, j | 0 <= i < j < |l|
      ensures l[i] != l[j]
    {
      ChainApart(next, l, i, j, |l| - 1 - j);
    }
  }

  /** Slots `i < j` of a linked list differ: by induction on the `k` slots after `j`. */
  lemma {:induction false} ChainApart(next: seq<Link>, l: seq<nat>, i: nat, j: nat, k: nat)
    requires Linked(next, l)
    requires i < j && j + k == |l| - 1
    ensures l[i] != l[j]
    decreases k
  {
    if k == 0 {
      assert next[l[j]] == None;
      assert next[l[i]] == Some(l[i + 1]);
    } else {
      ChainApart(next, l, i + 1, j + 1, k - 1);
      assert next[l[i]] == Some(l[i + 1]) && next[l[j]] == Some(l[j + 1]);
    }
  }

  /** The slots `n - 1` down to 0: the free list that pushing slots 0 to `n - 1` in turn builds. */
  function Desc(n: nat): (l: seq<nat>)
    ensures |l| == n
    ensures forall i | 0 <= i < n :: l[i] == n - 1 - i
  {
    if n == 0 then [] else [n - 1] + Desc(n - 1)
  }

  /**
   * The counting loop of `MDS_MsgQueueGetMsgCount`, `MDS_MsgQueueGetMsgFree`
   * and the intended `MDS_MemPoolGetBlkFree`: the number of slots a list
   * holds.
   */
  method CountChain(next: seq<Link>, start: Link, ghost l: seq<nat>) returns (cnt: nat)
    requires Chain(next, start, l)
    ensures cnt == |l|
  {
    var cur := start;
    cnt := 0;
    while cur.Some?
      invariant cnt <= |l| && Chain(next, cur, l[cnt..])
      decreases |l| - cnt
    {
      ChainPop(next, cur, l[cnt..]);
      assert l[cnt..][1..] == l[cnt + 1..];
      cur := next[cur.value];
      cnt := cnt + 1;
    }
  }
}

=== FILE: mempool.dfy ===
/**
 * The fixed-size block pool of ipc.c (`MDS_MemPool*`). Its buffer is cut
 * into blocks of a header and `blkSize` bytes. The header is a union: while
 * a block is free it holds the link to the next free block, and once the
 * block is handed out it holds a pointer back to the pool, which is how
 * `MDS_MemPoolFree` finds the pool of a block. Callers that find no free
 * block park on `list`.
 *
 * A block is named by its index in the buffer; the pointer the pool hands
 * out is the address just past that block's header.
 */
module MemPools {
  import opened Kernel
  import opened WaitLists
  import opened Links
  import Objects
  import MsgQueues

  /** `sizeof(union MDS_MemPoolHeader)`: one 32-bit pointer. */
  const HEADER: nat := 4

  /**
   * The blocks of a pool: `lfree` starts the chain of free blocks, whose
   * headers hold links; every block handed out holds the pool pointer in
   * its header (`owned`); each block is free or handed out, and only one
   * of these.
   */
  ghost predicate BlockLists(next: seq<Link>, owned: seq<bool>, lfree: Link, free: seq<nat>, taken: seq<nat>)
  {
    |owned| == |next| && Chain(next, lfree, free) &&
    Distinct(taken) && (forall x | x in taken :: x < |next| && owned[x]) &&
    (forall x | x in free :: x !in taken && !owned[x]) &&
    |free| + |taken| == |next|
  }

  /** `MDS_MemPoolAlloc` takes the first free block and stamps the pool pointer on it. */
  lemma AllocKeepsBlocks(next: seq<Link>, owned: seq<bool>, lfree: Link, free: seq<nat>, taken: seq<nat>)
    requires BlockLists(next, owned, lfree, free, taken) && free != []
    ensures var x := free[0];
            BlockLists(next, owned[x := true], next[x], free[1..], taken + [x])
  {
    var x := free[0];
    ChainPop(next, lfree, free);
    ChainDistinct(next, lfree, free);
    assert x !in free[1..] && x !in taken;
  }

  /** `MDS_MemPoolFreeBlk` links a block that was handed out in front of the free list. */
  lemma FreeKeepsBlocks(next: seq<Link>, owned: seq<bool>, lfree: Link, free: seq<nat>, taken: seq<nat>, x: nat)
    requires BlockLists(next, owned, lfree, free, taken) && x in taken
    ensures BlockLists(next[x := lfree], owned[x := false], Some(x), [x] + free, Remove(taken, x))
  {
    ChainPush(next, lfree, free, x);
    var rest := Remove(taken, x);
    forall y | y in rest
      ensures y in taken && y != x
    {
      var i :| 0 <= i < |rest| && rest[i] == y;
    }
  }

  /**
   * Freeing the block just allocated restores the whole pool: the block's
   * header links to the old next block again, it is no longer stamped,
   * it heads the free list again, and it is no longer handed out.
   */
  lemma FreeUndoesAlloc(next: seq<Link>, owned: seq<bool>, lfree: Link, free: seq<nat>, taken: seq<nat>)
    requires BlockLists(next, owned, lfree, free, taken) && free != []
    ensures var x := free[0];
            var lfree' := next[x];
            next[x := lfree'] == next && owned[x := true][x := false] == owned && Some(x) == lfree &&
            [x] + free[1..] == free && Remove(taken + [x], x) == taken
  {
    var x := free[0];
    assert x in free;
    RemoveAppended(taken, x);
  }

  /**
   * The loop guard of `MDS_MemPoolGetBlkFree` as written, for a walk at
   * `blk` over a buffer whose first block is block 0: the walk goes on
   * while it is not at NULL or not at the first block.
   */
  function WalkOnAsWritten(blk: Link): (on: bool)
    ensures on
  {
    blk != None || blk != Some(0)
  }

  /** How the walk of `MDS_MemPoolGetBlkFree` ends: with a count, or reading the `next` field of NULL. */
  datatype Walk = Counted(cnt: nat) | ReadsNull(cnt: nat) | OutOfBlocks

  /**
   * The walk of `MDS_MemPoolGetBlkFree` as written, from `blk` with `cnt`
   * blocks counted, for at most `steps` more blocks: each round the guard
   * is tested, the count goes up and the walk follows `next`, which at
   * NULL reads memory that is not there.
   */
  function WalkAsWritten(next: seq<Link>, blk: Link, cnt: nat, steps: nat): (w: Walk)
    ensures !w.Counted?
    ensures w.ReadsNull? ==> w.cnt > cnt
    decreases steps
  {
    if !WalkOnAsWritten(blk) then Counted(cnt)
    else if blk.None? then ReadsNull(cnt + 1)
    else if steps == 0 || blk.value >= |next| then OutOfBlocks
    else WalkAsWritten(next, next[blk.value], cnt + 1, steps - 1)
  }

  /**
   * As written, the walk over any NULL-terminated free list never stops at
   * its end: it counts every free block and NULL too, and then reads the
   * `next` field of NULL.
   */
  lemma {:induction false} WalkReadsNull(next: seq<Link>, blk: Link, l: seq<nat>, cnt: nat)
    requires Chain(next, blk, l)
    ensures WalkAsWritten(next, blk, cnt, |l|) == ReadsNull(cnt + |l| + 1)
    decreases |l|
  {
    if l != [] {
      ChainPop(next, blk, l);
      WalkReadsNull(next, next[l[0]], l[1..], cnt + 1);
    }
  }

  /**
   * The bytes `MDS_MemPoolCreate` asks for as written: it sizes each block
   * with the header of the message queue instead of its own, so it takes
   * 4 bytes more than the blocks need for every block.
   */
  function CreateBytesAsWritten(blkSize: Size, blkNums: Size): (n: nat)
    ensures n == CreateBytes(blkSize, blkNums) + 4 * blkNums
  {
    (AlignUp(blkSize) + MsgQueues.HEADER) * blkNums
  }

  /**
   * The bytes `blkNums` blocks of `blkSize` bytes take: a header and the
   * rounded payload each. Cut into blocks of that stride, they give
   * exactly `blkNums` blocks with nothing left over.
   */
  function CreateBytes(blkSize: Size, blkNums: Size): (n: nat)
    ensures n / (HEADER + AlignUp(blkSize)) == blkNums && n % (HEADER + AlignUp(blkSize)) == 0
  {
    MsgQueues.DivModUnique((AlignUp(blkSize) + HEADER) * blkNums, HEADER + AlignUp(blkSize), blkNums, 0);
    (AlignUp(blkSize) + HEADER) * blkNums
  }

  /** `CreateBytes` is the span of `blkNums` blocks of the stride a pool of `blkSize` bytes gets. */
  lemma SpanOfBlocks(blkSize: Size, blkNums: Size, stride: nat)
    requires stride == HEADER + AlignUp(blkSize)
    ensures CreateBytes(blkSize, blkNums) == blkNums * stride
  {
  }

  class MemPool {
    const obj: Objects.Obj
    /** The payload size of a block, rounded up to the alignment. */
    var blkSize: nat
    /** The block size asked for at initialisation. */
    ghost var asked: nat
    /** The `next` member of each block's header. */
    var next: seq<Link>
    /** Whether each block's header holds the `memPool` member instead. */
    var owned: seq<bool>
    var lfree: Link
    /** The threads parked in `Alloc`, head first. */
    var list: seq<ThreadId>
    /** The free blocks, in list order, and the blocks handed out. */
    ghost var free: seq<nat>
    ghost var taken: seq<nat>

    /** Zeroed memory for a memory pool. */
    constructor ()
      ensures fresh(obj) && obj.flags == 0 && obj.name == []
      ensures next == [] && lfree == None && list == []
    {
      obj := new Objects.Obj();
      blkSize := 0;
      asked := 0;
      next := [];
      owned := [];
      lfree := None;
      list := [];
      free := [];
      taken := [];
    }

    /** The block size was asked for as `asked` and rounded up to the alignment. */
    ghost predicate Sized()
      reads this`blkSize, this`asked
    {
      blkSize == AlignUp(asked)
    }

    /** The bytes from one block to the next. */
    function Stride(): (n: nat)
      reads this`blkSize
      ensures n >= HEADER > 0
    {
      HEADER + blkSize
    }

    ghost predicate Blocks()
      reads this`next, this`owned, this`lfree, this`free, this`taken
    {
      BlockLists(next, owned, lfree, free, taken)
    }

    ghost predicate Valid(s: Sched)
      reads this, s
    {
      s.Valid() && Known(list, s.threads) && Blocks()
    }

    /**
     * `MDS_MemPoolListInit` as written: the free list is seeded with the
     * first block instead of NULL before every block is pushed, so the
     * first block links to itself.
     */
    method ListInitAsWritten(n: nat)
      modifies this`next, this`owned, this`lfree
      ensures |next| == n && |owned| == n
      ensures lfree == Some(if n == 0 then 0 else n - 1)
      ensures forall i | 0 <= i < n :: next[i] == Some(if i == 0 then 0 else i - 1)
    {
      next := seq(n, _ => None);
      owned := seq(n, _ => false);
      lfree := Some(0);
      var idx := 0;
      while idx < n
        invariant 0 <= idx <= n && |next| == n && |owned| == n
        invariant lfree == Some(if idx == 0 then 0 else idx - 1)
        invariant forall i | 0 <= i < idx :: next[i] == Some(if i == 0 then 0 else i - 1)
      {
        next := next[idx := lfree];
        lfree := Some(idx);
        idx := idx + 1;
      }
    }

    /**
     * `MDS_MemPoolListInit` with a NULL-terminated free list: every block,
     * from the first to the last, is pushed, so the list holds them last
     * first and none is handed out.
     */
    method ListInit(n: nat)
      modifies this`next, this`owned, this`lfree, this`free, this`taken
      ensures Blocks() && |next| == n && free == Desc(n) && taken == []
    {
      next := seq(n, _ => None);
      owned := seq(n, _ => false);
      lfree := None;
      var idx := 0;
      while idx < n
        invariant 0 <= idx <= n && |next| == n && |owned| == n && Chain(next, lfree, Desc(idx))
        invariant forall i | 0 <= i < n :: !owned[i]
      {
        ChainPush(next, lfree, Desc(idx), idx);
        next := next[idx := lfree];
        lfree := Some(idx);
        idx := idx + 1;
      }
      free := Desc(n);
      taken := [];
    }

    /**
     * `MDS_MemPoolInit`: on a header not in use, the block size is rounded
     * up to the alignment and the buffer of `bufSize` bytes is cut into as
     * many whole blocks as fit, all free.
     */
    method Init(s: Sched, reg: Objects.Registry, name: string, bufSize: Size, blkSize: Size) returns (err: Err)
      requires s.Valid() && reg.Valid()
      requires bufSize > HEADER + blkSize
      modifies this, reg, obj
      ensures reg.Valid()
      ensures err == (if old(obj.flags) != 0 then EAGAIN else EOK)
      ensures err == EOK ==> Valid(s) && this.blkSize == AlignUp(blkSize) && Sized() && asked == blkSize &&
                             reg.lists == Objects.Joined(old(reg.lists), Objects.TYPE_MEMPOOL, obj) &&
                             |next| == bufSize / Stride() && |next| * Stride() <= bufSize &&
                             free == Desc(|next|) && taken == [] && list == [] &&
                             Objects.GetType(obj.flags) == Objects.TYPE_MEMPOOL
      ensures err == EAGAIN ==> reg.lists == old(reg.lists) && this.blkSize == old(this.blkSize) &&
                                next == old(next) && free == old(free) && taken == old(taken)
    {
      err := reg.Init(obj, Objects.TYPE_MEMPOOL, name);
      if err == EOK {
        Objects.CreatedBitIsSeparate(0, Objects.TYPE_MEMPOOL);
        Layout(bufSize, blkSize);
      }
    }

    /** The part of `MDS_MemPoolInit` after registration: nobody waiting, the size rounded up, every block free. */
    method Layout(bufSize: Size, blkSize: Size)
      modifies this`list, this`blkSize, this`asked, this`next, this`owned, this`lfree, this`free, this`taken
      ensures this.blkSize == AlignUp(blkSize) && Sized() && asked == blkSize && list == [] && Blocks()
      ensures |next| == bufSize / Stride() && |next| * Stride() <= bufSize
      ensures free == Desc(|next|) && taken == []
    {
      list := [];
      this.blkSize := AlignUp(blkSize);
      asked := blkSize;
      var st := Stride();
      ListInit(bufSize / st);
      MsgQueues.DivMulBound(bufSize, st);
    }

    /** `MDS_MemPoolDeInit`: every waiter is woken with `EAGAIN`, then the header leaves the registry. */
    method DeInit(s: Sched, reg: Objects.Registry) returns (err: Err)
      requires Valid(s) && reg.Valid()
      modifies this`list, s, reg, obj
      ensures Valid(s) && reg.Valid() && err == EOK && obj.flags == 0 && list == []
      ensures reg.lists == Objects.Left(old(reg.lists), obj)
      ensures s.ready == old(s.ready) + Members(old(list))
      ensures s.armed == old(s.armed) - Members(old(list))
      ensures s.current == old(s.current) && s.threads.Keys == old(s.threads.Keys)
      ensures forall x | x in s.threads ::
                s.threads[x] == if x in old(list) then Forced(old(s.threads)[x]) else old(s.threads)[x]
    {
      list := ResumeAll(s, list);
      err := reg.DeInit(obj);
    }

    /**
     * `MDS_MemPoolDestroy`: every waiter is woken with `EAGAIN`, the buffer
     * is freed, then a created pool is destroyed.
     */
    method Destroy(s: Sched, reg: Objects.Registry) returns (err: Err)
      requires Valid(s) && reg.Valid()
      modifies this`list, s, reg, obj
      ensures Valid(s) && reg.Valid() && list == []
      ensures err == (if Objects.IsCreated(old(obj.flags)) then EOK else EFAULT)
      ensures err == EFAULT ==> reg.lists == old(reg.lists) && obj.flags == old(obj.flags)
      ensures err == EOK ==> reg.lists == Objects.Left(old(reg.lists), obj) && obj.flags == 0
      ensures s.ready == old(s.ready) + Members(old(list))
      ensures s.armed == old(s.armed) - Members(old(list))
      ensures s.current == old(s.current) && s.threads.Keys == old(s.threads.Keys)
      ensures forall x | x in s.threads ::
                s.threads[x] == if x in old(list) then Forced(old(s.threads)[x]) else old(s.threads)[x]
    {
      list := ResumeAll(s, list);
      err := reg.Destory(obj);
    }

    /** Hands out the first free block, stamping the pool pointer in its header. */
    method Take() returns (x: nat)
      requires Blocks() && lfree.Some?
      modifies this`owned, this`lfree, this`free, this`taken
      ensures Blocks() && next == old(next)
      ensures x == old(free)[0] && free == old(free)[1..] && taken == old(taken) + [x]
    {
      AllocKeepsBlocks(next, owned, lfree, free, taken);
      x := lfree.value;
      lfree := next[x];
      owned := owned[x := true];
      free := free[1..];
      taken := taken + [x];
    }

    /** Parks the caller on the pool's wait list, in priority order, as `IPC_ListSuspendWait` does. */
    method Park(s: Sched, timeout: Tick)
      requires Valid(s) && s.Running() && s.current.Some?
      modifies this`list, s
      ensures Valid(s) && s.current == old(s.current) && s.threads.Keys == old(s.threads.Keys)
      ensures list == Enqueue(old(list), old(s.threads), s.current.value, true)
      ensures s.Parked(s.current.value, timeout)
    {
      ghost var th := s.threads;
      var ok;
      list, ok := SuspendThread(s, list, s.current.value, true, timeout);
      PrioPosSamePrio(old(list), th, s.threads, th[s.current.value].currPrio);
    }

    /**
     * `MDS_MemPoolAlloc`: the first free block is handed out. With none, a
     * no-wait call fails with `ETIMEOUT`, a call outside thread context
     * with `EACCES`, and a thread otherwise parks. `blk` is the block handed
     * out, `None` (a NULL result) when there is none.
     */
    method Alloc(s: Sched, timeout: Tick) returns (r: Step, blk: Option<nat>)
      requires Valid(s) && s.Running()
      modifies this`owned, this`lfree, this`free, this`taken, this`list, s
      ensures Valid(s) && s.current == old(s.current) && s.threads.Keys == old(s.threads.Keys)
      ensures blk.Some? <==> r == Done(EOK)
      ensures old(free) != [] ==>
                r == Done(EOK) && blk == Some(old(free)[0]) &&
                free == old(free)[1..] && taken == old(taken) + [old(free)[0]] &&
                list == old(list) && s.Woke({})
      ensures old(free) == [] ==>
                free == [] && taken == old(taken) &&
                r == (if timeout == NO_WAIT then Done(ETIMEOUT) else if s.current.None? then Done(EACCES) else Blocked)
      ensures old(free) == [] && r != Blocked ==> list == old(list) && s.Woke({})
      ensures r == Blocked ==>
                list == Enqueue(old(list), old(s.threads), s.current.value, true) &&
                s.Parked(s.current.value, timeout)
    {
      blk := None;
      if lfree.None? {
        if timeout == NO_WAIT {
          return Done(ETIMEOUT), blk;
        }
        if s.current.None? {
          return Done(EACCES), blk;
        }
        Park(s, timeout);
        return Blocked, blk;
      }
      var x := Take();
      r, blk := Done(EOK), Some(x);
    }

    /**
     * The rest of `MDS_MemPoolAlloc` once a parked caller runs again `delta`
     * ticks after it parked: a wake-up for a reason other than a free block
     * ends the call with a NULL result; a caller that finds no free block
     * parks again with the same timeout; otherwise it takes the first free
     * block.
     */
    method AllocWoken(s: Sched, timeout: Tick, delta: Tick) returns (r: Step, blk: Option<nat>)
      requires Valid(s) && s.Running() && s.current.Some?
      modifies this`owned, this`lfree, this`free, this`taken, this`list, s
      ensures Valid(s) && s.current == old(s.current)
      ensures blk.Some? <==> r == Done(EOK)
      ensures var err := WaitResult(old(s.threads)[s.current.value].err, timeout, delta);
              err != EOK ==>
                r == Done(err) && free == old(free) && taken == old(taken) && list == old(list) && s.Woke({})
      ensures var err := WaitResult(old(s.threads)[s.current.value].err, timeout, delta);
              err == EOK && old(free) == [] ==>
                r == Blocked && free == [] && taken == old(taken) &&
                list == Enqueue(old(list), old(s.threads), s.current.value, true) &&
                s.Parked(s.current.value, timeout)
      ensures var err := WaitResult(old(s.threads)[s.current.value].err, timeout, delta);
              err == EOK && old(free) != [] ==>
                r == Done(EOK) && blk == Some(old(free)[0]) &&
                free == old(free)[1..] && taken == old(taken) + [old(free)[0]] && list == old(list) && s.Woke({})
    {
      blk := None;
      var err := WaitResult(s.threads[s.current.value].err, timeout, delta);
      if err != EOK {
        return Done(err), blk;
      }
      if lfree.None? {
        Park(s, timeout);
        return Blocked, blk;
      }
      var x := Take();
      r, blk := Done(EOK), Some(x);
    }

    /**
     * `MDS_MemPoolFree` and `MDS_MemPoolFreeBlk`: a NULL pointer is
     * ignored. Otherwise the header of the block is read as the pool
     * pointer: for a block handed out it is the pool, and the block goes
     * back to the front of the free list and the first waiter is woken; for
     * the last free block it reads as NULL and nothing happens. The caller
     * must pass one of these, which the source does not check.
     */
    method Free(s: Sched, blk: Option<nat>)
      requires Valid(s)
      requires blk.Some? ==> blk.value in taken || Last(free) == blk
      modifies this`next, this`owned, this`lfree, this`free, this`taken, this`list, s
      ensures Valid(s) && s.threads == old(s.threads) && s.current == old(s.current)
      ensures blk.Some? && blk.value in old(taken) ==>
                free == [blk.value] + old(free) && taken == Remove(old(taken), blk.value) &&
                list == Behind(old(list)) && s.Woke(Front(old(list)))
      ensures blk.None? || blk.value !in old(taken) ==>
                free == old(free) && taken == old(taken) && list == old(list) && s.Woke({})
    {
      if blk.None? {
        return;
      }
      var x := blk.value;
      if !owned[x] {
        return;
      }
      FreeKeepsBlocks(next, owned, lfree, free, taken, x);
      next := next[x := lfree];
      owned := owned[x := false];
      lfree := Some(x);
      free := [x] + free;
      taken := Remove(taken, x);
      list := ResumeFront(s, list);
    }

    /**
     * `MDS_MemPoolGetBlkSize`: the payload size of a block, which is the
     * size asked for rounded up to the alignment, the least aligned size
     * that holds it.
     */
    function GetBlkSize(): (n: nat)
      reads this`blkSize, this`asked
      requires Sized()
      ensures n % ALIGN == 0 && asked <= n < asked + ALIGN
      ensures n + HEADER == Stride()
    {
      blkSize
    }

    /** `MDS_MemPoolGetBlkFree` with the walk stopping at NULL: the number of free blocks. */
    method GetBlkFree() returns (cnt: nat)
      requires Blocks()
      ensures cnt == |free|
    {
      cnt := CountChain(next, lfree, free);
    }
  }

  /**
   * As written, the free list built by `MDS_MemPoolListInit` has no end:
   * no sequence of blocks is a NULL-terminated chain from `lfree`, and the
   * first block, once handed out, is still at the head of the free list.
   */
  lemma SelfLinkedNeverEnds(next: seq<Link>, lfree: Link, n: nat)
    requires |next| == n && lfree == Some(if n == 0 then 0 else n - 1)
    requires forall i | 0 <= i < n :: next[i] == Some(if i == 0 then 0 else i - 1)
    ensures forall l :: !Chain(next, lfree, l)
    ensures n > 0 ==> next[0] == Some(0)
  {
    forall l
      ensures !Chain(next, lfree, l)
    {
      if Chain(next, lfree, l) {
        assert false;
      }
    }
  }

  /**
   * The walk of `MDS_MemPoolGetBlkFree` as written, over the free list that
   * `MDS_MemPoolListInit` builds as written: whatever the budget, it neither
   * ends nor reaches NULL, because block 0 links to itself.
   */
  lemma {:induction false} SelfLinkedWalkCycles(next: seq<Link>, blk: Link, cnt: nat, steps: nat)
    requires forall i | 0 <= i < |next| :: next[i] == Some(if i == 0 then 0 else i - 1)
    requires blk.Some? && blk.value < |next|
    ensures WalkAsWritten(next, blk, cnt, steps) == OutOfBlocks
    decreases steps
  {
    if steps > 0 {
      SelfLinkedWalkCycles(next, next[blk.value], cnt + 1, steps - 1);
    }
  }

  /**
   * `MDS_MemPoolCreate`: `mem` is the zeroed memory obtained for the pool
   * (`None` when the heap is exhausted) and `bufOk` says whether the
   * buffer for `blkNums` blocks could be allocated too; when it could not,
   * the object is destroyed again and nothing is returned.
   */
  method Create(s: Sched, mem: Option<MemPool>, reg: Objects.Registry, name: string,
                blkSize: Size, blkNums: Size, bufOk: bool)
    returns (r: Option<MemPool>, bytes: nat)
    requires s.Valid() && reg.Valid()
    requires mem.Some? ==> mem.value.obj.flags == 0
    modifies reg, if mem.Some? then {mem.value, mem.value.obj} else {}
    ensures reg.Valid()
    ensures r.Some? <==> mem.Some? && bufOk
    ensures r.Some? ==> r.value == mem.value && r.value.Valid(s) &&
                        r.value.blkSize == AlignUp(blkSize) && |r.value.next| == blkNums &&
                        r.value.free == Desc(blkNums) && r.value.taken == [] && r.value.list == [] &&
                        Objects.GetType(r.value.obj.flags) == Objects.TYPE_MEMPOOL &&
                        Objects.IsCreated(r.value.obj.flags) &&
                        r.value.Sized() && r.value.asked == blkSize &&
                        reg.lists == Objects.Joined(old(reg.lists), Objects.TYPE_MEMPOOL, r.value.obj)
    ensures r.None? ==> reg.lists == old(reg.lists)
    ensures mem.Some? ==> bytes == CreateBytes(blkSize, blkNums) && bytes == blkNums * mem.value.Stride()
  {
    var o := reg.Create(if mem.Some? then Some(mem.value.obj) else None, Objects.TYPE_MEMPOOL, name);
    bytes := 0;
    if mem.None? {
      return None, bytes;
    }
    var p := mem.value;
    p.blkSize := AlignUp(blkSize);
    p.asked := blkSize;
    bytes := CreateBytes(blkSize, blkNums);
    SpanOfBlocks(blkSize, blkNums, p.Stride());
    if !bufOk {
      Objects.JoinThenLeave(old(reg.lists), Objects.TYPE_MEMPOOL, p.obj);
      var _ := reg.Destory(p.obj);
      return None, bytes;
    }
    p.list := [];
    p.ListInit(blkNums);
    r := mem;
  }
}

=== FILE: msgqueue.dfy ===
/**
 * The message queue of ipc.c (`MDS_MsgQueue*`). Its buffer is cut into
 * slots of a header and a payload of `msgSize` bytes. Free slots form the
 * list `lfree`; posted messages form the FIFO list `lhead` .. `ltail`; a
 * slot handed to a receiver belongs to neither until it is released.
 * Senders park on `listSend` while no slot is free, receivers on
 * `listRecv` while no message is queued.
 *
 * Payload bytes are not modelled: a slot records only the length of the
 * message it holds.
 */
module MsgQueues {
  import opened Kernel
  import opened WaitLists
  import opened Links
  import Objects

  /** `sizeof(MDS_MsgQueueHeader_t)`: a packed 32-bit `next` pointer and 32-bit `len`. */
  const HEADER: nat := 8

  /** Pointers are 32 bits wide: `uintptr_t` arithmetic is modulo 2^32. */
  const ADDR_MOD: nat := 0x1_0000_0000

  /**
   * How an entry to the message queue ends: the assertion on the buffer
   * stops it, the queue refuses it with an error, or `len` bytes are
   * copied into a slot. `bytes` is what the copy reads: `None` when it
   * reads memory that is not there.
   */
  datatype Entry = AssertFails | Refused(err: Err) | Copies(bytes: Option<seq<bv8>>)

  /** The `len` bytes a copy out of `buff` reads, if they are all there. */
  function Read(buff: Option<seq<bv8>>, len: nat): (r: Option<seq<bv8>>)
    ensures r.Some? <==> buff.Some? && len <= |buff.value|
    ensures r.Some? ==> |r.value| == len && r.value == buff.value[..len]
  {
    if buff.Some? && len <= |buff.value| then Some(buff.value[..len]) else None
  }

  /**
   * `MDS_MsgQueueUrgent` as written, on a queue with payload size
   * `msgSize` and `hasFree` telling whether a slot is free: the assertion
   * demands a NULL buffer, `MDS_MsgQueueUrgentMsg` then refuses a length
   * of 0 or above `msgSize` (`EINVAL`) and a full queue (`ERANGE`), and
   * otherwise copies `len` bytes out of the buffer. So no call copies a
   * message: every real buffer is stopped by the assertion, and every call
   * that passes it and is not refused reads its payload from NULL.
   */
  function UrgentEntryAsWritten(buff: Option<seq<bv8>>, len: nat, msgSize: nat, hasFree: bool): (e: Entry)
    ensures buff.Some? ==> e == AssertFails
    ensures e.Copies? ==> e.bytes.None?
    ensures forall m :: e != Copies(Some(m))
  {
    if buff.Some? then AssertFails
    else if len == 0 || len > msgSize then Refused(EINVAL)
    else if !hasFree then Refused(ERANGE)
    else Copies(Read(buff, len))
  }

  /**
   * `MDS_MsgQueueUrgent` with the assertion of `MDS_MsgQueueSend`: the
   * buffer must not be NULL. A real buffer gets the refusals of the call
   * as written, and a copy reads the first `len` bytes of the buffer.
   */
  function UrgentEntry(buff: Option<seq<bv8>>, len: nat, msgSize: nat, hasFree: bool): (e: Entry)
    ensures e == AssertFails <==> buff.None?
    ensures buff.Some? && e.Refused? ==> e == UrgentEntryAsWritten(None, len, msgSize, hasFree)
    ensures e.Copies? && len <= |buff.value| ==> e.bytes == Some(buff.value[..len])
  {
    if buff.None? then AssertFails
    else if len == 0 || len > msgSize then Refused(EINVAL)
    else if !hasFree then Refused(ERANGE)
    else Copies(Read(buff, len))
  }

  /**
   * With the buffer asserted to be there, a call with a length the queue
   * accepts, a free slot and a buffer holding `len` bytes copies exactly
   * its first `len` bytes; the refusals are those of the call as written.
   */
  lemma UrgentEntryCopiesBuffer(buff: Option<seq<bv8>>, len: nat, msgSize: nat, hasFree: bool)
    ensures buff.Some? && 0 < len <= msgSize && hasFree && len <= |buff.value| ==>
              UrgentEntry(buff, len, msgSize, hasFree) == Copies(Some(buff.value[..len]))
    ensures buff.Some? && (len == 0 || len > msgSize) ==> UrgentEntry(buff, len, msgSize, hasFree) == Refused(EINVAL)
    ensures buff.Some? && 0 < len <= msgSize && !hasFree ==> UrgentEntry(buff, len, msgSize, hasFree) == Refused(ERANGE)
    ensures buff.Some? && UrgentEntry(buff, len, msgSize, hasFree).Refused? ==>
              UrgentEntry(buff, len, msgSize, hasFree) == UrgentEntryAsWritten(None, len, msgSize, hasFree)
  {
  }

  /**
   * The slot lists of a queue: `lfree` and `lhead` start the chains of the
   * free and the queued slots, `ltail` is the last queued slot, and each of
   * the `|next|` slots is free, queued or held by a receiver, and only one
   * of these.
   */
  ghost predicate SlotLists(next: seq<Link>, lfree: Link, lhead: Link, ltail: Link,
                            free: seq<nat>, queue: seq<nat>, taken: seq<nat>)
  {
    Chain(next, lfree, free) && Chain(next, lhead, queue) && ltail == Last(queue) &&
    Distinct(taken) && (forall x | x in taken :: x < |next|) &&
    (forall x | x in free :: x !in queue && x !in taken) &&
    (forall x | x in queue :: x !in taken) &&
    |free| + |queue| + |taken| == |next|
  }

  /**
   * `MDS_MsgQueueSendMsg` takes the first free slot, clears its `next`, and
   * links it after `ltail`: the slot lists stay well formed, the slot moves
   * from the front of the free list to the back of the queue.
   */
  lemma PostKeepsSlots(next: seq<Link>, lfree: Link, lhead: Link, ltail: Link,
                       free: seq<nat>, queue: seq<nat>, taken: seq<nat>)
    requires SlotLists(next, lfree, lhead, ltail, free, queue, taken) && free != []
    ensures var x := free[0];
            var cleared := next[x := None];
            var linked := if ltail.Some? then cleared[ltail.value := Some(x)] else cleared;
            SlotLists(linked, next[x], if lhead.None? then Some(x) else lhead, Some(x),
                      free[1..], queue + [x], taken)
  {
    var x := free[0];
    ChainPop(next, lfree, free);
    ChainDistinct(next, lfree, free);
    assert x !in free[1..];
    var cleared := next[x := None];
    ChainFrame(next, next[x], free[1..], x, None);
    ChainFrame(next, lhead, queue, x, None);
    ChainAppend(cleared, lhead, queue, x);
    if ltail.Some? {
      assert ltail.value == queue[|queue| - 1] && queue[|queue| - 1] in queue;
      ChainFrame(cleared, next[x], free[1..], ltail.value, Some(x));
    }
    assert Head(queue + [x]) == if lhead.None? then Some(x) else lhead;
  }

  /**
   * `MDS_MsgQueueUrgentMsg` takes the first free slot and links it before
   * `lhead`: the slot moves from the front of the free list to the front of
   * the queue.
   */
  lemma UrgentKeepsSlots(next: seq<Link>, lfree: Link, lhead: Link, ltail: Link,
                         free: seq<nat>, queue: seq<nat>, taken: seq<nat>)
    requires SlotLists(next, lfree, lhead, ltail, free, queue, taken) && free != []
    ensures var x := free[0];
            SlotLists(next[x := lhead], next[x], Some(x), if ltail.None? then Some(x) else ltail,
                      free[1..], [x] + queue, taken)
  {
    var x := free[0];
    ChainPop(next, lfree, free);
    ChainDistinct(next, lfree, free);
    assert x !in free[1..];
    ChainFrame(next, next[x], free[1..], x, lhead);
    ChainPush(next, lhead, queue, x);
    assert Last([x] + queue) == if ltail.None? then Some(x) else ltail;
  }

  /**
   * `MDS_MsgQueueRecvAcquire` unlinks the first queued slot, clearing
   * `ltail` when it was the last: the slot moves from the front of the
   * queue to the receivers.
   */
  lemma TakeKeepsSlots(next: seq<Link>, lfree: Link, lhead: Link, ltail: Link,
                       free: seq<nat>, queue: seq<nat>, taken: seq<nat>)
    requires SlotLists(next, lfree, lhead, ltail, free, queue, taken) && queue != []
    ensures var x := queue[0];
            SlotLists(next, lfree, next[x], if next[x].None? then None else ltail,
                      free, queue[1..], taken + [x])
  {
    var x := queue[0];
    ChainPop(next, lhead, queue);
    ChainDistinct(next, lhead, queue);
    assert x !in queue[1..] && x !in taken;
    if next[x].Some? {
      assert Last(queue[1..]) == Last(queue);
    }
  }

  /**
   * `MDS_MsgQueueRecvRelease` pushes a slot a receiver held on the free
   * list: the slot moves from the receivers to the front of the free list.
   */
  lemma ReleaseKeepsSlots(next: seq<Link>, lfree: Link, lhead: Link, ltail: Link,
                          free: seq<nat>, queue: seq<nat>, taken: seq<nat>, x: nat)
    requires SlotLists(next, lfree, lhead, ltail, free, queue, taken) && x in taken
    ensures SlotLists(next[x := lfree], Some(x), lhead, ltail, [x] + free, queue, Remove(taken, x))
  {
    ChainPush(next, lfree, free, x);
    ChainFrame(next, lhead, queue, x, lfree);
    var rest := Remove(taken, x);
    forall y | y in rest
      ensures y in taken && y != x
    {
      var i :| 0 <= i < |rest| && rest[i] == y;
    }
  }

  class MsgQueue {
    const obj: Objects.Obj
    /** The payload size of a slot, rounded up to the alignment. */
    var msgSize: nat
    /** The payload size asked for at initialisation. */
    ghost var asked: nat
    /** The `next` field of each slot's header. */
    var next: seq<Link>
    /** The `len` field of each slot's header. */
    var lens: seq<Size>
    var lfree: Link
    var lhead: Link
    var ltail: Link
    var listRecv: seq<ThreadId>
    var listSend: seq<ThreadId>
    /** The free slots, the queued messages (oldest first) and the slots held by receivers. */
    ghost var free: seq<nat>
    ghost var queue: seq<nat>
    ghost var taken: seq<nat>

    /** Zeroed memory for a message queue. */
    constructor ()
      ensures fresh(obj) && obj.flags == 0 && obj.name == []
      ensures next == [] && lfree == None && lhead == None && ltail == None
    {
      obj := new Objects.Obj();
      msgSize := 0;
      asked := 0;
      next := [];
      lens := [];
      lfree := None;
      lhead := None;
      ltail := None;
      listRecv := [];
      listSend := [];
      free := [];
      queue := [];
      taken := [];
    }

    /** The payload size was asked for as `asked` and rounded up to the alignment. */
    ghost predicate Sized()
      reads this`msgSize, this`asked
    {
      msgSize == AlignUp(asked)
    }

    /** The bytes from one slot to the next. */
    function Stride(): (n: nat)
      reads this`msgSize
      ensures n >= HEADER > 0
    {
      HEADER + msgSize
    }

    /** The address, from the start of the buffer, of the payload of slot `x` (`msg + 1`). */
    function Payload(x: nat): int
      reads this`msgSize
    {
      x * Stride() + HEADER
    }

    /** The slot whose payload a receiver hands back at `recv`. */
    function SlotOf(recv: int): nat
      reads this`msgSize
    {
      (recv - HEADER) % ADDR_MOD / Stride()
    }

    /** `MDS_MsgQueueRecvRelease` accepts `recv` as the payload of a slot. */
    predicate OnSlot(recv: int)
      reads this`msgSize
    {
      (recv - HEADER) % ADDR_MOD % Stride() == 0
    }

    ghost predicate Slots()
      reads this`next, this`lens, this`lfree, this`lhead, this`ltail, this`free, this`queue, this`taken
    {
      |lens| == |next| && SlotLists(next, lfree, lhead, ltail, free, queue, taken)
    }

    /** The slots lie within the 32-bit address space. */
    ghost predicate Fits()
      reads this`next, this`msgSize
    {
      |next| * Stride() <= ADDR_MOD
    }

    ghost predicate Valid(s: Sched)
      reads this, s
    {
      s.Valid() && Known(listRecv, s.threads) && Known(listSend, s.threads) && Slots()
    }

    /** The address a receiver gets for a slot leads `MDS_MsgQueueRecvRelease` back to that slot. */
    lemma PayloadRoundTrip(x: nat)
      requires Fits() && x < |next|
      ensures OnSlot(Payload(x)) && SlotOf(Payload(x)) == x
    {
      var st := Stride();
      assert x * st < |next| * st by {
        MulLess(x, |next|, st);
      }
      assert Payload(x) - HEADER == x * st;
      DivModUnique(x * st, ADDR_MOD, 0, x * st);
      DivModUnique(x * st, st, x, 0);
    }

    /** With no message queued there is no tail either, and the other way round. */
    lemma HeadTailAgree()
      requires Slots()
      ensures lhead.None? <==> ltail.None?
      ensures lhead.None? <==> queue == []
    {
    }

    /**
     * `MDS_MsgQueueListInit`: every slot, from the first to the last, is
     * pushed on the free list, which therefore holds them last first; no
     * message is queued.
     */
    method ListInit(n: nat)
      modifies this`next, this`lens, this`lfree, this`lhead, this`ltail, this`free, this`queue, this`taken
      ensures Slots() && |next| == n
      ensures free == Desc(n) && queue == [] && taken == []
      ensures lhead == None && ltail == None
    {
      lfree := None;
      lhead := None;
      ltail := None;
      next := seq(n, _ => None);
      lens := seq(n, _ => 0);
      var idx := 0;
      while idx < n
        invariant 0 <= idx <= n && |next| == n && Chain(next, lfree, Desc(idx))
        invariant |lens| == n && lhead == None && ltail == None
      {
        ChainPush(next, lfree, Desc(idx), idx);
        next := next[idx := lfree];
        lfree := Some(idx);
        idx := idx + 1;
      }
      free := Desc(n);
      queue := [];
      taken := [];
    }

    /**
     * `MDS_MsgQueueInit`: on a header not in use, the payload size is
     * rounded up to the alignment and the buffer of `bufSize` bytes is cut
     * into as many whole slots as fit, all free.
     */
    method Init(s: Sched, reg: Objects.Registry, name: string, bufSize: Size, msgSize: Size) returns (err: Err)
      requires s.Valid() && reg.Valid()
      requires bufSize > HEADER + msgSize
      modifies this, reg, obj
      ensures reg.Valid()
      ensures err == (if old(obj.flags) != 0 then EAGAIN else EOK)
      ensures err == EOK ==> Valid(s) && Fits() && this.msgSize == AlignUp(msgSize) && Sized() && asked == msgSize &&
                             reg.lists == Objects.Joined(old(reg.lists), Objects.TYPE_MSGQUEUE, obj) &&
                             |next| == bufSize / Stride() && free == Desc(|next|) && queue == [] && taken == [] &&
                             listRecv == [] && listSend == [] &&
                             Objects.GetType(obj.flags) == Objects.TYPE_MSGQUEUE
      ensures err == EAGAIN ==> reg.lists == old(reg.lists) && this.msgSize == old(this.msgSize) &&
                                next == old(next) && free == old(free) && queue == old(queue) && taken == old(taken)
    {
      err := reg.Init(obj, Objects.TYPE_MSGQUEUE, name);
      if err == EOK {
        Objects.CreatedBitIsSeparate(0, Objects.TYPE_MSGQUEUE);
        this.msgSize := AlignUp(msgSize);
        asked := msgSize;
        var st := Stride();
        Format(bufSize / st);
        DivMulBound(bufSize, st);
      }
    }

    /** Empties both wait lists and builds `n` free slots: the common tail of `Init` and `Create`. */
    method Format(n: nat)
      modifies this`next, this`lens, this`lfree, this`lhead, this`ltail, this`free, this`queue, this`taken,
               this`listRecv, this`listSend
      ensures Slots() && |next| == n && free == Desc(n) && queue == [] && taken == []
      ensures listRecv == [] && listSend == []
    {
      listRecv := [];
      listSend := [];
      ListInit(n);
    }

    /** `MDS_MsgQueueDeInit`: every receiver and sender is woken with `EAGAIN`, then the header leaves the registry. */
    method DeInit(s: Sched, reg: Objects.Registry) returns (err: Err)
      requires Valid(s) && reg.Valid()
      modifies this`listRecv, this`listSend, s, reg, obj
      ensures Valid(s) && reg.Valid() && err == EOK && obj.flags == 0
      ensures reg.lists == Objects.Left(old(reg.lists), obj)
      ensures listRecv == [] && listSend == []
      ensures s.ready == old(s.ready) + Members(old(listRecv)) + Members(old(listSend))
      ensures s.armed == old(s.armed) - Members(old(listRecv)) - Members(old(listSend))
      ensures s.current == old(s.current) && s.threads.Keys == old(s.threads.Keys)
      ensures forall x | x in s.threads ::
                s.threads[x] == if x in old(listRecv) || x in old(listSend) then Forced(old(s.threads)[x])
                                else old(s.threads)[x]
    {
      WakeAll(s);
      err := reg.DeInit(obj);
    }

    /**
     * `MDS_MsgQueueDestroy`: every receiver and sender is woken with
     * `EAGAIN`, the buffer is freed, then a created queue is destroyed.
     */
    method Destroy(s: Sched, reg: Objects.Registry) returns (err: Err)
      requires Valid(s) && reg.Valid()
      modifies this`listRecv, this`listSend, s, reg, obj
      ensures Valid(s) && reg.Valid() && listRecv == [] && listSend == []
      ensures err == (if Objects.IsCreated(old(obj.flags)) then EOK else EFAULT)
      ensures err == EFAULT ==> reg.lists == old(reg.lists) && obj.flags == old(obj.flags)
      ensures err == EOK ==> reg.lists == Objects.Left(old(reg.lists), obj) && obj.flags == 0
      ensures s.ready == old(s.ready) + Members(old(listRecv)) + Members(old(listSend))
      ensures s.armed == old(s.armed) - Members(old(listRecv)) - Members(old(listSend))
      ensures s.current == old(s.current) && s.threads.Keys == old(s.threads.Keys)
      ensures forall x | x in s.threads ::
                s.threads[x] == if x in old(listRecv) || x in old(listSend) then Forced(old(s.threads)[x])
                                else old(s.threads)[x]
    {
      WakeAll(s);
      err := reg.Destory(obj);
    }

    /** The two `IPC_ListResumeAllThread` calls of the teardown: receivers first, then senders. */
    method WakeAll(s: Sched)
      requires Valid(s)
      modifies this`listRecv, this`listSend, s
      ensures Valid(s) && listRecv == [] && listSend == []
      ensures s.ready == old(s.ready) + Members(old(listRecv)) + Members(old(listSend))
      ensures s.armed == old(s.armed) - Members(old(listRecv)) - Members(old(listSend))
      ensures s.current == old(s.current) && s.threads.Keys == old(s.threads.Keys)
      ensures forall x | x in s.threads ::
                s.threads[x] == if x in old(listRecv) || x in old(listSend) then Forced(old(s.threads)[x])
                                else old(s.threads)[x]
    {
      ghost var th := s.threads;
      listRecv := ResumeAll(s, listRecv);
      assert Known(listSend, s.threads);
      listSend := ResumeAll(s, listSend);
      forall x | x in s.threads
        ensures s.threads[x] == if x in old(listRecv) || x in old(listSend) then Forced(th[x]) else th[x]
      {
        if x in old(listRecv) && x in old(listSend) {
          assert Forced(Forced(th[x])) == Forced(th[x]);
        }
      }
    }

    /**
     * Takes the first free slot for a message of `len` bytes and appends it
     * to the queue (the part of `MDS_MsgQueueSendMsg` after a slot is
     * found), then wakes the first waiting receiver.
     */
    method Post(s: Sched, len: Size)
      requires Valid(s) && lfree.Some?
      modifies this`next, this`lens, this`lfree, this`lhead, this`ltail, this`listRecv, this`free, this`queue, s
      ensures Valid(s) && taken == old(taken) && listSend == old(listSend)
      ensures free == old(free)[1..] && queue == old(queue) + [old(free)[0]]
      ensures lens == old(lens)[old(free)[0] := len]
      ensures listRecv == Behind(old(listRecv))
      ensures s.ready == old(s.ready) + Front(old(listRecv)) && s.armed == old(s.armed) - Front(old(listRecv))
      ensures s.threads == old(s.threads) && s.current == old(s.current)
    {
      Append(len);
      listRecv := ResumeFront(s, listRecv);
    }

    /** Moves the first free slot, now holding `len` bytes, to the back of the queue. */
    method Append(len: Size)
      requires Slots() && lfree.Some?
      modifies this`next, this`lens, this`lfree, this`lhead, this`ltail, this`free, this`queue
      ensures Slots() && taken == old(taken)
      ensures free == old(free)[1..] && queue == old(queue) + [old(free)[0]]
      ensures lens == old(lens)[old(free)[0] := len]
    {
      PostKeepsSlots(next, lfree, lhead, ltail, free, queue, taken);
      var x := lfree.value;
      lfree := next[x];
      next := next[x := None];
      lens := lens[x := len];
      if ltail.Some? {
        next := next[ltail.value := Some(x)];
      }
      ltail := Some(x);
      if lhead.None? {
        lhead := Some(x);
      }
      free := free[1..];
      queue := queue + [x];
    }

    /**
     * Unlinks the first queued slot and hands it to the receiver: the part
     * of `MDS_MsgQueueRecvAcquire` after a message is found. `recv` is the
     * address of its payload and `len` the length it holds.
     */
    method Take(s: Sched) returns (recv: int, len: Size)
      requires Valid(s) && lhead.Some?
      modifies this`lhead, this`ltail, this`queue, this`taken
      ensures Valid(s) && free == old(free) && lens == old(lens)
      ensures queue == old(queue)[1..] && taken == old(taken) + [old(queue)[0]]
      ensures recv == Payload(old(queue)[0]) && len == lens[old(queue)[0]]
    {
      TakeKeepsSlots(next, lfree, lhead, ltail, free, queue, taken);
      var x := lhead.value;
      lhead := next[x];
      if lhead.None? {
        ltail := None;
      }
      queue := queue[1..];
      taken := taken + [x];
      recv := Payload(x);
      len := lens[x];
    }

    /** Parks the caller on a wait list, in priority order, as `IPC_ListSuspendWait` does. */
    method ParkSender(s: Sched, timeout: Tick)
      requires Valid(s) && s.Running() && s.current.Some?
      modifies this`listSend, s
      ensures Valid(s) && s.current == old(s.current) && s.threads.Keys == old(s.threads.Keys)
      ensures listSend == Enqueue(old(listSend), old(s.threads), s.current.value, true)
      ensures s.Parked(s.current.value, timeout)
    {
      ghost var th := s.threads;
      var ok;
      listSend, ok := SuspendThread(s, listSend, s.current.value, true, timeout);
      PrioPosSamePrio(old(listSend), th, s.threads, th[s.current.value].currPrio);
      assert Known(listRecv, s.threads);
    }

    /** Parks the caller on the receivers' list, in priority order. */
    method ParkReceiver(s: Sched, timeout: Tick)
      requires Valid(s) && s.Running() && s.current.Some?
      modifies this`listRecv, s
      ensures Valid(s) && s.current == old(s.current) && s.threads.Keys == old(s.threads.Keys)
      ensures listRecv == Enqueue(old(listRecv), old(s.threads), s.current.value, true)
      ensures s.Parked(s.current.value, timeout)
    {
      ghost var th := s.threads;
      var ok;
      listRecv, ok := SuspendThread(s, listRecv, s.current.value, true, timeout);
      PrioPosSamePrio(old(listRecv), th, s.threads, th[s.current.value].currPrio);
      assert Known(listSend, s.threads);
    }

    /**
     * `MDS_MsgQueueSendMsg` / `MDS_MsgQueueSend` of a message of `len`
     * bytes. An empty or oversized message is refused with `EINVAL`. With a
     * free slot the message is appended to the queue and the first waiting
     * receiver woken. With none, a no-wait call fails with `ERANGE`, a call
     * outside thread context with `EACCES`, and a thread otherwise parks
     * among the senders.
     */
    method Send(s: Sched, len: Size, timeout: Tick) returns (r: Step)
      requires Valid(s) && s.Running()
      modifies this`next, this`lens, this`lfree, this`lhead, this`ltail, this`listRecv, this`listSend,
               this`free, this`queue, s
      ensures Valid(s) && s.current == old(s.current) && s.threads.Keys == old(s.threads.Keys)
      ensures taken == old(taken)
      ensures len == 0 || len > msgSize ==>
                r == Done(EINVAL) && free == old(free) && queue == old(queue) &&
                listSend == old(listSend) && listRecv == old(listRecv) && s.Woke({})
      ensures 0 < len <= msgSize && old(free) != [] ==>
                r == Done(EOK) && free == old(free)[1..] && queue == old(queue) + [old(free)[0]] &&
                lens[old(free)[0]] == len && listSend == old(listSend) &&
                listRecv == Behind(old(listRecv)) && s.Woke(Front(old(listRecv)))
      ensures 0 < len <= msgSize && old(free) == [] ==>
                free == [] && queue == old(queue) && listRecv == old(listRecv) &&
                r == (if timeout == NO_WAIT then Done(ERANGE) else if s.current.None? then Done(EACCES) else Blocked)
      ensures 0 < len <= msgSize && old(free) == [] && r != Blocked ==>
                listSend == old(listSend) && s.Woke({})
      ensures r == Blocked ==>
                listSend == Enqueue(old(listSend), old(s.threads), s.current.value, true) &&
                s.Parked(s.current.value, timeout)
    {
      if len == 0 || len > msgSize {
        return Done(EINVAL);
      }
      if lfree.None? {
        if timeout == NO_WAIT {
          return Done(ERANGE);
        }
        if s.current.None? {
          return Done(EACCES);
        }
        ParkSender(s, timeout);
        return Blocked;
      }
      Post(s, len);
      r := Done(EOK);
    }

    /**
     * The rest of `MDS_MsgQueueSendMsg` once a parked sender runs again
     * `delta` ticks after it parked. A wake-up for a reason other than a
     * free slot ends the call, a timeout reported as `ERANGE`; a sender that
     * finds no free slot parks again with the same timeout; otherwise the
     * message is posted.
     */
    method SendWoken(s: Sched, len: Size, timeout: Tick, delta: Tick) returns (r: Step)
      requires Valid(s) && s.Running() && s.current.Some? && 0 < len <= msgSize
      modifies this`next, this`lens, this`lfree, this`lhead, this`ltail, this`listRecv, this`listSend,
               this`free, this`queue, s
      ensures Valid(s) && s.current == old(s.current) && taken == old(taken)
      ensures var err := WaitResult(old(s.threads)[s.current.value].err, timeout, delta);
              err != EOK ==>
                r == Done(if err == ETIMEOUT then ERANGE else err) &&
                free == old(free) && queue == old(queue) && listSend == old(listSend) &&
                listRecv == old(listRecv) && s.Woke({})
      ensures var err := WaitResult(old(s.threads)[s.current.value].err, timeout, delta);
              err == EOK && old(free) == [] ==>
                r == Blocked && free == [] && queue == old(queue) && listRecv == old(listRecv) &&
                listSend == Enqueue(old(listSend), old(s.threads), s.current.value, true) &&
                s.Parked(s.current.value, timeout)
      ensures var err := WaitResult(old(s.threads)[s.current.value].err, timeout, delta);
              err == EOK && old(free) != [] ==>
                r == Done(EOK) && free == old(free)[1..] &&
                queue == old(queue) + [old(free)[0]] && lens[old(free)[0]] == len &&
                listSend == old(listSend) &&
                listRecv == Behind(old(listRecv)) && s.Woke(Front(old(listRecv)))
    {
      var err := WaitResult(s.threads[s.current.value].err, timeout, delta);
      if err != EOK {
        return Done(if err == ETIMEOUT then ERANGE else err);
      }
      if lfree.None? {
        ParkSender(s, timeout);
        return Blocked;
      }
      Post(s, len);
      r := Done(EOK);
    }

    /**
     * `MDS_MsgQueueUrgentMsg`: like a send that never waits (`ERANGE` when
     * no slot is free), but the message goes to the front of the queue.
     */
    method Urgent(s: Sched, len: Size) returns (err: Err)
      requires Valid(s)
      modifies this`next, this`lens, this`lfree, this`lhead, this`ltail, this`listRecv, this`free, this`queue, s
      ensures Valid(s) && taken == old(taken) && listSend == old(listSend)
      ensures s.threads == old(s.threads) && s.current == old(s.current)
      ensures len == 0 || len > msgSize ==>
                err == EINVAL && free == old(free) && queue == old(queue) && listRecv == old(listRecv) &&
                s.Woke({})
      ensures 0 < len <= msgSize && old(free) == [] ==>
                err == ERANGE && free == [] && queue == old(queue) && listRecv == old(listRecv) &&
                s.Woke({})
      ensures 0 < len <= msgSize && old(free) != [] ==>
                err == EOK && free == old(free)[1..] && queue == [old(free)[0]] + old(queue) &&
                lens[old(free)[0]] == len &&
                listRecv == Behind(old(listRecv)) && s.Woke(Front(old(listRecv)))
    {
      if len == 0 || len > msgSize {
        return EINVAL;
      }
      if lfree.None? {
        return ERANGE;
      }
      Prepend(len);
      listRecv := ResumeFront(s, listRecv);
      err := EOK;
    }

    /** Moves the first free slot, now holding `len` bytes, to the front of the queue. */
    method Prepend(len: Size)
      requires Slots() && lfree.Some?
      modifies this`next, this`lens, this`lfree, this`lhead, this`ltail, this`free, this`queue
      ensures Slots() && taken == old(taken)
      ensures free == old(free)[1..] && queue == [old(free)[0]] + old(queue)
      ensures lens == old(lens)[old(free)[0] := len]
    {
      UrgentKeepsSlots(next, lfree, lhead, ltail, free, queue, taken);
      var x := lfree.value;
      lfree := next[x];
      lens := lens[x := len];
      next := next[x := lhead];
      lhead := Some(x);
      if ltail.None? {
        ltail := Some(x);
      }
      free := free[1..];
      queue := [x] + queue;
    }

    /**
     * `MDS_MsgQueueRecvAcquire`: the oldest queued message is unlinked and
     * its payload address and length handed out; the slot stays the
     * receiver's until released. With nothing queued a no-wait call fails
     * with `ETIMEOUT`, a call outside thread context with `EACCES`, and a
     * thread otherwise parks among the receivers.
     */
    method RecvAcquire(s: Sched, timeout: Tick) returns (r: Step, recv: int, len: Size)
      requires Valid(s) && s.Running()
      modifies this`lhead, this`ltail, this`queue, this`taken, this`listRecv, s
      ensures Valid(s) && s.current == old(s.current) && s.threads.Keys == old(s.threads.Keys)
      ensures free == old(free) && listSend == old(listSend)
      ensures old(queue) != [] ==>
                r == Done(EOK) && queue == old(queue)[1..] && taken == old(taken) + [old(queue)[0]] &&
                recv == Payload(old(queue)[0]) && len == lens[old(queue)[0]] &&
                listRecv == old(listRecv) && s.Woke({})
      ensures old(queue) == [] ==>
                queue == [] && taken == old(taken) &&
                r == (if timeout == NO_WAIT then Done(ETIMEOUT) else if s.current.None? then Done(EACCES) else Blocked)
      ensures old(queue) == [] && r != Blocked ==> listRecv == old(listRecv) && s.Woke({})
      ensures r == Blocked ==>
                listRecv == Enqueue(old(listRecv), old(s.threads), s.current.value, true) &&
                s.Parked(s.current.value, timeout)
    {
      recv, len := 0, 0;
      if lhead.None? {
        if timeout == NO_WAIT {
          return Done(ETIMEOUT), recv, len;
        }
        if s.current.None? {
          return Done(EACCES), recv, len;
        }
        ParkReceiver(s, timeout);
        return Blocked, recv, len;
      }
      recv, len := Take(s);
      r := Done(EOK);
    }

    /**
     * The rest of `MDS_MsgQueueRecvAcquire` once a parked receiver runs
     * again `delta` ticks after it parked: a wake-up for a reason other than
     * a message ends the call with that reason; a receiver that finds the
     * queue empty parks again with the same timeout; otherwise it takes the
     * oldest message.
     */
    method RecvWoken(s: Sched, timeout: Tick, delta: Tick) returns (r: Step, recv: int, len: Size)
      requires Valid(s) && s.Running() && s.current.Some?
      modifies this`lhead, this`ltail, this`queue, this`taken, this`listRecv, s
      ensures Valid(s) && s.current == old(s.current) && free == old(free) && listSend == old(listSend)
      ensures var err := WaitResult(old(s.threads)[s.current.value].err, timeout, delta);
              err != EOK ==>
                r == Done(err) && queue == old(queue) && taken == old(taken) &&
                listRecv == old(listRecv) && s.Woke({})
      ensures var err := WaitResult(old(s.threads)[s.current.value].err, timeout, delta);
              err == EOK && old(queue) == [] ==>
                r == Blocked && queue == [] && taken == old(taken) &&
                listRecv == Enqueue(old(listRecv), old(s.threads), s.current.value, true) &&
                s.Parked(s.current.value, timeout)
      ensures var err := WaitResult(old(s.threads)[s.current.value].err, timeout, delta);
              err == EOK && old(queue) != [] ==>
                r == Done(EOK) && queue == old(queue)[1..] &&
                taken == old(taken) + [old(queue)[0]] &&
                recv == Payload(old(queue)[0]) && len == lens[old(queue)[0]] &&
                listRecv == old(listRecv) && s.Woke({})
    {
      recv, len := 0, 0;
      var err := WaitResult(s.threads[s.current.value].err, timeout, delta);
      if err != EOK {
        return Done(err), recv, len;
      }
      if lhead.None? {
        ParkReceiver(s, timeout);
        return Blocked, recv, len;
      }
      recv, len := Take(s);
      r := Done(EOK);
    }

    /**
     * `MDS_MsgQueueRecvRelease`: a receiver hands back the payload address
     * it was given (`None` is a NULL argument). An address that is not at a
     * slot's payload is refused with `EINVAL`; otherwise the slot is pushed
     * on the free list and the first waiting sender woken. The caller must
     * hand back a slot it holds, which the source does not check.
     */
    method RecvRelease(s: Sched, recv: Option<int>) returns (err: Err)
      requires Valid(s)
      requires recv.Some? && OnSlot(recv.value) ==> SlotOf(recv.value) in taken
      modifies this`next, this`lfree, this`listSend, this`free, this`taken, s
      ensures Valid(s) && queue == old(queue) && lens == old(lens) && listRecv == old(listRecv)
      ensures s.threads == old(s.threads) && s.current == old(s.current)
      ensures recv.None? || !OnSlot(recv.value) ==>
                err == EINVAL && free == old(free) && taken == old(taken) && listSend == old(listSend) &&
                s.Woke({})
      ensures recv.Some? && OnSlot(recv.value) ==>
                var x := SlotOf(recv.value);
                err == EOK && free == [x] + old(free) && taken == Remove(old(taken), x) &&
                listSend == Behind(old(listSend)) && s.Woke(Front(old(listSend)))
    {
      if recv.None? || !OnSlot(recv.value) {
        return EINVAL;
      }
      var x := SlotOf(recv.value);
      ReleaseKeepsSlots(next, lfree, lhead, ltail, free, queue, taken, x);
      next := next[x := lfree];
      lfree := Some(x);
      free := [x] + free;
      taken := Remove(taken, x);
      listSend := ResumeFront(s, listSend);
      err := EOK;
    }

    /**
     * `MDS_MsgQueueRecvCopy`: acquire and release in one call. The oldest
     * message's slot goes straight back to the free list, at its front, and
     * the length of the message is returned; the receivers' holdings are as
     * before.
     */
    method RecvCopy(s: Sched, timeout: Tick) returns (r: Step, len: Size)
      requires Valid(s) && s.Running() && Fits()
      modifies this`next, this`lfree, this`lhead, this`ltail, this`queue, this`taken, this`free,
               this`listRecv, this`listSend, s
      ensures Valid(s) && s.current == old(s.current)
      ensures old(queue) != [] ==>
                r == Done(EOK) && len == lens[old(queue)[0]] &&
                queue == old(queue)[1..] && free == [old(queue)[0]] + old(free) && taken == old(taken) &&
                listRecv == old(listRecv) && listSend == Behind(old(listSend)) && s.Woke(Front(old(listSend)))
      ensures old(queue) == [] ==>
                queue == [] && free == old(free) && taken == old(taken) && listSend == old(listSend) &&
                r == (if timeout == NO_WAIT then Done(ETIMEOUT) else if s.current.None? then Done(EACCES) else Blocked)
      ensures old(queue) == [] && r != Blocked ==> listRecv == old(listRecv) && s.Woke({})
      ensures r == Blocked ==>
                listRecv == Enqueue(old(listRecv), old(s.threads), s.current.value, true) &&
                s.Parked(s.current.value, timeout)
    {
      var recv;
      r, recv, len := RecvAcquire(s, timeout);
      if r == Done(EOK) {
        ghost var x := old(queue)[0];
        PayloadRoundTrip(x);
        RemoveAppended(old(taken), x);
        var e := RecvRelease(s, Some(recv));
        r := Done(e);
      }
    }

    /**
     * `MDS_MsgQueueGetMsgSize`: the payload size of a slot, which is the
     * size asked for rounded up to the alignment, the least aligned size
     * that holds it.
     */
    function GetMsgSize(): (n: nat)
      reads this`msgSize, this`asked
      requires Sized()
      ensures n % ALIGN == 0 && asked <= n < asked + ALIGN
      ensures n + HEADER == Stride()
    {
      msgSize
    }

    /** `MDS_MsgQueueGetMsgCount`: walks the queue and returns the number of messages waiting. */
    method GetMsgCount() returns (cnt: nat)
      requires Slots()
      ensures cnt == |queue|
    {
      cnt := CountChain(next, lhead, queue);
    }

    /** `MDS_MsgQueueGetMsgFree`: walks the free list and returns the number of free slots. */
    method GetMsgFree() returns (cnt: nat)
      requires Slots()
      ensures cnt == |free|
    {
      cnt := CountChain(next, lfree, free);
    }
  }

  /**
   * `MDS_MsgQueueCreate`: `mem` is the zeroed memory obtained for the queue
   * (`None` when the heap is exhausted) and `bufOk` says whether the buffer
   * for `msgNums` slots could be allocated too; when it could not, the
   * object is destroyed again and nothing is returned.
   */
  method Create(s: Sched, mem: Option<MsgQueue>, reg: Objects.Registry, name: string,
                msgSize: Size, msgNums: Size, bufOk: bool)
    returns (r: Option<MsgQueue>)
    requires s.Valid() && reg.Valid()
    requires mem.Some? ==> mem.value.obj.flags == 0
    modifies reg, if mem.Some? then {mem.value, mem.value.obj} else {}
    ensures reg.Valid()
    ensures r.Some? <==> mem.Some? && bufOk
    ensures r.Some? ==> r.value == mem.value && r.value.Valid(s) &&
                        r.value.msgSize == AlignUp(msgSize) && |r.value.next| == msgNums &&
                        r.value.free == Desc(msgNums) && r.value.queue == [] && r.value.taken == [] &&
                        r.value.listRecv == [] && r.value.listSend == [] &&
                        Objects.GetType(r.value.obj.flags) == Objects.TYPE_MSGQUEUE &&
                        Objects.IsCreated(r.value.obj.flags) &&
                        r.value.Sized() && r.value.asked == msgSize &&
                        reg.lists == Objects.Joined(old(reg.lists), Objects.TYPE_MSGQUEUE, r.value.obj)
    ensures r.None? ==> reg.lists == old(reg.lists)
  {
    var o := reg.Create(if mem.Some? then Some(mem.value.obj) else None, Objects.TYPE_MSGQUEUE, name);
    if mem.None? {
      return None;
    }
    var q := mem.value;
    q.msgSize := AlignUp(msgSize);
    q.asked := msgSize;
    if !bufOk {
      Objects.JoinThenLeave(old(reg.lists), Objects.TYPE_MSGQUEUE, q.obj);
      var _ := reg.Destory(q.obj);
      return None;
    }
    q.Format(msgNums);
    r := mem;
  }

  lemma MulLess(a: nat, b: nat, c: nat)
    requires a < b && c > 0
    ensures a * c < b * c
  {
  }

  /** Whole slots of `st` bytes cut from `b` bytes take no more than `b` bytes. */
  lemma DivMulBound(b: nat, st: nat)
    requires st > 0
    ensures (b / st) * st <= b
  {
  }

  /** Euclidean division has one quotient and remainder. */
  lemma DivModUnique(n: int, c: int, q: int, r: int)
    requires c > 0 && 0 <= r < c && n == q * c + r
    ensures n / c == q && n % c == r
  {
    var d := q - n / c;
    assert d * c == n % c - r;
    if d >= 1 {
      MulAtLeast(d, c);
    } else if d <= -1 {
      MulAtLeast(-d, c);
    }
  }

  lemma {:induction false} MulAtLeast(d: int, c: int)
    requires d >= 1 && c > 0
    ensures d * c >= c
    decreases d
  {
    if d > 1 {
      MulAtLeast(d - 1, c);
      assert d * c == (d - 1) * c + c;
    }
  }
}

=== FILE: mutex.dfy ===
/**
 * The recursive, priority-inheriting mutex of ipc.c (`MDS_Mutex*`).
 *
 * `value` is 1 when the mutex is free and 0 when held; `nest` counts the
 * owner's nested acquisitions; `priority` is the priority the owner had
 * when it took the mutex, restored when it lets go. A waiter more urgent
 * than the owner lends the owner its priority before parking.
 */
module Mutexes {
  import opened Kernel
  import opened WaitLists
  import Objects

  /** `nest` and `value` are 8-bit counters: the largest value they hold. */
  const COUNTER_MAX: nat := 0xFF

  /** The threads once a waiter `t` more urgent than the owner `o` has lent it its priority. */
  function Lent(th: map<ThreadId, Thread>, o: ThreadId, t: ThreadId): (r: map<ThreadId, Thread>)
    requires o in th && t in th
    ensures r.Keys == th.Keys && r[o].currPrio <= r[t].currPrio && r[o].currPrio <= th[o].currPrio
    ensures forall u | u in th && u != o :: r[u] == th[u]
  {
    th[o := th[o].(currPrio := Min(th[o].currPrio, th[t].currPrio))]
  }

  class Mutex {
    const obj: Objects.Obj
    var owner: Option<ThreadId>
    var priority: nat
    var value: nat
    var nest: nat
    /** The threads parked in `Acquire`, head first. */
    var list: seq<ThreadId>

    /** Zeroed memory for a mutex. */
    constructor ()
      ensures fresh(obj) && obj.flags == 0 && obj.name == []
      ensures owner == None && priority == 0 && value == 0 && nest == 0 && list == []
    {
      obj := new Objects.Obj();
      owner := None;
      priority := 0;
      value := 0;
      nest := 0;
      list := [];
    }

    /**
     * Free, `value == 1` and `nest == 0` go together; a held mutex has a
     * known owner, and only a held mutex has waiters.
     */
    ghost predicate Valid(s: Sched)
      reads this, s
    {
      s.Valid() && Known(list, s.threads) &&
      value <= 1 && nest <= COUNTER_MAX &&
      (owner.None? <==> value == 1) &&
      (owner.None? <==> nest == 0) &&
      (owner.Some? ==> owner.value in s.threads) &&
      (owner.None? ==> list == [])
    }

    /**
     * The mutex once an owner that held it `nest0` levels deep, with
     * waiters `list0`, has let go one level: still held one level less, or
     * at the last level handed to the head waiter, or free.
     */
    ghost predicate LetGo(owner0: Option<ThreadId>, nest0: nat, list0: seq<ThreadId>)
      reads this
    {
      if nest0 > 1 then owner == owner0 && nest == nest0 - 1 && list == list0
      else if list0 == [] then owner == None && value == 1 && nest == 0 && list == []
      else owner == Some(list0[0]) && value == 0 && nest == 1 && list == list0[1..]
    }

    /**
     * The scheduler after the owner `t` has let one level of this mutex go,
     * against the state before the call: at the last level `t` gets back
     * the priority it took the mutex with and the head waiter, if any, is
     * resumed; a nested release leaves the scheduler alone.
     */
    twostate predicate Unwound(s: Sched, t: ThreadId)
      reads this, s
    {
      var w := if old(nest) == 1 then Front(old(list)) else {};
      t in old(s.threads) &&
      s.ready == old(s.ready) + w && s.armed == old(s.armed) - w &&
      s.threads == if old(nest) == 1 then old(s.threads)[t := old(s.threads)[t].(currPrio := old(priority))]
                   else old(s.threads)
    }

    /** Whether an `Acquire` by the calling thread takes this mutex: it is free, or the caller holds it below the nesting limit. */
    ghost predicate Takes(s: Sched)
      reads this, s
    {
      s.current.Some? && (owner.None? || (owner == s.current && nest < COUNTER_MAX))
    }

    /**
     * An `Acquire` with `timeout` that did not take this mutex, against the
     * state before the call, ending with `r`. Outside thread context it is
     * `EACCES` and at the nesting limit `ERANGE`, nothing changing. Held by
     * another thread, a no-wait call gets `ETIMEOUT` in its error slot;
     * otherwise the caller lends the owner its priority when more urgent
     * and parks, in priority order, as `Sched.Parked` says. The mutex
     * itself is as it was, but for a parked caller on its wait list.
     */
    twostate predicate Missed(s: Sched, timeout: Tick, r: Step)
      reads this, s
    {
      owner == old(owner) && nest == old(nest) && value == old(value) && priority == old(priority) &&
      if old(s.current).None? || old(owner) == old(s.current) then
        r == Done(if old(s.current).None? then EACCES else ERANGE) && list == old(list) &&
        s.threads == old(s.threads) && s.ready == old(s.ready) && s.armed == old(s.armed)
      else
        old(owner).Some? && old(owner).value in old(s.threads) && old(s.current).value in old(s.threads) &&
        var t := old(s.current).value;
        var lent := Lent(old(s.threads), old(owner).value, t);
        Known(old(list), lent) &&
        if timeout == NO_WAIT then
          r == Done(ETIMEOUT) && list == old(list) && s.ready == old(s.ready) && s.armed == old(s.armed) &&
          s.threads == WithErr(old(s.threads), t, ETIMEOUT)
        else
          r == Blocked && list == Enqueue(old(list), lent, t, true) && s.ready == old(s.ready) - {t} &&
          s.threads == lent[t := lent[t].(err := EOK)] &&
          s.armed == (if timeout < TIMER_MAX then old(s.armed)[t := timeout] else old(s.armed))
    }

    /** The state `Init` and `Create` give: free, with nobody waiting. */
    ghost predicate Free()
      reads this
    {
      owner == None && priority == PRIORITY_MAX && value == 1 && nest == 0 && list == []
    }

    /** `MDS_MutexInit`: on a header not in use, the mutex starts free. */
    method Init(s: Sched, reg: Objects.Registry, name: string) returns (err: Err)
      requires s.Valid() && reg.Valid()
      modifies this, reg, obj
      ensures reg.Valid()
      ensures err == (if old(obj.flags) != 0 then EAGAIN else EOK)
      ensures err == EOK ==> Free() && Valid(s) && Objects.GetType(obj.flags) == Objects.TYPE_MUTEX &&
                             reg.lists == Objects.Joined(old(reg.lists), Objects.TYPE_MUTEX, obj)
      ensures err == EAGAIN ==> owner == old(owner) && value == old(value) && nest == old(nest) &&
                                list == old(list) && reg.lists == old(reg.lists)
    {
      err := reg.Init(obj, Objects.TYPE_MUTEX, name);
      if err == EOK {
        Objects.CreatedBitIsSeparate(0, Objects.TYPE_MUTEX);
        owner := None;
        priority := PRIORITY_MAX;
        value := 1;
        nest := 0;
        list := [];
      }
    }

    /** `MDS_MutexDeInit`: every waiter is woken with `EAGAIN`, then the header leaves the registry. */
    method DeInit(s: Sched, reg: Objects.Registry) returns (err: Err)
      requires Valid(s) && reg.Valid()
      modifies this`list, s, reg, obj
      ensures Valid(s) && reg.Valid() && err == EOK && obj.flags == 0 && list == []
      ensures reg.lists == Objects.Left(old(reg.lists), obj)
      ensures s.ready == old(s.ready) + Members(old(list))
      ensures s.armed == old(s.armed) - Members(old(list))
      ensures s.current == old(s.current) && s.threads.Keys == old(s.threads.Keys)
      ensures forall x | x in s.threads ::
                s.threads[x] == if x in old(list) then Forced(old(s.threads)[x]) else old(s.threads)[x]
    {
      list := ResumeAll(s, list);
      err := reg.DeInit(obj);
    }

    /** `MDS_MutexDestroy`: every waiter is woken with `EAGAIN`, then a created mutex is destroyed. */
    method Destroy(s: Sched, reg: Objects.Registry) returns (err: Err)
      requires Valid(s) && reg.Valid()
      modifies this`list, s, reg, obj
      ensures Valid(s) && reg.Valid() && list == []
      ensures err == (if Objects.IsCreated(old(obj.flags)) then EOK else EFAULT)
      ensures err == EFAULT ==> reg.lists == old(reg.lists) && obj.flags == old(obj.flags)
      ensures err == EOK ==> reg.lists == Objects.Left(old(reg.lists), obj) && obj.flags == 0
      ensures s.ready == old(s.ready) + Members(old(list))
      ensures s.armed == old(s.armed) - Members(old(list))
      ensures s.current == old(s.current) && s.threads.Keys == old(s.threads.Keys)
      ensures forall x | x in s.threads ::
                s.threads[x] == if x in old(list) then Forced(old(s.threads)[x]) else old(s.threads)[x]
    {
      list := ResumeAll(s, list);
      err := reg.Destory(obj);
    }

    /**
     * `MDS_MutexAcquire`. Outside thread context: `EACCES`. The owner nests
     * one level deeper (`ERANGE` once the counter is full). A free mutex is
     * taken with the caller's priority recorded. A held mutex fails a
     * no-wait call with `ETIMEOUT`; otherwise the owner inherits the
     * caller's priority if the caller is more urgent, and the caller parks
     * in priority order. The free branch cannot overflow `nest`, which is 0
     * on a free mutex.
     */
    method Acquire(s: Sched, timeout: Tick) returns (r: Step)
      requires Valid(s) && s.Running()
      modifies this`owner, this`priority, this`value, this`nest, this`list, s
      ensures Valid(s) && s.current == old(s.current) && s.threads.Keys == old(s.threads.Keys)
      ensures old(Takes(s)) && old(owner) == s.current ==>
                r == Done(EOK) && owner == old(owner) && nest == old(nest) + 1 && value == 0 &&
                list == old(list) && priority == old(priority) &&
                s.threads == old(s.threads) && s.ready == old(s.ready) && s.armed == old(s.armed)
      ensures old(Takes(s)) && old(owner).None? ==>
                r == Done(EOK) && owner == s.current && value == 0 && nest == 1 &&
                priority == s.threads[s.current.value].currPrio && list == old(list) &&
                s.threads == old(s.threads) && s.ready == old(s.ready) && s.armed == old(s.armed)
      ensures !old(Takes(s)) ==> Missed(s, timeout, r)
    {
      if s.current.None? {
        return Done(EACCES);
      }
      var t := s.current.value;
      if owner == Some(t) {
        if nest < COUNTER_MAX {
          nest := nest + 1;
          r := Done(EOK);
        } else {
          r := Done(ERANGE);
        }
      } else if value > 0 {
        value := value - 1;
        owner := Some(t);
        priority := s.threads[t].currPrio;
        nest := nest + 1;
        r := Done(EOK);
      } else if timeout == NO_WAIT {
        s.SetErr(t, ETIMEOUT);
        r := Done(ETIMEOUT);
      } else {
        Park(s, timeout);
        r := Blocked;
      }
    }

    /**
     * The wait in `Acquire`: a caller more urgent than the owner lends it
     * its priority, then parks on the wait list in priority order.
     */
    method Park(s: Sched, timeout: Tick)
      requires Valid(s) && s.Running() && s.current.Some? && owner.Some? && owner != s.current
      modifies this`list, s
      ensures Valid(s) && s.current == old(s.current) && s.threads.Keys == old(s.threads.Keys)
      ensures var t := s.current.value;
              var lent := Lent(old(s.threads), owner.value, t);
              list == Enqueue(old(list), lent, t, true) && s.ready == old(s.ready) - {t} &&
              s.threads == lent[t := lent[t].(err := EOK)] &&
              s.armed == (if timeout < TIMER_MAX then old(s.armed)[t := timeout] else old(s.armed))
    {
      var t := s.current.value;
      var o := owner.value;
      ghost var th := s.threads;
      if s.threads[t].currPrio < s.threads[o].currPrio {
        s.ChangePriority(o, s.threads[t].currPrio);
      } else {
        assert th[o := th[o].(currPrio := th[o].currPrio)] == th;
      }
      assert s.threads == Lent(th, o, t);
      assert Known(list, s.threads);
      ghost var lent := s.threads;
      var ok;
      list, ok := SuspendThread(s, list, t, true, timeout);
      PrioPosSamePrio(old(list), lent, s.threads, lent[t].currPrio);
    }

    /**
     * `MDS_MutexRelease`. Outside thread context: `EACCES`. A caller that is
     * not the owner gets `EACCES` in its error slot and as the result,
     * nothing else changing. The owner unwinds one level; at the last level
     * it gets back the priority it had when it took the mutex, and the
     * mutex passes to the head waiter (which resumes as the new owner at
     * level 1) or becomes free. Neither 8-bit counter can overflow there:
     * `nest` is 0 and `value` is 0.
     */
    method Release(s: Sched) returns (err: Err)
      requires Valid(s)
      modifies this`owner, this`priority, this`value, this`nest, this`list, s
      ensures Valid(s) && s.current == old(s.current) && s.threads.Keys == old(s.threads.Keys)
      ensures old(s.current).None? || old(owner) != old(s.current) ==>
                err == EACCES && owner == old(owner) && nest == old(nest) && value == old(value) &&
                priority == old(priority) && list == old(list) &&
                s.ready == old(s.ready) && s.armed == old(s.armed)
      ensures old(s.current).None? ==> s.threads == old(s.threads)
      ensures old(s.current).Some? && old(owner) != old(s.current) ==>
                s.threads == WithErr(old(s.threads), s.current.value, EACCES)
      ensures old(s.current).Some? && old(owner) == old(s.current) ==>
                err == EOK && LetGo(old(owner), old(nest), old(list)) && Unwound(s, old(s.current).value)
      ensures old(s.current).Some? && old(owner) == old(s.current) && old(nest) > 1 ==>
                owner == old(owner) && nest == old(nest) - 1 && value == 0 && list == old(list) &&
                priority == old(priority) &&
                s.threads == old(s.threads) && s.ready == old(s.ready) && s.armed == old(s.armed)
      ensures old(s.current).Some? && old(owner) == old(s.current) && old(nest) == 1 ==>
                var t := old(s.current).value;
                var th := old(s.threads)[t := old(s.threads)[t].(currPrio := old(priority))];
                s.threads == th &&
                (old(list) == [] ==>
                   owner == None && value == 1 && nest == 0 && priority == PRIORITY_MAX && list == [] &&
                   s.ready == old(s.ready) && s.armed == old(s.armed)) &&
                (old(list) != [] ==>
                   owner == Some(old(list)[0]) && value == 0 && nest == 1 && list == old(list)[1..] &&
                   priority == th[old(list)[0]].currPrio &&
                   s.ready == old(s.ready) + {old(list)[0]} && s.armed == old(s.armed) - {old(list)[0]})
    {
      if s.current.None? {
        return EACCES;
      }
      var t := s.current.value;
      if owner != Some(t) {
        s.SetErr(t, EACCES);
        return EACCES;
      }
      nest := nest - 1;
      if nest == 0 {
        if priority != s.threads[t].currPrio {
          s.ChangePriority(t, priority);
        }
        if list != [] {
          owner := Some(list[0]);
          priority := s.threads[list[0]].currPrio;
          nest := nest + 1;
          list := ResumeThread(s, list);
        } else {
          owner := None;
          priority := PRIORITY_MAX;
          value := value + 1;
        }
      }
      err := EOK;
    }

    /**
     * `MDS_MutexGetOwner`: no owner exactly when the mutex is free; an owner
     * is a known thread holding the mutex at least one level deep.
     */
    function GetOwner(ghost s: Sched): (r: Option<ThreadId>)
      reads this, s
      requires Valid(s)
      ensures r.None? <==> value == 1
      ensures r.None? <==> nest == 0
      ensures r.Some? ==> r.value in s.threads && value == 0 && nest >= 1
    {
      owner
    }
  }

  function Min(a: nat, b: nat): (m: nat)
    ensures m <= a && m <= b && (m == a || m == b)
  {
    if a <= b then a else b
  }

  /** `MDS_MutexCreate`: zeroed memory (`None` when the heap is exhausted) registered as created, starting free. */
  method Create(s: Sched, mem: Option<Mutex>, reg: Objects.Registry, name: string) returns (r: Option<Mutex>)
    requires s.Valid() && reg.Valid()
    requires mem.Some? ==> mem.value.obj.flags == 0
    modifies reg, if mem.Some? then {mem.value, mem.value.obj} else {}
    ensures reg.Valid() && r == mem
    ensures r.Some? ==> r.value.Free() && r.value.Valid(s) &&
                        Objects.GetType(r.value.obj.flags) == Objects.TYPE_MUTEX &&
                        Objects.IsCreated(r.value.obj.flags) &&
                        reg.lists == Objects.Joined(old(reg.lists), Objects.TYPE_MUTEX, r.value.obj)
    ensures r.None? ==> reg.lists == old(reg.lists)
  {
    var o := reg.Create(if mem.Some? then Some(mem.value.obj) else None, Objects.TYPE_MUTEX, name);
    if mem.Some? {
      var m := mem.value;
      m.owner := None;
      m.priority := PRIORITY_MAX;
      m.value := 1;
      m.nest := 0;
      m.list := [];
    }
    r := mem;
  }
}

=== FILE: objects.dfy ===
/**
 * The object registry: every kernel object starts with a header holding a
 * `flags` byte (type tag in the low seven bits, "created on the heap" in the
 * top bit) and a bounded name, and lives on the list of its type.
 */
module Objects {
  import opened Kernel

  const TYPEMASK: bv8 := 0x7F
  const CREATED: bv8 := 0x80
  /** `MDS_OBJECT_NAME_SIZE`: the name buffer, terminator included. */
  const NAME_SIZE: nat := 16

  /** `MDS_ObjectType_t`; `NONE` marks an uninitialised header. */
  const TYPE_NONE: nat := 0
  const TYPE_DEVICE: nat := 1
  const TYPE_TIMER: nat := 2
  const TYPE_THREAD: nat := 3
  const TYPE_SEMAPHORE: nat := 4
  const TYPE_MUTEX: nat := 5
  const TYPE_EVENT: nat := 6
  const TYPE_MSGQUEUE: nat := 7
  const TYPE_MEMPOOL: nat := 8
  const TYPE_MEMHEAP: nat := 9
  const TYPE_COUNT: nat := 10
  type ObjType = t: nat | t < TYPE_COUNT

  /** `MDS_ObjectGetType`: the flags with the created bit masked off. */
  function GetType(flags: bv8): (t: nat)
    ensures t < 0x80
    ensures flags == t as bv8 || flags == (t as bv8) | CREATED
  {
    (flags & TYPEMASK) as nat
  }

  /** `MDS_ObjectIsCreated`: whether the top bit of the flags is set. */
  function IsCreated(flags: bv8): (b: bool)
    ensures b <==> flags as nat >= 0x80
  {
    flags & CREATED != 0
  }

  /** Setting the created bit never changes the type read back, and a bare type tag is not created. */
  lemma CreatedBitIsSeparate(flags: bv8, t: ObjType)
    ensures GetType(flags | CREATED) == GetType(flags) && IsCreated(flags | CREATED)
    ensures GetType(t as bv8) == t && !IsCreated(t as bv8)
  {
  }

  /** `MDS_Strlcpy` into the name buffer: at most `NAME_SIZE - 1` characters are kept. */
  function CopyName(name: string): (s: string)
    ensures |s| < NAME_SIZE && s <= name
    ensures |name| < NAME_SIZE ==> s == name
    ensures |name| >= NAME_SIZE ==> |s| == NAME_SIZE - 1
  {
    if |name| < NAME_SIZE then name else name[..NAME_SIZE - 1]
  }

  /**
   * `strncmp(a, b, n) == 0` on two NUL-terminated strings given by their
   * characters: the first `n` characters agree, the terminator included.
   * A string shorter than the bound matches exactly the equal string.
   */
  function StrnEq(a: string, b: string, n: nat): (eq: bool)
    ensures |a| < n ==> (eq <==> a == b)
  {
    if n == 0 then true
    else if a == [] || b == [] then a == [] && b == []
    else
      assert a == [a[0]] + a[1..] && b == [b[0]] + b[1..];
      a[0] == b[0] && StrnEq(a[1..], b[1..], n - 1)
  }

  /**
   * A stored name matches the name it was made from exactly when that name
   * fitted the buffer; a longer name is truncated and can no longer be found.
   */
  lemma StoredNameMatches(name: string)
    ensures StrnEq(CopyName(name), name, NAME_SIZE) <==> |name| < NAME_SIZE
  {
    var stored := CopyName(name);
    assert |stored| < NAME_SIZE;
  }

  /** The per-type lists once `o` has joined the tail of the list of type `t`. */
  function Joined<T>(lists: seq<seq<T>>, t: nat, o: T): seq<seq<T>>
    requires t < |lists|
  {
    lists[t := lists[t] + [o]]
  }

  /** The per-type lists once `o` has been unlinked from whichever list held it. */
  function Left<T(==)>(lists: seq<seq<T>>, o: T): seq<seq<T>>
  {
    seq(|lists|, u requires 0 <= u < |lists| => Remove(lists[u], o))
  }

  /**
   * An object that joined the tail of its type's list and then left it
   * leaves every list as it was before it joined.
   */
  lemma {:induction false} JoinThenLeave<T>(before: seq<seq<T>>, t: nat, o: T)
    requires t < |before| && forall u | 0 <= u < |before| :: o !in before[u]
    ensures Left(Joined(before, t, o), o) == before
  {
    RemoveAppended(before[t], o);
  }

  /** A list without repeats has as many entries as it has members. */
  lemma {:induction false} DistinctCard<T>(s: seq<T>)
    requires Distinct(s)
    ensures |set x | x in s| == |s|
  {
    if s != [] {
      DistinctCard(s[1..]);
      assert (set x | x in s) == {s[0]} + (set x | x in s[1..]);
      assert s[0] !in s[1..];
    }
  }

  class Obj {
    var flags: bv8
    var name: string

    /** A zeroed header, as `calloc` or a static definition provides. */
    constructor ()
      ensures flags == 0 && name == []
    {
      flags := 0;
      name := [];
    }
  }

  /** The per-type object lists (`g_objectList`). */
  class Registry {
    var lists: seq<seq<Obj>>
    ghost var Repr: set<Obj>

    ghost predicate Valid()
      reads this, Repr
    {
      |lists| == TYPE_COUNT && lists[TYPE_NONE] == [] &&
      (forall t | 0 <= t < TYPE_COUNT :: Distinct(lists[t])) &&
      (forall t, o | 0 <= t < TYPE_COUNT && o in lists[t] :: o in Repr && GetType(o.flags) == t)
    }

    constructor ()
      ensures Valid() && fresh(Repr)
      ensures forall t | 0 < t < TYPE_COUNT :: Count(t) == 0
    {
      lists := seq(TYPE_COUNT, _ => []);
      Repr := {};
    }

    /** `MDS_ObjectGetCount`: the length of the type's list. */
    function Count(t: ObjType): nat
      reads this
      requires |lists| == TYPE_COUNT && t != TYPE_NONE
    {
      |lists[t]|
    }

    /**
     * The count of a type is the number of distinct objects registered
     * under it, and each of them carries that type in its header.
     */
    lemma CountIsRegistered(t: ObjType)
      requires Valid() && t != TYPE_NONE
      ensures Count(t) == |set o | o in lists[t]|
      ensures forall o | o in lists[t] :: GetType(o.flags) == t
    {
      DistinctCard(lists[t]);
    }

    /**
     * `MDS_ObjectInit`: a header that is already in use is refused with
     * `EAGAIN`; otherwise it takes the type and the bounded name and joins the
     * tail of its type's list.
     */
    method Init(o: Obj, t: ObjType, name: string) returns (err: Err)
      requires Valid() && t != TYPE_NONE
      modifies this, o
      ensures Valid() && Repr == old(Repr) + {o}
      ensures err == (if old(o.flags) != 0 then EAGAIN else EOK)
      ensures err == EAGAIN ==> lists == old(lists) && o.flags == old(o.flags) && o.name == old(o.name)
      ensures err == EOK ==> o.flags == t as bv8 && o.name == CopyName(name) &&
                             lists == Joined(old(lists), t, o)
      ensures err == EOK ==> Count(t) == old(Count(t)) + 1
    {
      if o.flags != 0 {
        Repr := Repr + {o};
        return EAGAIN;
      }
      assert forall u | 0 <= u < TYPE_COUNT :: o !in lists[u];
      o.flags := t as bv8;
      o.name := CopyName(name);
      lists := lists[t := lists[t] + [o]];
      Repr := Repr + {o};
      err := EOK;
    }

    /** `MDS_ObjectDeInit`: the header leaves its list and reverts to `NONE`. */
    method DeInit(o: Obj) returns (err: Err)
      requires Valid()
      modifies this, o
      ensures Valid() && Repr == old(Repr) && err == EOK
      ensures o.flags == 0 && o.name == old(o.name)
      ensures lists == Left(old(lists), o)
      ensures forall u | 0 < u < TYPE_COUNT ::
                Count(u) == old(Count(u)) - (if o in old(lists)[u] then 1 else 0)
    {
      var was := lists;
      lists := Left(was, o);
      forall u, x | 0 <= u < TYPE_COUNT && x in lists[u]
        ensures x in was[u] && x != o
      {
        var i :| 0 <= i < |lists[u]| && lists[u][i] == x;
      }
      o.flags := 0;
      err := EOK;
    }

    /**
     * `MDS_ObjectCreate`: `mem` is what `MDS_SysMemCalloc` returned for the
     * whole object (`None` when the heap is exhausted). A zeroed header is
     * initialised and marked created; the result is `mem` itself.
     */
    method Create(mem: Option<Obj>, t: ObjType, name: string) returns (r: Option<Obj>)
      requires Valid() && t != TYPE_NONE
      requires mem.Some? ==> mem.value.flags == 0
      modifies this, if mem.Some? then {mem.value} else {}
      ensures Valid() && r == mem
      ensures r.None? ==> lists == old(lists) && Repr == old(Repr)
      ensures r.Some? ==> Repr == old(Repr) + {r.value} &&
                          GetType(r.value.flags) == t && IsCreated(r.value.flags) &&
                          r.value.name == CopyName(name) &&
                          lists == Joined(old(lists), t, r.value)
    {
      if mem.None? {
        return None;
      }
      var o := mem.value;
      var err := Init(o, t, name);
      o.flags := o.flags | CREATED;
      CreatedBitIsSeparate(t as bv8, t);
      r := mem;
    }

    /**
     * `MDS_ObjectDestory`: only a created object may be destroyed (`EFAULT`
     * otherwise, with no change); it is then de-initialised. Returning the
     * memory to the heap is not modelled.
     */
    method Destory(o: Obj) returns (err: Err)
      requires Valid()
      modifies this, o
      ensures Valid() && Repr == old(Repr)
      ensures err == (if IsCreated(old(o.flags)) then EOK else EFAULT)
      ensures err == EFAULT ==> lists == old(lists) && o.flags == old(o.flags)
      ensures err == EOK ==> o.flags == 0 && lists == Left(old(lists), o)
    {
      if !IsCreated(o.flags) {
        return EFAULT;
      }
      err := DeInit(o);
    }

    /**
     * `MDS_ObjectFind`: nothing for an empty name; otherwise the first object
     * of the type, in insertion order, whose stored name matches within the
     * buffer size.
     */
    method Find(t: ObjType, name: string) returns (r: Option<Obj>)
      requires Valid() && t != TYPE_NONE
      ensures name == [] ==> r.None?
      ensures r.None? && name != [] ==>
                forall i | 0 <= i < |lists[t]| :: !StrnEq(lists[t][i].name, name, NAME_SIZE)
      ensures r.Some? ==> exists i | 0 <= i < |lists[t]| ::
                lists[t][i] == r.value && StrnEq(r.value.name, name, NAME_SIZE) &&
                forall j | 0 <= j < i :: !StrnEq(lists[t][j].name, name, NAME_SIZE)
    {
      if name == [] {
        return None;
      }
      var l := lists[t];
      var i := 0;
      while i < |l|
        invariant 0 <= i <= |l|
        invariant forall j | 0 <= j < i :: !StrnEq(l[j].name, name, NAME_SIZE)
      {
        if StrnEq(l[i].name, name, NAME_SIZE) {
          return Some(l[i]);
        }
        i := i + 1;
      }
      r := None;
    }
  }
}

=== FILE: rwlock.dfy ===
/**
 * The reader/writer lock of ipc.c (`MDS_RwLock*`): a mutex guarding a
 * reader count and two condition variables, one for readers and one for
 * writers. `readers` is the number of readers holding the lock, or -1 while
 * a writer holds it. Readers give way to waiting writers.
 */
module RwLocks {
  import opened Kernel
  import opened WaitLists
  import Objects
  import Semaphores
  import Mutexes
  import Conditions

  /**
   * The threads the wake-up of `MDS_RwLockRelease` resumes, from the wait
   * lists it finds and the count the leaving holder left: the head writer
   * once nobody holds the lock, nobody while readers still hold it, and
   * with no writer waiting every waiting reader.
   */
  function Woken(wr: seq<ThreadId>, rd: seq<ThreadId>, readers: int): set<ThreadId>
  {
    if wr != [] then (if readers == 0 then Front(wr) else {}) else Members(rd)
  }

  /**
   * The timeout handed to a wait in `MDS_RwLockAcquireRead/Write`: the
   * caller's timeout less the ticks elapsed since the call began, `NO_WAIT`
   * once it is spent, and for ever unchanged.
   */
  function Remaining(timeout: Tick, elapsed: Tick): (r: Tick)
    ensures timeout == TICK_FOREVER ==> r == TICK_FOREVER
    ensures timeout != TICK_FOREVER ==> r <= timeout && (r == NO_WAIT <==> timeout <= elapsed)
    ensures timeout != TICK_FOREVER && r != NO_WAIT ==> r + elapsed == timeout
  {
    if timeout == TICK_FOREVER then TICK_FOREVER
    else if elapsed <= timeout then timeout - elapsed
    else NO_WAIT
  }

  /**
   * The timeout of the `n`-th wait (from 1) of one acquire as written: each
   * round subtracts the ticks elapsed since the call began from the
   * timeout the previous round already reduced.
   */
  function WaitTimeoutAsWritten(timeout: Tick, elapsed: Tick, n: nat): (r: Tick)
    requires n >= 1
    ensures timeout == TICK_FOREVER ==> r == TICK_FOREVER
    ensures r <= timeout
    decreases n
  {
    if n == 1 then Remaining(timeout, elapsed)
    else Remaining(WaitTimeoutAsWritten(timeout, elapsed, n - 1), elapsed)
  }

  /** As written, the `n`-th wait is shortened by `n` times the elapsed ticks. */
  lemma {:induction false} WaitTimeoutAsWrittenIs(timeout: Tick, elapsed: Tick, n: nat)
    requires n >= 1 && timeout != TICK_FOREVER
    ensures WaitTimeoutAsWritten(timeout, elapsed, n) == if n * elapsed <= timeout then timeout - n * elapsed else NO_WAIT
    decreases n
  {
    if n > 1 {
      WaitTimeoutAsWrittenIs(timeout, elapsed, n - 1);
    }
  }

  /**
   * A reader that found one pending broadcast, 3 ticks into a 10-tick
   * acquire, consumes it and waits again: as written that second wait gets
   * 4 ticks, while only 7 of the 10 are gone.
   */
  lemma ElapsedCountedTwice()
    ensures WaitTimeoutAsWritten(10, 3, 2) == 4 && Remaining(10, 3) == 7
  {
    WaitTimeoutAsWrittenIs(10, 3, 2);
  }

  /**
   * A wait made `elapsed` ticks into the call with `Remaining` of the
   * caller's timeout ends at the caller's deadline, whichever round it is;
   * the `n`-th wait as written ends `(n - 1) * elapsed` ticks early.
   */
  lemma RemainingKeepsDeadline(timeout: Tick, elapsed: Tick, n: nat)
    requires n >= 1 && timeout != TICK_FOREVER && n * elapsed <= timeout
    ensures elapsed + Remaining(timeout, elapsed) == timeout
    ensures elapsed + WaitTimeoutAsWritten(timeout, elapsed, n) == timeout - (n - 1) * elapsed
  {
    WaitTimeoutAsWrittenIs(timeout, elapsed, n);
  }

  /** The reader count after `MDS_RwLockRelease`: one reader fewer, or the writer gone. */
  function Unlocked(readers: int): (r: int)
    ensures readers > 0 ==> r == readers - 1
    ensures readers == -1 ==> r == 0
    ensures readers == 0 ==> r == 0
  {
    if readers > 0 then readers - 1 else if readers == -1 then 0 else readers
  }

  /** The reader count after `n` calls of `MDS_RwLockRelease`. */
  function Released(readers: int, n: nat): int
    decreases n
  {
    if n == 0 then readers else Unlocked(Released(readers, n - 1))
  }

  /**
   * The lock comes free again: once each of `k` readers has released, or
   * the writer has, the count is 0, and further releases leave it there.
   */
  lemma {:induction false} ReleasesFreeTheLock(k: nat, n: nat)
    ensures n <= k ==> Released(k, n) == k - n
    ensures n >= k ==> Released(k, n) == 0
    ensures n >= 1 ==> Released(-1, n) == 0
  {
    if n > 0 {
      ReleasesFreeTheLock(k, n - 1);
    }
  }

  class RwLock {
    const mutex: Mutexes.Mutex
    const condRd: Conditions.Condition
    const condWr: Conditions.Condition
    /** Readers holding the lock, or -1 while a writer holds it. */
    var readers: int

    /** Zeroed memory for a reader/writer lock: three embedded objects. */
    constructor ()
      ensures Parts() && readers == 0
      ensures mutex.obj.flags == 0 && condRd.obj.flags == 0 && condWr.obj.flags == 0
      ensures fresh(mutex) && fresh(condRd) && fresh(condWr)
      ensures fresh(mutex.obj) && fresh(condRd.obj) && fresh(condWr.obj)
    {
      mutex := new Mutexes.Mutex();
      condRd := new Semaphores.Semaphore();
      condWr := new Semaphores.Semaphore();
      readers := 0;
    }

    /** The embedded objects are distinct. */
    predicate Parts()
    {
      condRd != condWr && condRd.obj != condWr.obj &&
      mutex.obj != condRd.obj && mutex.obj != condWr.obj
    }

    /**
     * The three objects are valid, both conditions have the largest
     * ceiling, a writer holds the lock alone, and the writers' condition
     * never holds a count: it is only signalled while writers wait.
     */
    ghost predicate Valid(s: Sched)
      reads this, s, mutex, condRd, condWr
    {
      Parts() &&
      mutex.Valid(s) && condRd.Valid(s) && condWr.Valid(s) &&
      condRd.max == SIZE_MAX && condWr.max == SIZE_MAX &&
      condWr.value == 0 && readers >= -1
    }

    /**
     * `MDS_RwLockInit`: the mutex is initialised; if that succeeds the two
     * conditions are too (their results are not looked at) and the count
     * starts at 0.
     */
    method Init(s: Sched, reg: Objects.Registry, name: string) returns (err: Err)
      requires s.Valid() && reg.Valid() && Parts()
      modifies this, reg, mutex, mutex.obj, condRd, condRd.obj, condWr, condWr.obj
      ensures reg.Valid()
      ensures err == (if old(mutex.obj.flags) != 0 then EAGAIN else EOK)
      ensures err == EOK && old(condRd.obj.flags) == 0 && old(condWr.obj.flags) == 0 ==>
                Valid(s) && readers == 0 && mutex.Free() &&
                condRd.value == 0 && condRd.list == [] && condWr.list == []
      ensures err == EAGAIN ==> reg.lists == old(reg.lists)
      ensures err == EOK ==>
                var l1 := Objects.Joined(old(reg.lists), Objects.TYPE_MUTEX, mutex.obj);
                var l2 := if old(condRd.obj.flags) == 0 then Objects.Joined(l1, Objects.TYPE_SEMAPHORE, condRd.obj) else l1;
                reg.lists == if old(condWr.obj.flags) == 0 then Objects.Joined(l2, Objects.TYPE_SEMAPHORE, condWr.obj) else l2
    {
      err := mutex.Init(s, reg, name);
      if err == EOK {
        var _ := Conditions.Init(s, condRd, reg, name);
        var _ := Conditions.Init(s, condWr, reg, name);
        readers := 0;
      }
    }

    /**
     * The loop of `MDS_RwLockAcquireRead` and what follows it, entered with
     * the mutex held: at the start (`err0 == EOK`), or with the result
     * `err0` of a wait the caller was parked in. While a writer holds the
     * lock or waits for it, the caller waits on the readers' condition; a
     * pending broadcast is consumed and the test made again. Once through,
     * it counts itself as a reader and lets the mutex go. Every wait is
     * given the time left until the caller's deadline. Whether it returns
     * or parks on the readers' condition, the mutex is let go one level.
     */
    method ReadHeld(s: Sched, err0: Err, timeout: Tick, elapsed: Tick) returns (r: Step)
      requires Valid(s) && s.Running() && s.current.Some? && mutex.owner == s.current
      modifies this`readers, condRd`value, condRd`list, s,
               mutex`owner, mutex`priority, mutex`value, mutex`nest, mutex`list
      ensures Valid(s) && s.current == old(s.current) && condWr.list == old(condWr.list)
      ensures mutex.LetGo(old(mutex.owner), old(mutex.nest), old(mutex.list))
      ensures err0 != EOK ==> r == Done(err0) && readers == old(readers) && condRd.value == old(condRd.value)
      ensures err0 == EOK && old(readers) >= 0 && old(condWr.list) == [] ==>
                r == Done(EOK) && readers == old(readers) + 1 && condRd.value == old(condRd.value)
      ensures err0 == EOK && (old(readers) < 0 || old(condWr.list) != []) ==>
                readers == old(readers) && condRd.value == 0 &&
                if Remaining(timeout, elapsed) == NO_WAIT then r == Done(ETIMEOUT)
                else r == Blocked && condRd.list == old(condRd.list) + [s.current.value]
      ensures r.Done? ==> condRd.list == old(condRd.list) && mutex.Unwound(s, s.current.value)
      ensures r == Blocked ==> Conditions.ParkedUnwound(s, mutex, s.current.value, Remaining(timeout, elapsed))
    {
      var err, blocked := ReadWait(s, err0, Remaining(timeout, elapsed));
      if blocked {
        return Blocked;
      }
      if err == EOK {
        readers := readers + 1;
      }
      var _ := mutex.Release(s);
      r := Done(err);
    }

    /**
     * The waiting loop of `ReadHeld` on its own, with the wait time `t`:
     * it ends parked on the readers' condition, or with the mutex still
     * held and the wait's result in `err`.
     */
    method ReadWait(s: Sched, err0: Err, t: Tick) returns (err: Err, blocked: bool)
      requires Valid(s) && s.Running() && s.current.Some? && mutex.owner == s.current
      modifies condRd`value, condRd`list, s, mutex`owner, mutex`priority, mutex`value, mutex`nest, mutex`list
      ensures Valid(s) && s.current == old(s.current) && condWr.list == old(condWr.list)
      ensures blocked ==>
                err0 == EOK && (readers < 0 || condWr.list != []) && t != NO_WAIT && condRd.value == 0 &&
                condRd.list == old(condRd.list) + [s.current.value] &&
                mutex.LetGo(old(mutex.owner), old(mutex.nest), old(mutex.list)) &&
                Conditions.ParkedUnwound(s, mutex, s.current.value, t)
      ensures !blocked ==>
                s.Running() && condRd.list == old(condRd.list) &&
                s.threads == old(s.threads) && s.ready == old(s.ready) && s.armed == old(s.armed) &&
                mutex.owner == old(mutex.owner) && mutex.nest == old(mutex.nest) &&
                mutex.list == old(mutex.list) && mutex.priority == old(mutex.priority)
      ensures !blocked && !(err0 == EOK && (readers < 0 || condWr.list != [])) ==>
                err == err0 && condRd.value == old(condRd.value)
      ensures !blocked && err0 == EOK && (readers < 0 || condWr.list != []) ==>
                err == ETIMEOUT && condRd.value == 0 && t == NO_WAIT
    {
      err := err0;
      while err == EOK && (readers < 0 || condWr.list != [])
        invariant Valid(s) && s.Running() && s.current == old(s.current)
        invariant condWr.list == old(condWr.list) && condRd.list == old(condRd.list)
        invariant s.threads == old(s.threads) && s.ready == old(s.ready) && s.armed == old(s.armed)
        invariant mutex.priority == old(mutex.priority)
        invariant !(err0 == EOK && (readers < 0 || condWr.list != [])) ==> condRd.value == old(condRd.value)
        invariant err0 == EOK && err != EOK ==>
                    err == ETIMEOUT && condRd.value == 0 && t == NO_WAIT && (readers < 0 || condWr.list != [])
        invariant err0 != EOK ==> err == err0
        invariant mutex.owner == old(mutex.owner) && mutex.nest == old(mutex.nest) && mutex.list == old(mutex.list)
        decreases condRd.value + (if err == EOK then 1 else 0)
      {
        var w := Conditions.Wait(s, condRd, mutex, t);
        if w == Blocked {
          return err, true;
        }
        err := w.err;
      }
      blocked := false;
    }

    /**
     * The loop of `MDS_RwLockAcquireWrite` and what follows it, entered
     * like `ReadHeld`. While anybody holds the lock the caller waits on the
     * writers' condition; once through, it marks the lock as written. Every
     * wait is given the time left until the caller's deadline, and the
     * mutex is let go one level.
     */
    method WriteHeld(s: Sched, err0: Err, timeout: Tick, elapsed: Tick) returns (r: Step)
      requires Valid(s) && s.Running() && s.current.Some? && mutex.owner == s.current
      modifies this`readers, condWr`value, condWr`list, s,
               mutex`owner, mutex`priority, mutex`value, mutex`nest, mutex`list
      ensures Valid(s) && s.current == old(s.current) && condRd.list == old(condRd.list)
      ensures mutex.LetGo(old(mutex.owner), old(mutex.nest), old(mutex.list))
      ensures err0 != EOK ==> r == Done(err0) && readers == old(readers)
      ensures err0 == EOK && old(readers) == 0 ==> r == Done(EOK) && readers == -1
      ensures err0 == EOK && old(readers) != 0 ==>
                readers == old(readers) &&
                if Remaining(timeout, elapsed) == NO_WAIT then r == Done(ETIMEOUT)
                else r == Blocked && condWr.list == old(condWr.list) + [s.current.value]
      ensures r.Done? ==> condWr.list == old(condWr.list) && mutex.Unwound(s, s.current.value)
      ensures r == Blocked ==> Conditions.ParkedUnwound(s, mutex, s.current.value, Remaining(timeout, elapsed))
    {
      var err, blocked := WriteWait(s, err0, Remaining(timeout, elapsed));
      if blocked {
        return Blocked;
      }
      if err == EOK {
        readers := -1;
      }
      var _ := mutex.Release(s);
      r := Done(err);
    }

    /**
     * The waiting loop of `WriteHeld` on its own, with the wait time `t`:
     * it ends parked on the writers' condition, or with the mutex still
     * held and the wait's result in `err`.
     */
    method WriteWait(s: Sched, err0: Err, t: Tick) returns (err: Err, blocked: bool)
      requires Valid(s) && s.Running() && s.current.Some? && mutex.owner == s.current
      modifies condWr`value, condWr`list, s, mutex`owner, mutex`priority, mutex`value, mutex`nest, mutex`list
      ensures Valid(s) && s.current == old(s.current) && condRd.list == old(condRd.list)
      ensures blocked ==>
                err0 == EOK && readers != 0 && t != NO_WAIT &&
                condWr.list == old(condWr.list) + [s.current.value] &&
                mutex.LetGo(old(mutex.owner), old(mutex.nest), old(mutex.list)) &&
                Conditions.ParkedUnwound(s, mutex, s.current.value, t)
      ensures !blocked ==>
                s.Running() && condWr.list == old(condWr.list) &&
                s.threads == old(s.threads) && s.ready == old(s.ready) && s.armed == old(s.armed) &&
                mutex.owner == old(mutex.owner) && mutex.nest == old(mutex.nest) &&
                mutex.list == old(mutex.list) && mutex.priority == old(mutex.priority)
      ensures !blocked && !(err0 == EOK && readers != 0) ==> err == err0
      ensures !blocked && err0 == EOK && readers != 0 ==> err == ETIMEOUT && t == NO_WAIT
    {
      err := err0;
      while err == EOK && readers != 0
        invariant Valid(s) && s.Running() && s.current == old(s.current)
        invariant condRd.list == old(condRd.list) && condWr.list == old(condWr.list)
        invariant s.threads == old(s.threads) && s.ready == old(s.ready) && s.armed == old(s.armed)
        invariant mutex.priority == old(mutex.priority)
        invariant err0 == EOK && err != EOK ==> err == ETIMEOUT && t == NO_WAIT && readers != 0
        invariant err0 != EOK ==> err == err0
        invariant mutex.owner == old(mutex.owner) && mutex.nest == old(mutex.nest) && mutex.list == old(mutex.list)
        decreases if err == EOK then 1 else 0
      {
        var w := Conditions.Wait(s, condWr, mutex, t);
        if w == Blocked {
          return err, true;
        }
        err := w.err;
      }
      blocked := false;
    }

    /**
     * `MDS_RwLockAcquireRead`: the mutex is taken with the caller's
     * timeout (a failure is returned as it is), then `ReadHeld` runs.
     * `elapsed` is the clock reading less the reading at the call. The
     * mutex is left as it was found, except that a caller parked on it
     * has joined its waiters.
     */
    method AcquireRead(s: Sched, timeout: Tick, elapsed: Tick) returns (r: Step)
      requires Valid(s) && s.Running()
      modifies this`readers, condRd`value, condRd`list, s,
               mutex`owner, mutex`priority, mutex`value, mutex`nest, mutex`list
      ensures Valid(s) && s.current == old(s.current)
      ensures r == Done(EOK) ==> old(readers) >= 0 && old(condWr.list) == [] && readers == old(readers) + 1
      ensures r != Done(EOK) ==> readers == old(readers)
      ensures s.current.None? ==> r == Done(EACCES)
      ensures s.current.Some? && old(mutex.owner).None? && old(readers) >= 0 && old(condWr.list) == [] ==>
                r == Done(EOK)
      ensures mutex.owner == old(mutex.owner) && mutex.nest == old(mutex.nest) && mutex.value == old(mutex.value)
      ensures r.Done? || old(mutex.owner).None? || old(mutex.owner) == s.current ==> mutex.list == old(mutex.list)
      ensures !old(mutex.Takes(s)) ==>
                mutex.Missed(s, timeout, r) && readers == old(readers) &&
                condRd.value == old(condRd.value) && condRd.list == old(condRd.list)
      ensures old(mutex.Takes(s)) ==>
                (r.Done? ==> condRd.list == old(condRd.list) && s.Woke({})) &&
                (r == Blocked ==> condRd.list == old(condRd.list) + [s.current.value] &&
                                  s.Parked(s.current.value, Remaining(timeout, elapsed)))
    {
      ghost var th := s.threads;
      r := mutex.Acquire(s, timeout);
      if r != Done(EOK) {
        return;
      }
      r := ReadHeld(s, EOK, timeout, elapsed);
      ghost var t := s.current.value;
      if r == Blocked {
        ghost var th' := th[t := th[t].(err := EOK)];
        assert th'[t := th'[t].(currPrio := th[t].currPrio)] == th';
      } else {
        assert th[t := th[t].(currPrio := th[t].currPrio)] == th;
      }
    }

    /** `MDS_RwLockAcquireWrite`: the mutex is taken, then `WriteHeld` runs; the mutex is left as `AcquireRead` leaves it. */
    method AcquireWrite(s: Sched, timeout: Tick, elapsed: Tick) returns (r: Step)
      requires Valid(s) && s.Running()
      modifies this`readers, condWr`value, condWr`list, s,
               mutex`owner, mutex`priority, mutex`value, mutex`nest, mutex`list
      ensures Valid(s) && s.current == old(s.current)
      ensures r == Done(EOK) ==> old(readers) == 0 && readers == -1
      ensures r != Done(EOK) ==> readers == old(readers)
      ensures s.current.None? ==> r == Done(EACCES)
      ensures s.current.Some? && old(mutex.owner).None? && old(readers) == 0 ==> r == Done(EOK)
      ensures mutex.owner == old(mutex.owner) && mutex.nest == old(mutex.nest) && mutex.value == old(mutex.value)
      ensures r.Done? || old(mutex.owner).None? || old(mutex.owner) == s.current ==> mutex.list == old(mutex.list)
      ensures !old(mutex.Takes(s)) ==>
                mutex.Missed(s, timeout, r) && readers == old(readers) && condWr.list == old(condWr.list)
      ensures old(mutex.Takes(s)) ==>
                (r.Done? ==> condWr.list == old(condWr.list) && s.Woke({})) &&
                (r == Blocked ==> condWr.list == old(condWr.list) + [s.current.value] &&
                                  s.Parked(s.current.value, Remaining(timeout, elapsed)))
    {
      ghost var th := s.threads;
      r := mutex.Acquire(s, timeout);
      if r != Done(EOK) {
        return;
      }
      r := WriteHeld(s, EOK, timeout, elapsed);
      ghost var t := s.current.value;
      if r == Blocked {
        ghost var th' := th[t := th[t].(err := EOK)];
        assert th'[t := th'[t].(currPrio := th[t].currPrio)] == th';
      } else {
        assert th[t := th[t].(currPrio := th[t].currPrio)] == th;
      }
    }

    /**
     * The part of `MDS_RwLockRelease` under the mutex: the holder leaves,
     * waiters are woken as `Wake` says, and the mutex is let go one level.
     */
    method ReleaseHeld(s: Sched) returns (err: Err)
      requires Valid(s) && s.Running() && s.current.Some? && mutex.owner == s.current
      modifies this`readers, condRd`value, condRd`list, condWr`value, condWr`list, s,
               mutex`owner, mutex`priority, mutex`value, mutex`nest, mutex`list
      ensures Valid(s) && s.current == old(s.current) && err == EOK
      ensures mutex.LetGo(old(mutex.owner), old(mutex.nest), old(mutex.list))
      ensures readers == Unlocked(old(readers))
      ensures old(condWr.list) != [] && readers == 0 ==>
                condWr.list == old(condWr.list)[1..] && old(condWr.list)[0] in s.ready &&
                condRd.list == old(condRd.list)
      ensures old(condWr.list) != [] && readers != 0 ==>
                condWr.list == old(condWr.list) && condRd.list == old(condRd.list)
      ensures old(condWr.list) == [] ==>
                condWr.list == [] && condRd.list == [] && Members(old(condRd.list)) <= s.ready
      ensures var t := s.current.value;
              var w := Woken(old(condWr.list), old(condRd.list), readers);
              var cast := old(condWr.list) == [] && old(condRd.list) != [];
              var th := if cast then WithErr(old(s.threads), t, ETIMEOUT) else old(s.threads);
              var wm := if old(mutex.nest) == 1 then Front(old(mutex.list)) else {};
              condRd.value == (if cast then 1 else old(condRd.value)) &&
              s.ready == old(s.ready) + w + wm && s.armed == old(s.armed) - w - wm &&
              s.threads == if old(mutex.nest) == 1 then th[t := th[t].(currPrio := old(mutex.priority))] else th
    {
      if readers > 0 {
        readers := readers - 1;
      } else if readers == -1 {
        readers := 0;
      }
      err := Wake(s);
      ghost var ready := s.ready;
      var _ := mutex.Release(s);
      assert ready <= s.ready;
    }

    /**
     * The wait lists, the readers' condition and the scheduler after the
     * wake-up of `MDS_RwLockRelease` by the caller `t`, against the state
     * before the call: the threads `Woken` names leave their lists and are
     * resumed. A broadcast to the readers also leaves the readers'
     * condition at 1 and `ETIMEOUT` in the caller's error slot, from the
     * failed no-wait acquire that ends it.
     */
    twostate predicate Waking(s: Sched, t: ThreadId)
      reads this, condRd, condWr, s
    {
      var w := Woken(old(condWr.list), old(condRd.list), readers);
      var cast := old(condWr.list) == [] && old(condRd.list) != [];
      t in old(s.threads) &&
      condWr.list == (if old(condWr.list) != [] && readers == 0 then old(condWr.list)[1..] else old(condWr.list)) &&
      condRd.list == (if old(condWr.list) == [] then [] else old(condRd.list)) &&
      condRd.value == (if cast then 1 else old(condRd.value)) &&
      s.ready == old(s.ready) + w && s.armed == old(s.armed) - w &&
      s.threads == if cast then WithErr(old(s.threads), t, ETIMEOUT) else old(s.threads)
    }

    /**
     * The wake-up of `MDS_RwLockRelease`: with writers waiting, the head
     * one is signalled if nobody holds the lock; with none waiting, every
     * waiting reader is woken by a broadcast.
     */
    method Wake(s: Sched) returns (err: Err)
      requires Valid(s) && s.Running() && s.current.Some?
      modifies condRd`value, condRd`list, condWr`value, condWr`list, s
      ensures Valid(s) && s.Running() && s.current == old(s.current) && err == EOK
      ensures s.threads.Keys == old(s.threads.Keys)
      ensures old(condWr.list) != [] && readers == 0 ==>
                condWr.list == old(condWr.list)[1..] && old(condWr.list)[0] in s.ready &&
                condRd.list == old(condRd.list)
      ensures old(condWr.list) != [] && readers != 0 ==>
                condWr.list == old(condWr.list) && condRd.list == old(condRd.list)
      ensures old(condWr.list) == [] ==>
                condWr.list == [] && condRd.list == [] && Members(old(condRd.list)) <= s.ready
      ensures Waking(s, s.current.value)
    {
      err := EOK;
      if condWr.list != [] {
        if readers == 0 {
          err := Conditions.Signal(s, condWr);
        }
      } else if condRd.list != [] {
        err := Conditions.BroadCast(s, condRd);
      }
    }

    /**
     * `MDS_RwLockRelease`: the mutex is taken, waiting as long as needed,
     * then `ReleaseHeld` runs; the mutex is left as `AcquireRead` leaves it.
     */
    method Release(s: Sched) returns (r: Step)
      requires Valid(s) && s.Running()
      modifies this`readers, condRd`value, condRd`list, condWr`value, condWr`list, s,
               mutex`owner, mutex`priority, mutex`value, mutex`nest, mutex`list
      ensures Valid(s) && s.current == old(s.current)
      ensures r == Done(EOK) ==> readers == Unlocked(old(readers))
      ensures r != Done(EOK) ==> readers == old(readers)
      ensures s.current.None? ==> r == Done(EACCES)
      ensures s.current.Some? && old(mutex.owner).None? ==> r == Done(EOK)
      ensures mutex.owner == old(mutex.owner) && mutex.nest == old(mutex.nest) && mutex.value == old(mutex.value)
      ensures r.Done? || old(mutex.owner).None? || old(mutex.owner) == s.current ==> mutex.list == old(mutex.list)
      ensures !old(mutex.Takes(s)) ==>
                mutex.Missed(s, TICK_FOREVER, r) && readers == old(readers) && condRd.value == old(condRd.value) &&
                condRd.list == old(condRd.list) && condWr.list == old(condWr.list)
      ensures old(mutex.Takes(s)) ==> r == Done(EOK) && Waking(s, s.current.value)
    {
      r := mutex.Acquire(s, TICK_FOREVER);
      if r != Done(EOK) {
        return;
      }
      ghost var ready, armed, th := s.ready, s.armed, s.threads;
      var err := ReleaseHeld(s);
      r := Done(err);
      ghost var t := s.current.value;
      ghost var w := Woken(old(condWr.list), old(condRd.list), readers);
      ghost var th' := if old(condWr.list) == [] && old(condRd.list) != [] then WithErr(th, t, ETIMEOUT) else th;
      assert th'[t := th'[t].(currPrio := th[t].currPrio)] == th';
      assert ready + w + {} == ready + w && armed - w - {} == armed - w;
    }

    /**
     * `MDS_RwLockDeInit` as written. After a no-wait take of the mutex it
     * refuses a lock in use with `EBUSY`; an idle lock is probed with a
     * no-wait acquire of each condition. The writers' condition never holds
     * a count, so its probe always fails and the lock is reported busy: the
     * branch that de-initialises the objects is never reached.
     */
    method DeInitAsWritten(s: Sched) returns (err: Err)
      requires Valid(s) && s.Running()
      modifies condRd`value, condRd`list, condWr`value, condWr`list, s,
               mutex`owner, mutex`priority, mutex`value, mutex`nest, mutex`list
      ensures Valid(s) && s.current == old(s.current) && readers == old(readers)
      ensures err != EOK
      ensures s.current.Some? && old(mutex.owner).None? ==> err == EBUSY
    {
      var m := mutex.Acquire(s, NO_WAIT);
      if m != Done(EOK) {
        return m.err;
      }
      if readers != 0 || condWr.list != [] || condRd.list != [] {
        err := EBUSY;
      } else {
        var a := condRd.Acquire(s, NO_WAIT);
        if a == Done(EOK) {
          var b := condWr.Acquire(s, NO_WAIT);
          if b == Done(EOK) {
            // Releasing and de-initialising both conditions: unreachable.
            assert false;
          } else {
            var _ := condRd.Release(s);
            err := EBUSY;
          }
        } else {
          err := EBUSY;
        }
      }
      var _ := mutex.Release(s);
    }

    /**
     * `MDS_RwLockDeInit` succeeding on an idle lock: with the mutex taken,
     * no holder and nobody waiting, both conditions and then the mutex are
     * de-initialised; otherwise `EBUSY`. The mutex keeps the owner and
     * nesting it was found with.
     */
    method DeInit(s: Sched, reg: Objects.Registry) returns (err: Err)
      requires Valid(s) && s.Running() && reg.Valid()
      modifies condRd, condWr, s, reg, mutex, mutex.obj, condRd.obj, condWr.obj
      ensures reg.Valid() && s.current == old(s.current) && readers == old(readers)
      ensures old(mutex.Takes(s)) ==>
                (err == EOK <==> old(readers) == 0 && old(condRd.list) == [] && old(condWr.list) == [])
      ensures err == EOK ==> mutex.obj.flags == 0 && condRd.obj.flags == 0 && condWr.obj.flags == 0 &&
                             mutex.list == [] &&
                             reg.lists == Objects.Left(Objects.Left(Objects.Left(old(reg.lists), condRd.obj), condWr.obj), mutex.obj)
      ensures err != EOK ==> Valid(s) && reg.lists == old(reg.lists) && mutex.list == old(mutex.list)
      ensures mutex.owner == old(mutex.owner) && mutex.nest == old(mutex.nest) && mutex.value == old(mutex.value)
      ensures !old(mutex.Takes(s)) ==>
                mutex.Missed(s, NO_WAIT, Done(err)) && condRd.value == old(condRd.value) &&
                condRd.list == old(condRd.list) && condWr.list == old(condWr.list)
      ensures old(mutex.Takes(s)) && err != EOK ==>
                err == EBUSY && s.threads == old(s.threads) && s.ready == old(s.ready) && s.armed == old(s.armed)
      ensures old(mutex.Takes(s)) && err == EOK ==>
                s.ready == old(s.ready) + Members(old(mutex.list)) &&
                s.armed == old(s.armed) - Members(old(mutex.list)) &&
                s.threads.Keys == old(s.threads.Keys) &&
                forall x | x in s.threads ::
                  s.threads[x] == if x in old(mutex.list) then Forced(old(s.threads)[x])
                                  else if x == s.current.value then old(s.threads)[x].(err := ETIMEOUT)
                                  else old(s.threads)[x]
    {
      var m := mutex.Acquire(s, NO_WAIT);
      if m != Done(EOK) {
        return m.err;
      }
      if readers != 0 || condWr.list != [] || condRd.list != [] {
        err := EBUSY;
        ghost var th := s.threads;
        ghost var t := s.current.value;
        var _ := mutex.Release(s);
        assert th[t := th[t].(currPrio := th[t].currPrio)] == th;
        return;
      }
      TearDown(s, reg);
      err := EOK;
    }

    /** The idle branch of `DeInit`: both conditions, then the mutex once let go, are de-initialised. */
    method TearDown(s: Sched, reg: Objects.Registry)
      requires Valid(s) && s.Running() && reg.Valid() && s.current.Some? && mutex.owner == s.current
      requires condRd.list == [] && condWr.list == []
      requires mutex.nest == 1 ==> mutex.list == [] && mutex.priority == s.threads[s.current.value].currPrio
      modifies condRd, condWr, s, reg, mutex, mutex.obj, condRd.obj, condWr.obj
      ensures reg.Valid() && s.current == old(s.current)
      ensures s.ready == old(s.ready) + Members(old(mutex.list)) &&
              s.armed == old(s.armed) - Members(old(mutex.list)) &&
              s.threads.Keys == old(s.threads.Keys)
      ensures forall x | x in s.threads ::
                s.threads[x] == if x in old(mutex.list) then Forced(old(s.threads)[x])
                                else if x == s.current.value then old(s.threads)[x].(err := ETIMEOUT)
                                else old(s.threads)[x]
      ensures mutex.obj.flags == 0 && condRd.obj.flags == 0 && condWr.obj.flags == 0
      ensures reg.lists == Objects.Left(Objects.Left(Objects.Left(old(reg.lists), condRd.obj), condWr.obj), mutex.obj)
      ensures mutex.Valid(s) && mutex.list == []
      ensures old(mutex.nest) > 1 ==> mutex.owner == old(mutex.owner) && mutex.nest == old(mutex.nest) - 1
      ensures old(mutex.nest) == 1 && old(mutex.list) == [] ==> mutex.owner.None? && mutex.value == 1 && mutex.nest == 0
    {
      ghost var t := s.current.value;
      var _ := Conditions.DeInit(s, condRd, reg);
      var _ := Conditions.DeInit(s, condWr, reg);
      assert s.threads == old(s.threads)[t := old(s.threads)[t].(err := ETIMEOUT)];
      DropMutex(s, reg);
    }

    /** The last step of `TearDown`: the mutex is let go once, then de-initialised. */
    method DropMutex(s: Sched, reg: Objects.Registry)
      requires mutex.Valid(s) && reg.Valid() && s.current.Some? && mutex.owner == s.current
      requires mutex.nest == 1 ==> mutex.list == [] && mutex.priority == s.threads[s.current.value].currPrio
      modifies s, reg, mutex, mutex.obj
      ensures reg.Valid() && s.current == old(s.current)
      ensures s.ready == old(s.ready) + Members(old(mutex.list)) &&
              s.armed == old(s.armed) - Members(old(mutex.list)) &&
              s.threads.Keys == old(s.threads.Keys)
      ensures forall x | x in s.threads ::
                s.threads[x] == if x in old(mutex.list) then Forced(old(s.threads)[x]) else old(s.threads)[x]
      ensures mutex.obj.flags == 0 && reg.lists == Objects.Left(old(reg.lists), mutex.obj)
      ensures mutex.Valid(s) && mutex.list == []
      ensures old(mutex.nest) > 1 ==> mutex.owner == old(mutex.owner) && mutex.nest == old(mutex.nest) - 1
      ensures old(mutex.nest) == 1 && old(mutex.list) == [] ==> mutex.owner.None? && mutex.value == 1 && mutex.nest == 0
    {
      var _ := mutex.Release(s);
      assert s.threads == old(s.threads);
      var _ := mutex.DeInit(s, reg);
    }
  }
}

=== FILE: semaphore.dfy ===
/**
 * The counting semaphore of ipc.c (`MDS_Semaphore*`). Waiters park in
 * priority order; a release hands the count straight to the head waiter.
 * A condition variable is the same object (see `Conditions`).
 */
module Semaphores {
  import opened Kernel
  import opened WaitLists
  import Objects

  class Semaphore {
    const obj: Objects.Obj
    var value: Size
    var max: Size
    /** The threads parked in `Acquire`, head first. */
    var list: seq<ThreadId>

    /** Zeroed memory for a semaphore. */
    constructor ()
      ensures fresh(obj) && obj.flags == 0 && obj.name == []
      ensures value == 0 && max == 0 && list == []
    {
      obj := new Objects.Obj();
      value := 0;
      max := 0;
      list := [];
    }

    /**
     * Every waiter is a known thread, and a thread only waits while the
     * count is 0: a positive count means nobody is parked.
     */
    ghost predicate Valid(s: Sched)
      reads this, s
    {
      s.Valid() && Known(list, s.threads) && (value > 0 ==> list == [])
    }

    /** `MDS_SemaphoreInit`: on a header not in use, count `init`, ceiling `max`, nobody waiting. */
    method Init(s: Sched, reg: Objects.Registry, name: string, init: Size, max: Size) returns (err: Err)
      requires s.Valid() && reg.Valid()
      modifies this, reg, obj
      ensures reg.Valid()
      ensures err == (if old(obj.flags) != 0 then EAGAIN else EOK)
      ensures err == EOK ==> Valid(s) && value == init && this.max == max && list == [] &&
                             Objects.GetType(obj.flags) == Objects.TYPE_SEMAPHORE &&
                             reg.lists == Objects.Joined(old(reg.lists), Objects.TYPE_SEMAPHORE, obj)
      ensures err == EAGAIN ==> value == old(value) && this.max == old(this.max) && list == old(list) &&
                                reg.lists == old(reg.lists)
    {
      err := reg.Init(obj, Objects.TYPE_SEMAPHORE, name);
      if err == EOK {
        Objects.CreatedBitIsSeparate(0, Objects.TYPE_SEMAPHORE);
        value := init;
        this.max := max;
        list := [];
      }
    }

    /** `MDS_SemaphoreDeInit`: every waiter is woken with `EAGAIN`, then the header leaves the registry. */
    method DeInit(s: Sched, reg: Objects.Registry) returns (err: Err)
      requires Valid(s) && reg.Valid()
      modifies this`list, s, reg, obj
      ensures Valid(s) && reg.Valid() && err == EOK && obj.flags == 0 && list == []
      ensures reg.lists == Objects.Left(old(reg.lists), obj)
      ensures s.ready == old(s.ready) + Members(old(list))
      ensures s.armed == old(s.armed) - Members(old(list))
      ensures s.current == old(s.current) && s.threads.Keys == old(s.threads.Keys)
      ensures forall x | x in s.threads ::
                s.threads[x] == if x in old(list) then Forced(old(s.threads)[x]) else old(s.threads)[x]
    {
      list := ResumeAll(s, list);
      err := reg.DeInit(obj);
    }

    /**
     * `MDS_SemaphoreDestroy`: every waiter is woken with `EAGAIN`, then the
     * header is destroyed, which only a created semaphore allows.
     */
    method Destroy(s: Sched, reg: Objects.Registry) returns (err: Err)
      requires Valid(s) && reg.Valid()
      modifies this`list, s, reg, obj
      ensures Valid(s) && reg.Valid() && list == []
      ensures err == (if Objects.IsCreated(old(obj.flags)) then EOK else EFAULT)
      ensures err == EFAULT ==> reg.lists == old(reg.lists) && obj.flags == old(obj.flags)
      ensures err == EOK ==> reg.lists == Objects.Left(old(reg.lists), obj) && obj.flags == 0
      ensures s.ready == old(s.ready) + Members(old(list))
      ensures s.armed == old(s.armed) - Members(old(list))
      ensures s.current == old(s.current) && s.threads.Keys == old(s.threads.Keys)
      ensures forall x | x in s.threads ::
                s.threads[x] == if x in old(list) then Forced(old(s.threads)[x]) else old(s.threads)[x]
    {
      list := ResumeAll(s, list);
      err := reg.Destory(obj);
    }

    /**
     * `MDS_SemaphoreAcquire`. A positive count is decremented. With the
     * count at 0 a no-wait call fails with `ETIMEOUT` (also recorded in the
     * caller's error slot); a thread otherwise parks in priority order with
     * its timeout. Outside thread context a waiting call returns `EOK`
     * without taking anything; a no-wait call there would write the error
     * slot of a missing thread, so the caller must be a thread then.
     */
    method Acquire(s: Sched, timeout: Tick) returns (r: Step)
      requires Valid(s) && s.Running()
      requires value == 0 && timeout == NO_WAIT ==> s.current.Some?
      modifies this`value, this`list, s
      ensures Valid(s) && s.current == old(s.current)
      ensures old(value) > 0 ==>
                r == Done(EOK) && value == old(value) - 1 && list == old(list) &&
                s.threads == old(s.threads) && s.ready == old(s.ready) && s.armed == old(s.armed)
      ensures old(value) == 0 && timeout == NO_WAIT ==>
                r == Done(ETIMEOUT) && value == 0 && list == old(list) &&
                s.ready == old(s.ready) && s.armed == old(s.armed) &&
                s.threads == WithErr(old(s.threads), s.current.value, ETIMEOUT)
      ensures old(value) == 0 && timeout != NO_WAIT && s.current.None? ==>
                r == Done(EOK) && value == 0 && list == old(list) &&
                s.threads == old(s.threads) && s.ready == old(s.ready) && s.armed == old(s.armed)
      ensures old(value) == 0 && timeout != NO_WAIT && s.current.Some? ==>
                var t := s.current.value;
                r == Blocked && value == 0 && list == Enqueue(old(list), old(s.threads), t, true) &&
                s.Parked(t, timeout)
    {
      if value > 0 {
        value := value - 1;
        return Done(EOK);
      }
      if timeout == NO_WAIT {
        s.SetErr(s.current.value, ETIMEOUT);
        return Done(ETIMEOUT);
      }
      if s.current.None? {
        return Done(EOK);
      }
      var ok;
      list, ok := SuspendThread(s, list, s.current.value, true, timeout);
      r := Blocked;
    }

    /**
     * `MDS_SemaphoreRelease`: with waiters the head one is woken and the
     * count is unchanged; otherwise the count grows by one below the
     * ceiling, and at the ceiling the call fails with `ERANGE`.
     */
    method Release(s: Sched) returns (err: Err)
      requires Valid(s)
      modifies this`value, this`list, s
      ensures Valid(s) && s.current == old(s.current) && s.threads == old(s.threads)
      ensures old(list) != [] ==>
                err == EOK && value == old(value) && list == old(list)[1..] &&
                s.ready == old(s.ready) + {old(list)[0]} && s.armed == old(s.armed) - {old(list)[0]}
      ensures old(list) == [] ==>
                list == [] && s.ready == old(s.ready) && s.armed == old(s.armed) &&
                err == (if old(value) < max then EOK else ERANGE) &&
                value == (if old(value) < max then old(value) + 1 else old(value))
      ensures old(value) <= max ==> value <= max
    {
      err := EOK;
      if list != [] {
        list := ResumeThread(s, list);
      } else if value < max {
        value := value + 1;
      } else {
        err := ERANGE;
      }
    }

    /**
     * `MDS_SemaphoreGetValue`: the count, and the ceiling through `max`. A
     * positive count reported means that nobody is waiting, and a waiter
     * means the count reported is 0.
     */
    function GetValue(ghost s: Sched): (r: (Size, Size))
      reads this, s
      requires Valid(s)
      ensures r.0 == value && r.1 == max
      ensures r.0 > 0 ==> list == []
      ensures list != [] ==> r.0 == 0
    {
      (value, max)
    }
  }

  /**
   * `MDS_SemaphoreCreate`: `mem` is the zeroed memory obtained for it
   * (`None` when the heap is exhausted); it is registered as created and
   * starts like `Init`.
   */
  method Create(s: Sched, mem: Option<Semaphore>, reg: Objects.Registry, name: string, init: Size, max: Size)
    returns (r: Option<Semaphore>)
    requires s.Valid() && reg.Valid()
    requires mem.Some? ==> mem.value.obj.flags == 0
    modifies reg, if mem.Some? then {mem.value, mem.value.obj} else {}
    ensures reg.Valid() && r == mem
    ensures r.Some? ==> r.value.Valid(s) && r.value.value == init && r.value.max == max && r.value.list == [] &&
                        Objects.GetType(r.value.obj.flags) == Objects.TYPE_SEMAPHORE &&
                        Objects.IsCreated(r.value.obj.flags) &&
                        reg.lists == Objects.Joined(old(reg.lists), Objects.TYPE_SEMAPHORE, r.value.obj)
    ensures r.None? ==> reg.lists == old(reg.lists)
  {
    var o := reg.Create(if mem.Some? then Some(mem.value.obj) else None, Objects.TYPE_SEMAPHORE, name);
    if mem.Some? {
      mem.value.value := init;
      mem.value.max := max;
      mem.value.list := [];
    }
    r := mem;
  }
}

=== FILE: timers.dfy ===
/**
 * The tick clock, the critical-section nesting counter and the timer engine
 * of the kernel's stand-alone build (nosys.c).
 *
 * The engine keeps its active timers in a skip list ordered by absolute
 * expiry tick under a wraparound-safe comparison. The model keeps the bottom
 * level of that skip list, a sequence of timers; the upper levels only speed
 * up the search and do not change the order. The fields of each timer
 * (flags, start and limit tick) are held by the engine in a table keyed by
 * the timer.
 */
module Timers {
  import opened Kernel
  import Objects

  /** Timer type and state bits (`MDS_TIMER_TYPE_*`, `MDS_TIMER_FLAG_ACTIVED`). */
  const TYPE_ONCE: bv32 := 0x00
  const TYPE_PERIOD: bv32 := 0x01
  const FLAG_ACTIVED: bv32 := 0x80

  /** `CONFIG_MDS_CLOCK_TICK_FREQ_HZ`. */
  const TICK_FREQ_HZ: nat := 1000

  type Int8 = z: int | -128 <= z < 128

  /**
   * `TIMER_SkipListCompare`: 1 when a timer expiring at `limit` lies strictly
   * after `key` (less than half the tick range ahead of it), -1 otherwise.
   */
  function Compare(limit: Tick, key: Tick): (r: int)
    ensures r == 1 || r == -1
    ensures r == 1 <==> limit != key && TickSub(limit, key) < TIMER_MAX
  {
    var diff := TickSub(limit, key);
    if diff != 0 && diff < TIMER_MAX then 1 else -1
  }

  /**
   * Within any window of less than half the tick range, "strictly after"
   * under wraparound is the plain order of distances from the window start.
   */
  lemma CompareInWindow(x: Tick, y: Tick, base: Tick)
    requires TickSub(x, base) < TIMER_MAX && TickSub(y, base) < TIMER_MAX
    ensures Compare(x, y) == 1 <==> TickSub(x, base) > TickSub(y, base)
  {
  }

  /** A timer (`MDS_Timer_t`): its object header; its callback and argument are not modelled. */
  class Timer {
    const obj: Objects.Obj

    /** Zeroed memory for a timer. */
    constructor ()
      ensures fresh(obj) && obj.flags == 0 && obj.name == []
    {
      obj := new Objects.Obj();
    }
  }

  /** The mutable fields of a timer. */
  datatype Fields = Fields(flags: bv32, tickstart: Tick, ticklimit: Tick)
  {
    predicate Active() {
      flags & FLAG_ACTIVED != 0
    }

    /** The delay the timer was last started with. */
    function Period(): Tick {
      TickSub(ticklimit, tickstart)
    }

    /** The same fields with the active flag cleared. */
    function Stopped(): (g: Fields)
      ensures !g.Active() && g.tickstart == tickstart && g.ticklimit == ticklimit
    {
      this.(flags := flags & !FLAG_ACTIVED)
    }

    /** The fields of a timer started at `now` for `ticks`: active, timed from `now`. */
    function Started(now: Tick, ticks: Tick): (g: Fields)
      ensures g.Active() && g.tickstart == now && g.Period() == ticks && g.Ahead(now) == ticks
    {
      this.(flags := flags | FLAG_ACTIVED, tickstart := now, ticklimit := TickAdd(now, ticks))
    }

    /** Starting forgets whether the timer was active before. */
    lemma StartedAfterStopped(now: Tick, ticks: Tick)
      ensures Stopped().Started(now, ticks) == Started(now, ticks)
    {
      assert (flags & !FLAG_ACTIVED) | FLAG_ACTIVED == flags | FLAG_ACTIVED;
    }

    /** What `MDS_TimerInit` and `MDS_TimerCreate` leave: the requested type, never active. */
    function Typed(ty: bv32): (g: Fields)
      ensures !g.Active() && g.tickstart == tickstart && g.ticklimit == ticklimit
      ensures g.flags & TYPE_PERIOD == ty & TYPE_PERIOD
    {
      this.(flags := ty & !FLAG_ACTIVED)
    }

    /** Distance of the expiry ahead of `now`. */
    function Ahead(now: Tick): Tick {
      TickSub(ticklimit, now)
    }
  }

  type Table = map<Timer, Fields>

  /** The fields of zeroed memory. */
  const ZERO: Fields := Fields(0, 0, 0)

  /** A second update of the same timer's fields overrides the first. */
  lemma UpdateTwice(st: Table, t: Timer, f: Fields, g: Fields)
    ensures st[t := f][t := g] == st[t := g]
  {
  }

  /**
   * A listed timer: active, expiring at least `lo` and less than `TIMER_MAX`
   * ticks after `now`, and restartable with its own period.
   */
  predicate Pending(f: Fields, now: Tick, lo: nat)
  {
    f.Active() && lo <= f.Ahead(now) < TIMER_MAX && 0 < f.Period() < TIMER_MAX
  }

  /**
   * The engine's list invariant: distinct timers with fields, each pending
   * relative to `now` at distance at least `lo`, in non-decreasing order of
   * expiry. Between ticks `lo` is 1: nothing listed is due.
   */
  predicate Queued(l: seq<Timer>, st: Table, now: Tick, lo: nat)
  {
    Distinct(l) &&
    (forall i | 0 <= i < |l| :: l[i] in st && Pending(st[l[i]], now, lo)) &&
    (forall i, j | 0 <= i < j < |l| && l[i] in st && l[j] in st ::
       st[l[i]].Ahead(now) <= st[l[j]].Ahead(now))
  }

  /** A queued list is ordered under `TIMER_SkipListCompare`: no timer is after a later one. */
  lemma QueuedIsCompareSorted(l: seq<Timer>, st: Table, now: Tick, lo: nat)
    requires Queued(l, st, now, lo)
    ensures forall i, j | 0 <= i < j < |l| :: Compare(st[l[i]].ticklimit, st[l[j]].ticklimit) == -1
  {
    forall i, j | 0 <= i < j < |l|
      ensures Compare(st[l[i]].ticklimit, st[l[j]].ticklimit) == -1
    {
      CompareInWindow(st[l[i]].ticklimit, st[l[j]].ticklimit, now);
    }
  }

  lemma TailKeepsQueued(l: seq<Timer>, st: Table, now: Tick, lo: nat)
    requires Queued(l, st, now, lo) && l != []
    ensures Queued(l[1..], st, now, lo)
    ensures forall y | y in l[1..] :: y != l[0] && y in st && st[l[0]].Ahead(now) <= st[y].Ahead(now)
  {
    var tl := l[1..];
    forall i | 0 <= i < |tl|
      ensures tl[i] in st && Pending(st[tl[i]], now, lo)
    {
      assert tl[i] == l[i + 1];
    }
    forall i, j | 0 <= i < j < |tl|
      ensures st[tl[i]].Ahead(now) <= st[tl[j]].Ahead(now) && tl[i] != tl[j]
    {
      assert tl[i] == l[i + 1] && tl[j] == l[j + 1];
    }
    forall y | y in tl ensures y != l[0] && y in st && st[l[0]].Ahead(now) <= st[y].Ahead(now) {
      var k :| 0 <= k < |tl| && tl[k] == y;
      assert l[k + 1] == y;
    }
  }

  /** The first timer of a queued list expires no later than any other. */
  lemma HeadIsEarliest(l: seq<Timer>, st: Table, now: Tick, lo: nat)
    requires Queued(l, st, now, lo) && l != []
    ensures forall y | y in l :: y in st && st[l[0]].Ahead(now) <= st[y].Ahead(now)
  {
    TailKeepsQueued(l, st, now, lo);
    forall y | y in l ensures y in st && st[l[0]].Ahead(now) <= st[y].Ahead(now) {
      if y != l[0] {
        assert y in l[1..];
      }
    }
  }

  lemma ConsKeepsQueued(h: Timer, r: seq<Timer>, st: Table, now: Tick, lo: nat)
    requires Queued(r, st, now, lo) && h in st && Pending(st[h], now, lo)
    requires forall y | y in r :: y != h && y in st && st[h].Ahead(now) <= st[y].Ahead(now)
    ensures Queued([h] + r, st, now, lo)
  {
    var rr := [h] + r;
    forall i | 0 <= i < |rr| ensures rr[i] in st && Pending(st[rr[i]], now, lo) {
      if i > 0 { assert rr[i] == r[i - 1]; }
    }
    forall i, j | 0 <= i < j < |rr|
      ensures st[rr[i]].Ahead(now) <= st[rr[j]].Ahead(now) && rr[i] != rr[j]
    {
      assert rr[j] == r[j - 1];
      if i > 0 { assert rr[i] == r[i - 1]; } else { assert r[j - 1] in r; }
    }
  }

  /** Unlinking a timer keeps the list queued. */
  lemma {:induction false} RemoveKeepsQueued(l: seq<Timer>, x: Timer, st: Table, now: Tick, lo: nat)
    requires Queued(l, st, now, lo)
    ensures Queued(Remove(l, x), st, now, lo)
  {
    if l != [] {
      TailKeepsQueued(l, st, now, lo);
      var tl := l[1..];
      RemoveKeepsQueued(tl, x, st, now, lo);
      var r := Remove(tl, x);
      if l[0] != x {
        forall y | y in r ensures y in tl {
          var k :| 0 <= k < |r| && r[k] == y;
        }
        ConsKeepsQueued(l[0], r, st, now, lo);
        assert Remove(l, x) == [l[0]] + r;
      }
    }
  }

  /** Changing the fields of a timer that is not listed leaves the list queued. */
  lemma UpdateKeepsQueued(l: seq<Timer>, st: Table, t: Timer, f: Fields, now: Tick, lo: nat)
    requires Queued(l, st, now, lo) && t !in l
    ensures Queued(l, st[t := f], now, lo)
  {
    var st' := st[t := f];
    forall i | 0 <= i < |l| ensures st'[l[i]] == st[l[i]] {
      assert l[i] in l;
    }
  }

  /**
   * The insertion point of the skip-list search: the first timer strictly
   * after `key`, or the end.
   */
  function FirstAfter(l: seq<Timer>, st: Table, key: Tick): (p: nat)
    requires forall x | x in l :: x in st
    ensures p <= |l|
    ensures forall j | 0 <= j < p :: Compare(st[l[j]].ticklimit, key) == -1
    ensures p < |l| ==> Compare(st[l[p]].ticklimit, key) == 1
  {
    if l == [] then 0
    else if Compare(st[l[0]].ticklimit, key) == 1 then 0
    else 1 + FirstAfter(l[1..], st, key)
  }

  /** The insertion point is characterised by its two defining properties. */
  lemma {:induction false} FirstAfterIs(l: seq<Timer>, st: Table, key: Tick, p: nat)
    requires forall x | x in l :: x in st
    requires p <= |l|
    requires forall j | 0 <= j < p :: Compare(st[l[j]].ticklimit, key) == -1
    requires p < |l| ==> Compare(st[l[p]].ticklimit, key) == 1
    ensures FirstAfter(l, st, key) == p
  {
    if p > 0 {
      assert forall j | 0 <= j < p - 1 :: l[1..][j] == l[j + 1];
      FirstAfterIs(l[1..], st, key, p - 1);
    }
  }

  /** Where each element of `l` lands when `t` is spliced in at `p`. */
  lemma SpliceIndex(l: seq<Timer>, t: Timer, p: nat)
    requires p <= |l|
    ensures var r := l[..p] + [t] + l[p..];
            |r| == |l| + 1 && r[p] == t &&
            (forall k | 0 <= k < p :: r[k] == l[k]) &&
            (forall k | p < k < |r| :: r[k] == l[k - 1])
  {
  }

  /**
   * `MDS_SkipListInsertNode` at the position the search found: `t` goes
   * before the first timer strictly after its limit.
   */
  function Insert(l: seq<Timer>, st: Table, t: Timer): (r: seq<Timer>)
    requires forall x | x in l :: x in st
    requires t in st
    ensures t in r && |r| == |l| + 1
    ensures forall y | y in r :: y == t || y in l
    ensures forall y | y in l :: y in r
  {
    var p := FirstAfter(l, st, st[t].ticklimit);
    assert l == l[..p] + l[p..];
    l[..p] + [t] + l[p..]
  }

  /**
   * Linking a pending timer keeps the list queued: it goes after every timer
   * expiring no later and before every timer expiring strictly later.
   */
  lemma InsertKeepsQueued(l: seq<Timer>, st: Table, t: Timer, now: Tick, lo: nat)
    requires Queued(l, st, now, lo) && t !in l
    requires t in st && Pending(st[t], now, lo)
    ensures Queued(Insert(l, st, t), st, now, lo)
    ensures var p := FirstAfter(l, st, st[t].ticklimit);
            Insert(l, st, t)[p] == t &&
            (forall j | 0 <= j < p :: st[l[j]].Ahead(now) <= st[t].Ahead(now)) &&
            (forall j | p <= j < |l| :: st[l[j]].Ahead(now) > st[t].Ahead(now))
  {
    var key := st[t].ticklimit;
    var p := FirstAfter(l, st, key);
    var r := Insert(l, st, t);
    SpliceIndex(l, t, p);
    forall j | 0 <= j < |l|
      ensures j < p ==> st[l[j]].Ahead(now) <= st[t].Ahead(now)
      ensures j >= p ==> st[l[j]].Ahead(now) > st[t].Ahead(now)
    {
      CompareInWindow(st[l[j]].ticklimit, key, now);
      if j >= p {
        CompareInWindow(st[l[p]].ticklimit, key, now);
      }
    }
    forall i | 0 <= i < |r|
      ensures r[i] in st && Pending(st[r[i]], now, lo)
    {
      if i < p { assert r[i] == l[i]; } else if i > p { assert r[i] == l[i - 1]; }
    }
    forall i, j | 0 <= i < j < |r|
      ensures st[r[i]].Ahead(now) <= st[r[j]].Ahead(now) && r[i] != r[j]
    {
      if j < p {
        assert r[i] == l[i] && r[j] == l[j];
      } else if j == p {
        assert r[i] == l[i];
      } else if i < p {
        assert r[i] == l[i] && r[j] == l[j - 1];
      } else if i == p {
        assert r[j] == l[j - 1];
      } else {
        assert r[i] == l[i - 1] && r[j] == l[j - 1];
      }
    }
  }

  /** Moving `now` forward by `d`, no further than the expiry, brings the expiry `d` closer. */
  lemma ShiftAhead(f: Fields, now: Tick, d: Tick)
    requires d <= f.Ahead(now)
    ensures f.Ahead(TickAdd(now, d)) == f.Ahead(now) - d
  {
  }

  /**
   * Advancing the clock by `d` ticks, no further than the first expiry,
   * keeps the list queued: every distance shrinks by `d`.
   */
  lemma ShiftKeepsQueued(l: seq<Timer>, st: Table, now: Tick, d: Tick)
    requires Queued(l, st, now, d)
    ensures Queued(l, st, TickAdd(now, d), 0)
    ensures forall i | 0 <= i < |l| :: st[l[i]].Ahead(TickAdd(now, d)) == st[l[i]].Ahead(now) - d
  {
    var next := TickAdd(now, d);
    forall i | 0 <= i < |l| ensures st[l[i]].Ahead(next) == st[l[i]].Ahead(now) - d {
      ShiftAhead(st[l[i]], now, d);
    }
  }

  /** A list queued at distance `lo` whose first timer is at least `hi` away is queued at distance `hi`. */
  lemma RaiseLo(l: seq<Timer>, st: Table, now: Tick, lo: nat, hi: nat)
    requires Queued(l, st, now, lo)
    requires l != [] ==> hi <= st[l[0]].Ahead(now)
    ensures Queued(l, st, now, hi)
  {
    if l != [] {
      HeadIsEarliest(l, st, now, lo);
      forall i | 0 <= i < |l| ensures hi <= st[l[i]].Ahead(now) {
        assert l[i] in l;
      }
    }
  }

  /**
   * What the kernel sleeps for without ticks: `next - curr` when the next
   * expiry is numerically above the current tick, 0 otherwise.
   */
  function SleepTick(next: Tick, curr: Tick): (s: Tick)
    ensures next > curr ==> TickAdd(curr, s) == next && s > 0
    ensures next <= curr ==> s == 0
  {
    if next > curr then next - curr else 0
  }

  /**
   * The plain comparison does not follow the wraparound: an expiry that lies
   * just past the 32-bit wrap, though only a few ticks ahead, gives no sleep.
   */
  lemma SleepTickAcrossWrap()
    ensures TickSub(0x10, 0xFFFF_FFF0) == 0x20 && SleepTick(0x10, 0xFFFF_FFF0) == 0
  {
  }

  /** `MDS_CLOCK_TICK_TO_MS` at the configured 1 kHz tick: one tick is one millisecond. */
  function TickToMs(ticks: Tick): (ms: nat)
    ensures ms == ticks
  {
    ticks * 1000 / TICK_FREQ_HZ
  }

  /** `MDS_KernelGetCritical`: the signed nest counter read back as a 32-bit `size_t`. */
  function AsSize(n: int): (r: Size)
    ensures 0 <= n <= SIZE_MAX ==> r == n
    ensures -(SIZE_MAX + 1) <= n < 0 ==> r == n + SIZE_MAX + 1
  {
    n % (SIZE_MAX + 1)
  }

  /** The globals of nosys.c: tick counter, critical nesting, wall-clock base and the timer engine. */
  class Sys {
    var tick: Tick
    var critical: int
    var timeBase: int
    var timeZone: Int8
    /** The bottom level of the timer skip list. */
    var timers: seq<Timer>
    /** The fields of every initialised timer. */
    var table: Table

    /** Between ticks: the list is queued and nothing on it is due. */
    ghost predicate Valid()
      reads this
    {
      Queued(timers, table, tick, 1)
    }

    /** The globals at reset, with the timer list initialised (`MDS_SysTimerInit`). */
    constructor ()
      ensures Valid() && tick == 0 && critical == 0 && timers == [] && table == map[]
    {
      tick := 0;
      critical := 0;
      timeBase := 0;
      timeZone := 0;
      timers := [];
      table := map[];
    }

    function Active(t: Timer): bool
      reads this
    {
      t in table && table[t].Active()
    }

    /**
     * `MDS_TimerStart`: a delay of `TIMER_MAX` or more is refused with
     * `EINVAL`. Otherwise the timer is unlinked and marked inactive; a
     * positive delay then sets `tickstart = now`, `ticklimit = now + ticks`,
     * links it before the first timer strictly after that limit and marks it
     * active. The ghost `lo` is the least distance the caller's list keeps:
     * 1 between ticks, 0 while expired timers are being processed.
     */
    method Start(t: Timer, ticks: Tick, ghost lo: nat) returns (err: Err)
      requires Queued(timers, table, tick, lo) && lo <= 1 && t in table
      modifies this`timers, this`table
      ensures Queued(timers, table, tick, lo)
      ensures err == (if ticks >= TIMER_MAX then EINVAL else EOK)
      ensures err == EINVAL ==> timers == old(timers) && table == old(table)
      ensures err == EOK && ticks == 0 ==>
                timers == Remove(old(timers), t) && !Active(t) &&
                table == old(table)[t := old(table)[t].Stopped()]
      ensures err == EOK && ticks > 0 ==>
                table == old(table)[t := old(table)[t].Started(tick, ticks)] &&
                timers == Insert(Remove(old(timers), t), table, t)
    {
      if ticks >= TIMER_MAX {
        return EINVAL;
      }
      Unlink(t, lo);
      if ticks > 0 {
        old(table)[t].StartedAfterStopped(tick, ticks);
        UpdateTwice(old(table), t, old(table)[t].Stopped(), old(table)[t].Started(tick, ticks));
        Link(t, ticks, lo);
      }
      err := EOK;
    }

    /** The first half of a (re)start: `t` leaves the list and is marked inactive. */
    method Unlink(t: Timer, ghost lo: nat)
      requires Queued(timers, table, tick, lo) && t in table
      modifies this`timers, this`table
      ensures timers == Remove(old(timers), t) && t !in timers
      ensures table == old(table)[t := old(table)[t].Stopped()]
      ensures Queued(timers, table, tick, lo)
    {
      RemoveKeepsQueued(timers, t, table, tick, lo);
      timers := Remove(timers, t);
      var f := table[t].Stopped();
      UpdateKeepsQueued(timers, table, t, f, tick, lo);
      table := table[t := f];
    }

    /** The second half of a start with a positive delay: `t` is timed from now and linked at its place. */
    method Link(t: Timer, ticks: Tick, ghost lo: nat)
      requires Queued(timers, table, tick, lo) && t !in timers && t in table
      requires lo <= ticks < TIMER_MAX && 0 < ticks
      modifies this`timers, this`table
      ensures table == old(table)[t := old(table)[t].Started(tick, ticks)]
      ensures timers == Insert(old(timers), table, t)
      ensures Queued(timers, table, tick, lo)
    {
      var rest := timers;
      var f := table[t].Started(tick, ticks);
      UpdateKeepsQueued(rest, table, t, f, tick, lo);
      table := table[t := f];
      var p := 0;
      while p < |rest| && Compare(table[rest[p]].ticklimit, f.ticklimit) != 1
        invariant 0 <= p <= |rest|
        invariant forall j | 0 <= j < p :: Compare(table[rest[j]].ticklimit, f.ticklimit) == -1
      {
        p := p + 1;
      }
      FirstAfterIs(rest, table, f.ticklimit, p);
      InsertKeepsQueued(rest, table, t, tick, lo);
      timers := rest[..p] + [t] + rest[p..];
      assert timers == Insert(rest, table, t);
    }

    /** `MDS_TimerStop`: an active timer is unlinked and marked inactive; an inactive one is left alone. */
    method Stop(t: Timer) returns (err: Err)
      requires Valid() && t in table
      modifies this`timers, this`table
      ensures Valid() && err == EOK
      ensures old(Active(t)) ==>
                timers == Remove(old(timers), t) &&
                table == old(table)[t := old(table)[t].Stopped()]
      ensures !old(Active(t)) ==> timers == old(timers) && table == old(table)
      ensures !Active(t) && t !in timers
    {
      if table[t].flags & FLAG_ACTIVED != 0 {
        Unlink(t, 1);
      }
      err := EOK;
    }

    /** `MDS_TimerIsActived`: exactly the active flag; every linked timer is active. */
    method IsActived(t: Timer) returns (b: bool)
      requires Valid() && t in table
      ensures b == Active(t)
      ensures t in timers ==> b
    {
      b := table[t].flags & FLAG_ACTIVED != 0;
    }

    /**
     * `MDS_TimerInit`: the object header is registered as a timer
     * (`MDS_ObjectInit`, which refuses a header in use with `EAGAIN`); on
     * success the timer takes the requested type without the active flag.
     * Only a header not in use may be linked afresh, so such a timer must
     * not be on the list.
     */
    method Init(t: Timer, reg: Objects.Registry, name: string, ty: bv32) returns (err: Err)
      requires Valid() && reg.Valid()
      requires t.obj.flags == 0 ==> t !in timers
      modifies this`table, reg, t.obj
      ensures Valid() && reg.Valid() && timers == old(timers)
      ensures err == (if old(t.obj.flags) != 0 then EAGAIN else EOK)
      ensures err == EAGAIN ==> table == old(table) && reg.lists == old(reg.lists)
      ensures err == EOK ==>
                table == old(table)[t := (if t in old(table) then old(table)[t] else ZERO).Typed(ty)] &&
                Objects.GetType(t.obj.flags) == Objects.TYPE_TIMER &&
                reg.lists == old(reg.lists)[Objects.TYPE_TIMER := old(reg.lists)[Objects.TYPE_TIMER] + [t.obj]]
    {
      err := reg.Init(t.obj, Objects.TYPE_TIMER, name);
      if err == EOK {
        Objects.CreatedBitIsSeparate(0, Objects.TYPE_TIMER);
        var f := (if t in table then table[t] else ZERO).Typed(ty);
        UpdateKeepsQueued(timers, table, t, f, tick, 1);
        table := table[t := f];
      }
    }

    /**
     * `MDS_TimerCreate`: `mem` is the zeroed memory `MDS_ObjectCreate`
     * obtained for the timer (`None` when the heap is exhausted). The header
     * is registered as a created timer, which takes the requested type
     * without the active flag.
     */
    method Create(mem: Option<Timer>, reg: Objects.Registry, name: string, ty: bv32) returns (r: Option<Timer>)
      requires Valid() && reg.Valid()
      requires mem.Some? ==> mem.value.obj.flags == 0 && mem.value !in timers
      modifies this`table, reg, if mem.Some? then {mem.value.obj} else {}
      ensures Valid() && reg.Valid() && timers == old(timers) && r == mem
      ensures r.None? ==> table == old(table) && reg.lists == old(reg.lists)
      ensures r.Some? ==>
                table == old(table)[r.value := ZERO.Typed(ty)] &&
                Objects.GetType(r.value.obj.flags) == Objects.TYPE_TIMER && Objects.IsCreated(r.value.obj.flags) &&
                reg.lists == old(reg.lists)[Objects.TYPE_TIMER := old(reg.lists)[Objects.TYPE_TIMER] + [r.value.obj]]
    {
      var o := reg.Create(if mem.Some? then Some(mem.value.obj) else None, Objects.TYPE_TIMER, name);
      if mem.None? {
        return None;
      }
      var t := mem.value;
      var f := ZERO.Typed(ty);
      UpdateKeepsQueued(timers, table, t, f, tick, 1);
      table := table[t := f];
      r := mem;
    }

    /** `MDS_TimerDeInit`: the timer is stopped and its header leaves the registry. */
    method DeInit(t: Timer, reg: Objects.Registry) returns (err: Err)
      requires Valid() && reg.Valid() && t in table
      modifies this`timers, this`table, reg, t.obj
      ensures Valid() && reg.Valid() && err == EOK
      ensures !Active(t) && t !in timers && timers == Remove(old(timers), t)
      ensures t.obj.flags == 0 && |reg.lists| == Objects.TYPE_COUNT
      ensures forall u | 0 <= u < Objects.TYPE_COUNT :: reg.lists[u] == Remove(old(reg.lists)[u], t.obj)
    {
      var _ := Stop(t);
      err := reg.DeInit(t.obj);
    }

    /**
     * `MDS_TimerDestroy`: the timer is stopped first, and only then is its
     * header checked for having been created: a timer that was not created
     * is refused with `EFAULT` but is left stopped.
     */
    method Destroy(t: Timer, reg: Objects.Registry) returns (err: Err)
      requires Valid() && reg.Valid() && t in table
      modifies this`timers, this`table, reg, t.obj
      ensures Valid() && reg.Valid()
      ensures err == (if Objects.IsCreated(old(t.obj.flags)) then EOK else EFAULT)
      ensures !Active(t) && t !in timers && timers == Remove(old(timers), t)
      ensures err == EFAULT ==> reg.lists == old(reg.lists)
      ensures err == EOK ==> t.obj.flags == 0 && |reg.lists| == Objects.TYPE_COUNT &&
                             forall u | 0 <= u < Objects.TYPE_COUNT :: reg.lists[u] == Remove(old(reg.lists)[u], t.obj)
    {
      var _ := Stop(t);
      err := reg.Destory(t.obj);
    }

    /**
     * `MDS_SysTimerNextTick` (through `TIMER_NextTickoutTimer`):
     * `TICK_FOREVER` with no timer pending, otherwise the limit of the first
     * timer, which no other pending timer precedes.
     */
    function NextTick(): (r: Tick)
      reads this
      requires Valid()
      ensures timers == [] ==> r == TICK_FOREVER
      ensures timers != [] ==> r == table[timers[0]].ticklimit &&
                               forall x | x in timers :: TickSub(r, tick) <= table[x].Ahead(tick)
    {
      if timers == [] then TICK_FOREVER
      else
        HeadIsEarliest(timers, table, tick, 1);
        table[timers[0]].ticklimit
    }

    /**
     * `MDS_KernelGetSleepTick`: how long the kernel may sleep before the next
     * expiry. It never reaches past the first pending timer.
     */
    function GetSleepTick(): (s: Tick)
      reads this
      requires Valid()
      ensures timers != [] ==> s <= table[timers[0]].Ahead(tick)
      ensures timers == [] ==> s == TICK_FOREVER - tick
    {
      SleepTick(NextTick(), tick)
    }

    /**
     * `MDS_ClockIncTickCount`: the tick count advances by one, wrapping at
     * 2^32, and the due timers fire (`MDS_SysTimerCheck`).
     */
    method IncTickCount()
      requires Valid()
      modifies this`tick, this`timers, this`table
      ensures tick == TickAdd(old(tick), 1) && Valid()
      ensures table.Keys == old(table.Keys)
      ensures forall x | x in timers :: x in old(timers)
      ensures forall x | x in old(timers) :: Outcome(x, old(table), timers, table, tick)
      ensures forall x | x in table && x !in old(timers) :: table[x] == old(table)[x]
    {
      ShiftKeepsQueued(timers, table, tick, 1);
      tick := TickAdd(tick, 1);
      Check();
    }

    /**
     * `MDS_ClockSetTickCount`: the tick count is overwritten; the timers are
     * not consulted. The list stays queued when the new count is reached by
     * going forward less far than the first expiry.
     */
    method SetTickCount(tickcnt: Tick)
      modifies this`tick
      ensures tick == tickcnt && timers == old(timers) && table == old(table)
      ensures old(Valid()) && (timers != [] ==> TickSub(tickcnt, old(tick)) < table[timers[0]].Ahead(old(tick))) ==>
                Valid()
    {
      var d := TickSub(tickcnt, tick);
      if Valid() && (timers != [] ==> d < table[timers[0]].Ahead(tick)) {
        RaiseLo(timers, table, tick, 1, d);
        ShiftKeepsQueued(timers, table, tick, d);
        assert TickAdd(tick, d) == tickcnt;
        RaiseLo(timers, table, tickcnt, 0, 1);
      }
      tick := tickcnt;
    }

    /**
     * `MDS_KernelCompensateTick`: after sleeping, the ticks slept are added
     * to the count at once and the due timers fire. The compensation must
     * not pass the first expiry, as when it is at most `GetSleepTick()`.
     */
    method CompensateTick(ticks: Tick)
      requires Valid()
      requires timers != [] ==> ticks <= table[timers[0]].Ahead(tick)
      modifies this`tick, this`timers, this`table
      ensures tick == TickAdd(old(tick), ticks) && Valid()
      ensures table.Keys == old(table.Keys)
      ensures forall x | x in timers :: x in old(timers)
      ensures forall x | x in old(timers) :: Outcome(x, old(table), timers, table, tick)
      ensures forall x | x in table && x !in old(timers) :: table[x] == old(table)[x]
    {
      RaiseLo(timers, table, tick, 1, ticks);
      ShiftKeepsQueued(timers, table, tick, ticks);
      tick := TickAdd(tick, ticks);
      Check();
    }

    /** `MDS_KernelEnterCritical`: one more level of critical-section nesting. */
    method EnterCritical()
      modifies this`critical
      ensures critical == old(critical) + 1
    {
      critical := critical + 1;
    }

    /** `MDS_KernelExitCritical`: one level of nesting less. */
    method ExitCritical()
      modifies this`critical
      ensures critical == old(critical) - 1
    {
      critical := critical - 1;
    }

    /** `MDS_KernelGetCritical`: the nesting depth returned as `size_t`. */
    function GetCritical(): (r: Size)
      reads this
      ensures 0 <= critical <= SIZE_MAX ==> r == critical
      ensures -(SIZE_MAX + 1) <= critical < 0 ==> r == critical + SIZE_MAX + 1
    {
      AsSize(critical)
    }

    /** `MDS_ClockGetTimestamp`: the wall-clock base plus the milliseconds counted by the tick. */
    function GetTimestamp(): (r: (int, Int8))
      reads this
      ensures r.0 == timeBase + tick && r.1 == timeZone
    {
      (timeBase + TickToMs(tick), timeZone)
    }

    /**
     * `MDS_ClockSetTimestamp`: the base is chosen so that reading the clock
     * at the current tick gives back `ts` and `tz`.
     */
    method SetTimestamp(ts: int, tz: Int8)
      modifies this`timeBase, this`timeZone
      ensures GetTimestamp() == (ts, tz)
      ensures timeBase == ts - old(tick)
    {
      timeBase := ts - TickToMs(tick);
      timeZone := tz;
    }

    /**
     * `TIMER_Check`: while the first timer is due (`now - ticklimit` less than
     * `TIMER_MAX`), unlink it, clear the active flag of a one-shot timer and
     * restart a periodic one with its own period. Afterwards nothing is due,
     * and every timer that was listed has met its `Outcome`; timers that were
     * not listed are untouched.
     */
    method Check()
      requires Queued(timers, table, tick, 0)
      modifies this`timers, this`table
      ensures Valid()
      ensures table.Keys == old(table.Keys)
      ensures forall x | x in timers :: x in old(timers)
      ensures forall x | x in old(timers) :: Outcome(x, old(table), timers, table, tick)
      ensures forall x | x in table && x !in old(timers) :: table[x] == old(table)[x]
    {
      ghost var due := set x | x in timers && table[x].Ahead(tick) == 0;
      while timers != []
        invariant Queued(timers, table, tick, 0)
        invariant CheckInv(old(timers), old(table), timers, table, tick, due)
        decreases |due|
      {
        var t := timers[0];
        if TickSub(tick, table[t].ticklimit) >= TIMER_MAX {
          HeadNotDue(timers, table, tick);
          break;
        }
        ghost var l, st := timers, table;
        DueIsZero(table[t], tick);
        FireHead();
        CheckStep(old(timers), old(table), l, st, timers, table, tick, due);
        due := due - {t};
      }
      if timers == [] {
        assert Queued(timers, table, tick, 1);
      }
    }

    /**
     * One round of `TIMER_Check` on a due head timer: it is unlinked; a
     * one-shot timer is marked inactive, a periodic one restarted with its
     * period (`MDS_TimerStart`).
     */
    method FireHead()
      requires Queued(timers, table, tick, 0) && timers != []
      requires table[timers[0]].Ahead(tick) == 0
      modifies this`timers, this`table
      ensures Queued(timers, table, tick, 0)
      ensures var t := old(timers[0]);
              table == old(table)[t := Fire(old(table)[t], tick)] &&
              (forall y | y in timers :: y in old(timers)) &&
              (forall y | y in old(timers[1..]) :: y in timers) &&
              (t in timers <==> old(table)[t].flags & TYPE_PERIOD != 0)
    {
      var t := timers[0];
      TailKeepsQueued(timers, table, tick, 0);
      timers := timers[1..];
      if table[t].flags & TYPE_PERIOD == 0 {
        UpdateKeepsQueued(timers, table, t, table[t].Stopped(), tick, 0);
        table := table[t := table[t].Stopped()];
      }
      if table[t].flags & (FLAG_ACTIVED | TYPE_PERIOD) == FLAG_ACTIVED | TYPE_PERIOD {
        var _ := Start(t, table[t].Period(), 0);
      }
    }
  }

  /** Neither distance below `TIMER_MAX`: a listed timer is due exactly when its distance is 0. */
  lemma DueIsZero(f: Fields, now: Tick)
    requires f.Ahead(now) < TIMER_MAX
    ensures TickSub(now, f.ticklimit) < TIMER_MAX <==> f.Ahead(now) == 0
  {
  }

  /** When the first timer is not due, no listed timer is due. */
  lemma HeadNotDue(l: seq<Timer>, st: Table, now: Tick)
    requires Queued(l, st, now, 0) && l != []
    requires TickSub(now, st[l[0]].ticklimit) >= TIMER_MAX
    ensures Queued(l, st, now, 1)
    ensures forall x | x in l :: x in st && st[x].Ahead(now) != 0
  {
    DueIsZero(st[l[0]], now);
    HeadIsEarliest(l, st, now, 0);
  }

  /**
   * The bookkeeping of the expiry check against the list `l0` and table
   * `st0` it started from: `due` holds the due timers not yet processed,
   * still listed and untouched; every other timer listed at the start has
   * met its `Outcome`; nothing new was listed and unlisted timers are untouched.
   */
  ghost predicate CheckInv(l0: seq<Timer>, st0: Table, l: seq<Timer>, st: Table, now: Tick, due: set<Timer>)
  {
    st.Keys == st0.Keys &&
    (forall x | x in l :: x in l0) &&
    (forall x | x in due :: x in l && x in st && x in st0 && st[x] == st0[x] && st[x].Ahead(now) == 0) &&
    (forall x | x in l && x in st && st[x].Ahead(now) == 0 :: x in due) &&
    (forall x | x in l0 && x !in due :: Outcome(x, st0, l, st, now)) &&
    (forall x | x in st && x !in l0 :: x in st0 && st[x] == st0[x])
  }

  /** One round of the expiry check keeps its bookkeeping, with the head timer leaving `due`. */
  lemma CheckStep(l0: seq<Timer>, st0: Table, l: seq<Timer>, st: Table,
                  l2: seq<Timer>, st2: Table, now: Tick, due: set<Timer>)
    requires Queued(l, st, now, 0) && CheckInv(l0, st0, l, st, now, due)
    requires l != [] && st[l[0]].Ahead(now) == 0
    requires st2 == st[l[0] := Fire(st[l[0]], now)]
    requires forall y | y in l2 :: y in l
    requires forall y | y in l[1..] :: y in l2
    requires l[0] in l2 <==> st[l[0]].flags & TYPE_PERIOD != 0
    requires Queued(l2, st2, now, 0)
    ensures CheckInv(l0, st0, l2, st2, now, due - {l[0]})
  {
    var t := l[0];
    HeadIsEarliest(l, st, now, 0);
    assert t in due;
    forall x | x in l2 && x in st2 && st2[x].Ahead(now) == 0
      ensures x in due - {t}
    {
      if x == t {
        assert false;
      }
    }
    forall x | x in l0 && x !in due - {t}
      ensures Outcome(x, st0, l2, st2, now)
    {
      if x != t {
        assert Outcome(x, st0, l, st, now);
        if st0[x].Ahead(now) != 0 {
          assert x in l;
          if x == l[0] { assert false; }
          assert x in l[1..];
        }
      }
    }
  }

  /** What a timer's fields become when it fires: a one-shot timer stops, a periodic one restarts from `now`. */
  function Fire(f: Fields, now: Tick): (g: Fields)
    ensures f.flags & TYPE_PERIOD == 0 ==> !g.Active()
    ensures f.flags & TYPE_PERIOD != 0 ==> g.Active() && g.Period() == f.Period() && g.tickstart == now
  {
    if f.flags & TYPE_PERIOD == 0 then f.Stopped() else f.Started(now, f.Period())
  }

  /**
   * What a pass of the expiry check leaves of a timer that was listed: one
   * not due at `now` is untouched and still listed; a due one has fired and
   * stays listed exactly when it is periodic.
   */
  ghost predicate Outcome(x: Timer, st0: Table, l: seq<Timer>, st: Table, now: Tick)
  {
    x in st0 && x in st &&
    if st0[x].Ahead(now) != 0 then x in l && st[x] == st0[x]
    else st[x] == Fire(st0[x], now) && (x in l <==> st0[x].flags & TYPE_PERIOD != 0)
  }
}

=== FILE: waitlist.dfy ===
/**
 * The wait-list protocol shared by every blocking primitive of ipc.c
 * (`IPC_ListSuspendThread`, `IPC_ListResumeThread`,
 * `IPC_ListResumeAllThread`, `IPC_ListSuspendWait`).
 *
 * A wait list is the sequence of parked threads, head first. Threads are
 * parked either in priority order (before the first waiter that is strictly
 * less urgent, so FIFO among equals) or at the tail.
 */
module WaitLists {
  import opened Kernel

  type Threads = map<ThreadId, Thread>

  /** Every waiter has a control block. */
  predicate Known(l: seq<ThreadId>, th: Threads)
  {
    forall i | 0 <= i < |l| :: l[i] in th
  }

  /** Waiters in non-decreasing `currPrio`: the most urgent first. */
  predicate Sorted(l: seq<ThreadId>, th: Threads)
    requires Known(l, th)
  {
    forall i, j | 0 <= i < j < |l| :: th[l[i]].currPrio <= th[l[j]].currPrio
  }

  /**
   * Where a thread of priority `p` is parked: before the first waiter with
   * a numerically greater `currPrio`, or at the end.
   */
  function PrioPos(l: seq<ThreadId>, th: Threads, p: nat): (k: nat)
    requires Known(l, th)
    ensures k <= |l|
    ensures forall j | 0 <= j < k :: th[l[j]].currPrio <= p
    ensures k < |l| ==> p < th[l[k]].currPrio
  {
    if l == [] then 0
    else if p < th[l[0]].currPrio then 0
    else 1 + PrioPos(l[1..], th, p)
  }

  /** The position is characterised by its two defining properties. */
  lemma {:induction false} PrioPosIs(l: seq<ThreadId>, th: Threads, p: nat, k: nat)
    requires Known(l, th) && k <= |l|
    requires forall j | 0 <= j < k :: th[l[j]].currPrio <= p
    requires k < |l| ==> p < th[l[k]].currPrio
    ensures PrioPos(l, th, p) == k
  {
    if k > 0 {
      assert forall j | 0 <= j < k - 1 :: l[1..][j] == l[j + 1];
      PrioPosIs(l[1..], th, p, k - 1);
    }
  }

  /** The list after `IPC_ListSuspendThread` has linked `t`. */
  function Enqueue(l: seq<ThreadId>, th: Threads, t: ThreadId, isPrio: bool): (r: seq<ThreadId>)
    requires Known(l, th) && t in th
    ensures |r| == |l| + 1 && t in r
    ensures Known(r, th)
    ensures !isPrio ==> r == l + [t]
  {
    if isPrio then
      var k := PrioPos(l, th, th[t].currPrio);
      l[..k] + [t] + l[k..]
    else
      l + [t]
  }

  /** Where a thread is parked depends on the priorities alone, not on the rest of the control blocks. */
  lemma {:induction false} PrioPosSamePrio(l: seq<ThreadId>, th: Threads, th': Threads, p: nat)
    requires Known(l, th) && Known(l, th')
    requires forall i | 0 <= i < |l| :: th[l[i]].currPrio == th'[l[i]].currPrio
    ensures PrioPos(l, th, p) == PrioPos(l, th', p)
  {
    if l != [] {
      PrioPosSamePrio(l[1..], th, th', p);
    }
  }

  /** Parking `t` adds exactly `t`: no waiter is lost or duplicated. */
  lemma EnqueueIsPermutation(l: seq<ThreadId>, th: Threads, t: ThreadId, isPrio: bool)
    requires Known(l, th) && t in th
    ensures multiset(Enqueue(l, th, t, isPrio)) == multiset(l) + multiset{t}
  {
    if isPrio {
      var k := PrioPos(l, th, th[t].currPrio);
      assert l == l[..k] + l[k..];
    }
  }

  /**
   * Priority parking keeps the list sorted; `t` lands behind every waiter
   * at least as urgent (FIFO among equals) and ahead of every less urgent
   * one, and the other waiters keep their order.
   */
  lemma EnqueueKeepsSorted(l: seq<ThreadId>, th: Threads, t: ThreadId)
    requires Known(l, th) && t in th && Sorted(l, th)
    ensures var r := Enqueue(l, th, t, true);
            Sorted(r, th) &&
            exists k | 0 <= k <= |l| ::
              r == l[..k] + [t] + l[k..] &&
              (forall j | 0 <= j < k :: th[l[j]].currPrio <= th[t].currPrio) &&
              (forall j | k <= j < |l| :: th[t].currPrio < th[l[j]].currPrio)
  {
    var p := th[t].currPrio;
    var k := PrioPos(l, th, p);
    var r := Enqueue(l, th, t, true);
    assert r == l[..k] + [t] + l[k..];
    forall j | k <= j < |l| ensures p < th[l[j]].currPrio {
      assert th[l[k]].currPrio <= th[l[j]].currPrio;
    }
    forall i, j | 0 <= i < j < |r| ensures th[r[i]].currPrio <= th[r[j]].currPrio {
      if j < k {
        assert r[i] == l[i] && r[j] == l[j];
      } else if j == k {
        assert r[i] == l[i];
      } else if i < k {
        assert r[i] == l[i] && r[j] == l[j - 1];
      } else if i == k {
        assert r[j] == l[j - 1];
      } else {
        assert r[i] == l[i - 1] && r[j] == l[j - 1];
      }
    }
  }

  /**
   * `IPC_ListSuspendThread`: the thread is suspended; if it was runnable it
   * is parked on `l` (priority order or tail) and, for a finite timeout
   * (below `TIMER_MAX`), its timeout timer is started. A thread that could
   * not be suspended is not parked. `ok` says whether it was parked.
   */
  method SuspendThread(s: Sched, l: seq<ThreadId>, t: ThreadId, isPrio: bool, timeout: Tick)
    returns (r: seq<ThreadId>, ok: bool)
    requires s.Valid() && t in s.threads && Known(l, s.threads)
    modifies s
    ensures s.Valid() && s.threads.Keys == old(s.threads.Keys) && s.current == old(s.current)
    ensures ok == (t in old(s.ready))
    ensures !ok ==> r == l && s.threads == old(s.threads) && s.ready == old(s.ready) && s.armed == old(s.armed)
    ensures ok ==> r == Enqueue(l, s.threads, t, isPrio) &&
                   s.ready == old(s.ready) - {t} &&
                   s.threads == old(s.threads)[t := old(s.threads)[t].(err := EOK)] &&
                   s.armed == (if timeout < TIMER_MAX then old(s.armed)[t := timeout] else old(s.armed))
    ensures Known(r, s.threads)
  {
    var e := s.Suspend(t);
    if e != EOK {
      return l, false;
    }
    var k := |l|;
    if isPrio {
      k := 0;
      while k < |l| && !(s.threads[t].currPrio < s.threads[l[k]].currPrio)
        invariant 0 <= k <= |l|
        invariant forall j | 0 <= j < k :: s.threads[l[j]].currPrio <= s.threads[t].currPrio
      {
        k := k + 1;
      }
      PrioPosIs(l, s.threads, s.threads[t].currPrio, k);
    }
    r := l[..k] + [t] + l[k..];
    if timeout < TIMER_MAX {
      s.StartTimer(t, timeout);
    }
    ok := true;
  }

  /** `IPC_ListResumeThread`: the head waiter leaves the list and becomes runnable. */
  method ResumeThread(s: Sched, l: seq<ThreadId>) returns (r: seq<ThreadId>)
    requires s.Valid() && l != [] && Known(l, s.threads)
    modifies s
    ensures s.Valid() && r == l[1..] && Known(r, s.threads)
    ensures s.ready == old(s.ready) + {l[0]} && s.armed == old(s.armed) - {l[0]}
    ensures s.threads == old(s.threads) && s.current == old(s.current)
  {
    s.Resume(l[0]);
    r := l[1..];
  }

  /** The waiter that `if (!MDS_ListIsEmpty(list)) IPC_ListResumeThread(list)` wakes: the head, if any. */
  function Front(l: seq<ThreadId>): set<ThreadId>
  {
    if l == [] then {} else {l[0]}
  }

  /** The wait list once its head, if any, is woken. */
  function Behind(l: seq<ThreadId>): seq<ThreadId>
  {
    if l == [] then [] else l[1..]
  }

  /** Wakes the head waiter of `l` when there is one: the release step of the message queue and the memory pool. */
  method ResumeFront(s: Sched, l: seq<ThreadId>) returns (r: seq<ThreadId>)
    requires s.Valid() && Known(l, s.threads)
    modifies s
    ensures s.Valid() && r == Behind(l) && Known(r, s.threads)
    ensures s.ready == old(s.ready) + Front(l) && s.armed == old(s.armed) - Front(l)
    ensures s.threads == old(s.threads) && s.current == old(s.current)
  {
    r := l;
    if l != [] {
      r := ResumeThread(s, l);
    }
  }

  /** The control block of a waiter woken by the teardown of its object. */
  function Forced(th: Thread): (f: Thread)
    ensures f.err == EAGAIN && f.currPrio == th.currPrio && f.eventMask == th.eventMask
  {
    th.(err := EAGAIN)
  }

  /** The threads once every member of `w` has been woken by a teardown. */
  ghost function ForcedOn(th: Threads, w: set<ThreadId>): (r: Threads)
    ensures r.Keys == th.Keys
    ensures forall x | x in r :: r[x] == if x in w then Forced(th[x]) else th[x]
  {
    map x | x in th :: if x in w then Forced(th[x]) else th[x]
  }

  /** Forcing one more thread extends the set forced. */
  lemma ForcedOnGrows(th: Threads, w: set<ThreadId>, t: ThreadId)
    requires t in th
    ensures ForcedOn(th, w)[t := Forced(ForcedOn(th, w)[t])] == ForcedOn(th, w + {t})
  {
    var a := ForcedOn(th, w)[t := Forced(ForcedOn(th, w)[t])];
    var b := ForcedOn(th, w + {t});
    assert forall x | x in a :: a[x] == b[x];
  }

  /** One step of `IPC_ListResumeAllThread`: `t` gets `EAGAIN` and is resumed. */
  method Force(s: Sched, t: ThreadId)
    requires s.Valid() && t in s.threads
    modifies s
    ensures s.Valid() && s.current == old(s.current)
    ensures s.ready == old(s.ready) + {t} && s.armed == old(s.armed) - {t}
    ensures s.threads == old(s.threads)[t := Forced(old(s.threads)[t])]
  {
    s.SetErr(t, EAGAIN);
    s.Resume(t);
  }

  /**
   * `IPC_ListResumeAllThread`: every waiter is woken with `EAGAIN`, head
   * first, until the list is empty.
   */
  method ResumeAll(s: Sched, l: seq<ThreadId>) returns (r: seq<ThreadId>)
    requires s.Valid() && Known(l, s.threads)
    modifies s
    ensures s.Valid() && r == [] && s.current == old(s.current)
    ensures s.ready == old(s.ready) + set x | x in l
    ensures s.armed == old(s.armed) - set x | x in l
    ensures s.threads.Keys == old(s.threads.Keys)
    ensures forall x | x in s.threads ::
              s.threads[x] == if x in l then Forced(old(s.threads)[x]) else old(s.threads)[x]
  {
    r := l;
    ghost var done: seq<ThreadId> := [];
    ghost var woken: set<ThreadId> := {};
    ghost var th, ready, armed := s.threads, s.ready, s.armed;
    while r != []
      invariant s.Valid() && s.current == old(s.current)
      invariant done + r == l
      invariant forall x :: x in woken <==> x in done
      invariant s.ready == ready + woken && s.armed == armed - woken
      invariant s.threads == ForcedOn(th, woken)
      decreases |r|
    {
      var t := r[0];
      assert t == l[|done|];
      ForcedOnGrows(th, woken, t);
      Force(s, t);
      done := done + [t];
      woken := woken + {t};
      r := r[1..];
    }
    assert done == l;
    assert woken == Members(l);
  }

  /** The threads on a list, as a set. */
  function Members(l: seq<ThreadId>): (m: set<ThreadId>)
    ensures forall x :: x in m <==> x in l
  {
    set x | x in l
  }

  /** The threads once the caller `t` has `e` in its error slot (`thread->err = e`). */
  function WithErr(th: Threads, t: ThreadId, e: Err): (r: Threads)
    requires t in th
    ensures r.Keys == th.Keys
    ensures forall x | x in th && x != t :: r[x] == th[x]
    ensures r[t].err == e && r[t].currPrio == th[t].currPrio && r[t].eventMask == th[t].eventMask
  {
    th[t := th[t].(err := e)]
  }

  /**
   * The tail of `IPC_ListSuspendWait` once the caller is running again:
   * the wake reason if it is an error; otherwise `EOK` when less than
   * `timeout` ticks passed during the wait (`delta`), else `ETIMEOUT`.
   */
  function WaitResult(woke: Err, timeout: Tick, delta: Tick): (err: Err)
    ensures woke != EOK ==> err == woke
    ensures woke == EOK ==> (err == EOK <==> delta < timeout) && (err != EOK ==> err == ETIMEOUT)
  {
    if woke != EOK then woke
    else if timeout > delta then EOK
    else ETIMEOUT
  }
}
